=== FILE: README.md ===
# Lost-and-found backend: a Dafny model of its services

This project models the service layer of a lost-and-found web backend. It is
a NestJS application over a PostgreSQL database reached through Prisma. The
model covers:

- **Posts** (`posts.dfy`, `post_filters.dfy`): creating, listing, filtering,
  reading, updating and deleting lost and found items, and liking them.
- **Comments** (`comments.dfy`): creating threaded comments, listing the
  top-level comments of a post with one level of replies, updating, deleting
  and liking them.
- **Users** (`users.dfy`): the profile read by id and by user name, the
  profile update, a user's own page of posts and a user's statistics.
- **Dashboard** (`dashboard.dfy`): the signed-in user's counts and the page
  of the user's posts, optionally restricted to one status.
- **Search** (`search.dfy`): a case-insensitive search over six post
  columns.
- **Upload** (`upload.dfy`): the image upload guards and the stored file
  name.
- **Pagination** (`pagination.dfy`, `pagination_dto.dfy`): the skip/take
  helpers, the paginated envelope and the query DTO's validated bounds.
- **Database bootstrap** (`database.dfy`): connection-URL normalisation and
  the connect loop with exponential backoff.

The database itself is `Store.Db`, a class whose fields are the tables:

- posts and comments in insertion order;
- users keyed by id;
- post likes and comment likes as sets of (user, target) pairs;
- category names.

Each of its methods is one write a service issues. It changes one table and
preserves `Valid()`, which holds the constraints the model keeps: unique keys,
unique user names, and every post and comment pointing at an existing author. The
schema's other foreign keys (comment to post, comment to parent, like to post
or comment) are not part of `Valid()`, because the deletes do not cascade.

Services that write are methods over a `Db`. Each states the whole new
snapshot as a function of the old one. Reads are functions over a `Tables`
snapshot. A `findMany` with `orderBy: { createdAt: 'desc' }`, `skip` and
`take` becomes a page of `Lists.SortedSelection` (a stable newest-first
selection), and a `count` with the same `where` becomes `Lists.Count`. The
`where` objects the services build are modelled as data (`PostFilters.Where`)
with a meaning (`PostFilters.Matches`). Each builder is proved to select
exactly the posts its filter describes.

Supporting modules:

- `Wrappers` holds `Option`, `Result`, the failure kinds and the three-way
  optional DTO field (`undefined` / `null` / value).
- `Text` holds ASCII case mapping, substring search, trim, split and join.
- `Lists` holds selection, counting, sorting and paging over sequences.
- `Entities` holds the rows and the enums of the schema.

## Model

| member | source | states |
|---|---|---|
| Pagination.GetSkip | src/common/utils/pagination.util.ts:2-4 | the skip is never negative for a page of 1 or more and a limit of 0 or more |
| Pagination.GetTake | src/common/utils/pagination.util.ts:6-8 | the take is the limit capped at 50: never above either, and equal to one of them |
| Pagination.PagesTile | src/common/utils/pagination.util.ts:2-4 | consecutive pages start exactly `limit` rows apart, so pages neither overlap nor leave gaps |
| Pagination.CeilDivBounds | src/common/utils/pagination.util.ts:16 | `Math.ceil(total / limit)` is 0 for no rows; otherwise it is the least page count whose pages hold every row |
| Pagination.BelowLastPage | src/common/utils/pagination.util.ts:24 | `page < totalPages` holds exactly when `page * limit < total` |
| Pagination.CreatePaginatedResponse | src/common/utils/pagination.util.ts:10-27 | data, total, page and limit are echoed; totalPages is the least count of pages covering total; hasNext iff rows lie beyond this page; hasPrev iff page > 1 |
| Pagination.PageInfoOf | src/modules/dashboard/dashboard.service.ts:63-75 | the `pagination` object of the dashboard and search results: same fields and the same laws as the envelope |
| Pagination.PageInfoAgreesWithEnvelope | src/modules/search/search.service.ts:51-62 | the nested `pagination` object carries exactly the envelope's page, limit, total, totalPages, hasNext and hasPrev |
| Pagination.EmptyFirstPage | src/common/utils/pagination.util.ts:10-27 | an empty result on page 1 has no pages, no next and no previous page |
| Pagination.NumberOr | src/modules/posts/posts.service.ts:176-179 | `Number(x) \|\| d` gives the given number when it is present and not 0, and the default when it is absent or 0; a positive default makes the result positive |
| Pagination.WindowsAgreeWithinCap | src/modules/posts/posts.service.ts:176-179 | for limits up to 50, the combined listing's window equals the clamped window |
| Pagination.UncappedLimitSkipsRows | src/modules/posts/posts.service.ts:176-179 | as written: with 120 posts and limit 100, neither of the 2 advertised pages serves row 50 |
| Pagination.ClampedWindowServesEveryRow | src/common/utils/pagination.util.ts:2-8 | corrected: paging by the capped take, every row lies on one page within totalPages |
| PaginationDto.DefaultQuery | src/common/dto/pagination.dto.ts:5-30 | the defaults are page 1, limit 10, descending order, and they pass validation |
| PaginationDto.ValidatedQueryWindow | src/common/dto/pagination.dto.ts:12-17 | a validated limit (1 to 50) is never capped by getTake, the skip is non-negative, and page 1 skips nothing |
| PaginationDto.PaginatedResponseDto.constructor | src/common/dto/pagination.dto.ts:54-62 | the fields are echoed, totalPages is the ceiling, hasNext iff `page * limit < total`, hasPrev iff page > 1, and the DTO equals the utility's envelope |
| Database.SetThenGet | src/database/database.providers.ts:30-37 | after `params.set(k, v)` the parameter `k` reads `v` |
| Database.EnsureSecurePostgresUrl | src/database/database.providers.ts:20-45 | an empty, unparsable or non-postgres URL is returned untouched; otherwise the URL is serialised with the normalised parameters |
| Database.NormalisedValues | src/database/database.providers.ts:30-38 | after normalisation every parameter already present reads as before; a missing sslmode reads `require`; on a `.supabase.co` host a missing pgbouncer reads `true` and a missing connection_limit reads `1`; any other name stays absent |
| Database.NormaliseOnlyAppends | src/database/database.providers.ts:30-38 | normalisation never changes or drops a parameter already present; it only appends |
| Database.UnmanagedHostOnlyGetsSsl | src/database/database.providers.ts:30-38 | off `.supabase.co`, the only change is `sslmode=require` appended when sslmode is missing |
| Database.NormaliseIdempotent | src/database/database.providers.ts:20-45 | normalising a normalised parameter list changes nothing |
| Database.BackoffDelays | src/database/database.providers.ts:62 | the delay after failed attempt k is `base * 2^(k-1)` |
| Database.TotalBackoff | src/database/database.providers.ts:55-70 | n failed attempts sleep `base * (2^n - 1)` ms in total |
| Database.ConnectWithRetry | src/database/database.providers.ts:47-74 | ready iff some attempt within maxAttempts connects; it is then the first connecting attempt, after the backoff of the failures before it; otherwise fatal with the last error's message after maxAttempts backoffs |
| Database.TwoFailuresThenSuccess | src/database/database.providers.ts:49-50 | with the defaults, two failures then a success: ready on attempt 3 after sleeping 500 and 1000 ms |
| Database.FiveFailures | src/database/database.providers.ts:49-73 | with the defaults, five failures: fatal with the last message, after 5 sleeps totalling 500 * 31 ms |
| Entities.ParseStatus | src/modules/posts/posts.service.ts:28 | a status name that parses names that status |
| Entities.ParseContact | src/modules/posts/posts.service.ts:38 | a contact name that parses names that contact method |
| Entities.StatusNames | src/modules/posts/posts.service.ts:435 | every status parses back from its name, and its name is upper case |
| Entities.ContactNames | src/modules/posts/posts.service.ts:451 | every contact method parses back from its name, and its name is upper case |
| Entities.ImageFor | src/modules/posts/posts.service.ts:42-46 | an image keeps its url; its file name is never empty and holds no `/`; a url ending in `/` gets the file name `image.jpg` |
| Entities.ImageNamedAfterLastSegment | src/modules/posts/posts.service.ts:45 | the file name of `dir/name` is `name` |
| Entities.FindPost | src/modules/posts/posts.service.ts:244 | `findUnique` by id: a found post is stored under that id; nothing is found iff no post has the id |
| Entities.FindComment | src/modules/comments/comments.service.ts:148 | the same for comments |
| Entities.WithoutPost | src/modules/posts/posts.service.ts:354 | `delete` keeps exactly the other posts |
| Entities.WithoutComment | src/modules/comments/comments.service.ts:257 | `delete` keeps exactly the other comments |
| Entities.ReplacePostReadsBack | src/modules/posts/posts.service.ts:315 | after `update`, a lookup of the id finds the new row exactly when the id was stored, and the posts under every other id are the ones there were before |
| Entities.ReplaceCommentReadsBack | src/modules/comments/comments.service.ts:203 | the same for comments |
| Entities.SelectPreservesUniquePosts | src/modules/posts/posts.service.ts:139 | a selection of posts with distinct ids has distinct ids |
| Entities.SelectPreservesUniqueComments | src/modules/comments/comments.service.ts:90 | the same for comments |
| Lists.Select | src/modules/posts/posts.service.ts:139 | `findMany` with a `where`: the selection is no longer than the table and holds exactly the kept rows |
| Lists.SelectExt | src/modules/search/search.service.ts:13-22 | two selectors that agree on every row select the same rows |
| Lists.SelectNone | src/modules/users/users.service.ts:124-137 | a selector that keeps no row of the table selects nothing |
| Lists.SelectAll | src/modules/search/search.service.ts:13-22 | a selector that keeps every row selects the whole table |
| Lists.CountMonotone | src/modules/users/users.service.ts:131-137 | a narrower `where` never counts more rows |
| Lists.CountExclusiveSum | src/modules/dashboard/dashboard.service.ts:18-21 | three mutually exclusive refinements of a `where` count no more than the `where` itself |
| Lists.Insert | src/modules/posts/posts.service.ts:158 | inserting a row adds exactly that row to the multiset of rows |
| Lists.InsertDescending | src/modules/posts/posts.service.ts:158 | inserting into a newest-first sequence keeps it newest first |
| Lists.SortDesc | src/modules/posts/posts.service.ts:158 | `orderBy: { createdAt: 'desc' }`: a permutation of its input, newest first |
| Lists.SortedSelection | src/modules/posts/posts.service.ts:139-160 | the rows a `where` keeps, newest first, with membership iff kept and length equal to the count |
| Lists.PageOf | src/modules/posts/posts.service.ts:159-160 | `skip`/`take`: at most `take` rows, and row i of the page is row skip + i of the whole |
| Lists.PageRowsComeFromTable | src/modules/posts/posts.service.ts:159-160 | every paged row is one of the paged sequence |
| Lists.PageOfDescending | src/modules/posts/posts.service.ts:158-160 | a page of a newest-first sequence is newest first |
| Text.Lower | src/modules/posts/posts.service.ts:435 | `toLowerCase` leaves no upper-case letter and keeps a text that had none |
| Text.Upper | src/modules/posts/posts.service.ts:28 | `toUpperCase` leaves no lower-case letter and keeps a text that had none |
| Text.CaseMapsAgree | src/modules/search/search.service.ts:14-15 | lowering an upper-cased text gives the lowered text, and the other way round, so a text and its upper-case form are equal ignoring case |
| Text.UpperOfLower | src/modules/posts/posts.service.ts:28 | an upper-case name lowered and raised again is itself |
| Text.ContainsEmpty | src/modules/search/search.service.ts:14 | the empty text is contained in every text |
| Text.TrimIsTrimmed | src/modules/posts/posts.service.ts:209 | `trim` leaves no leading or trailing white space |
| Text.TrimOfTrimmed | src/modules/posts/posts.service.ts:209 | `trim` leaves text without surrounding white space unchanged |
| Text.Split | src/modules/posts/posts.service.ts:209 | `split(',')` gives at least one part |
| Text.SplitPartsFree | src/modules/posts/posts.service.ts:209 | no part of a split holds the separator |
| Text.JoinSplit | src/modules/posts/posts.service.ts:209 | joining the parts of a split with the separator gives back the text |
| Text.SplitJoin | src/modules/posts/posts.service.ts:209 | splitting comma-free parts joined with commas gives back the parts |
| Store.BumpPosts | src/modules/posts/posts.service.ts:69-76 | `postsCount: { increment }` moves only that user's counter and keeps every other user |
| Store.BumpComments | src/modules/comments/comments.service.ts:73-80 | the same for `commentsCount` |
| Store.Db.UpsertCategory | src/modules/posts/posts.service.ts:15-22 | the category name is present afterwards; nothing else changes |
| Store.Db.InsertPost | src/modules/posts/posts.service.ts:24-66 | a post with a fresh id and an existing author is appended; nothing else changes |
| Store.Db.UpdatePost | src/modules/posts/posts.service.ts:315 | the post with that id is replaced in place; nothing else changes |
| Store.Db.DeletePost | src/modules/posts/posts.service.ts:354-356 | the post with that id is gone; nothing else changes |
| Store.Db.InsertComment | src/modules/comments/comments.service.ts:33-71 | a comment with a fresh id and an existing author is appended; nothing else changes |
| Store.Db.UpdateComment | src/modules/comments/comments.service.ts:203 | the comment with that id is replaced in place; nothing else changes |
| Store.Db.DeleteComment | src/modules/comments/comments.service.ts:257-259 | the comment with that id is gone; nothing else changes |
| Store.Db.AddToPostsCount | src/modules/posts/posts.service.ts:359-366 | one user's postsCount moves by delta; nothing else changes |
| Store.Db.AddToCommentsCount | src/modules/comments/comments.service.ts:262-269 | one user's commentsCount moves by delta; nothing else changes |
| Store.Db.ReplaceUser | src/modules/users/users.service.ts:51 | the user row with that id is replaced, keeping the user name; nothing else changes |
| Store.Db.AddPostLike | src/modules/posts/posts.service.ts:393 | the like row is present afterwards; nothing else changes |
| Store.Db.RemovePostLike | src/modules/posts/posts.service.ts:417 | the like row is absent afterwards; nothing else changes |
| Store.Db.AddCommentLike | src/modules/comments/comments.service.ts:296 | the like row is present afterwards; nothing else changes |
| Store.Db.RemoveCommentLike | src/modules/comments/comments.service.ts:320 | the like row is absent afterwards; nothing else changes |
| PostFilters.LocationTermsMeaning | src/modules/posts/posts.service.ts:98-104 | the location `OR` holds iff city, state or country contains the text, ignoring case |
| PostFilters.SearchTermsMeaning | src/modules/posts/posts.service.ts:130-136 | the search `OR` holds iff title or description contains the text ignoring case, or a tag equals it |
| PostFilters.DescribedWhereMeaning | src/modules/posts/posts.service.ts:85-136 | a `where` that describes a filter is accepted iff the filter's status names a status, and it matches exactly the posts the filter admits |
| PostFilters.SetCategory | src/modules/posts/posts.service.ts:88-92 | a given category is written, an absent or empty one leaves the `where` unchanged |
| PostFilters.SetStatus | src/modules/posts/posts.service.ts:94-96 | a given status is written upper-cased, otherwise unchanged |
| PostFilters.SetLocation | src/modules/posts/posts.service.ts:98-104 | a given location writes the three-column `OR`, otherwise unchanged |
| PostFilters.SetDateRange | src/modules/posts/posts.service.ts:106-114 | each given bound is written, the other kept |
| PostFilters.SetReward | src/modules/posts/posts.service.ts:116-122 | `true` asks for reward > 0, `false` for a null reward, absent leaves it unchanged |
| PostFilters.SetTags | src/modules/posts/posts.service.ts:124-128 | a non-empty tag list is written as `hasSome`, otherwise unchanged |
| PostFilters.SetSearch | src/modules/posts/posts.service.ts:130-136 | a given search writes the three-term `OR`, replacing any location `OR` |
| PostFilters.BuildWhere | src/modules/posts/posts.service.ts:85-136 | the built `where` describes the filter; the store accepts it iff the status is valid; it matches exactly the admitted posts |
| PostFilters.SearchDisplacesLocation | src/modules/posts/posts.service.ts:98-104 | when a search is given, the location filter has no effect at all |
| PostFilters.LocationIgnoredUnderSearch | src/modules/posts/posts.service.ts:98-136 | as written: a post in Rome titled "phone" is listed for location Paris and search phone |
| PostFilters.BuildWhereAllGroups | src/modules/posts/posts.service.ts:85-136 | corrected: location and search both apply (`AND` of the two `OR` groups), with status acceptance unchanged |
| PostFilters.CleanTags | src/modules/posts/posts.service.ts:209 | `.map(trim).filter(Boolean)` never yields more tags than parts |
| PostFilters.CleanTagsMembers | src/modules/posts/posts.service.ts:209 | the tags kept are exactly the trimmed parts that are not empty |
| PostFilters.CleanTagsAppend | src/modules/posts/posts.service.ts:209 | cleaning works part by part, keeping the input order |
| PostFilters.ParseTagsExample | src/modules/posts/posts.service.ts:205-210 | the text `" a , ,b"` parses to `["a", "b"]` |
| PostFilters.CleanTagsAreClean | src/modules/posts/posts.service.ts:209 | every cleaned tag is non-empty, trimmed and comma-free |
| PostFilters.ParsedTagsAreClean | src/modules/posts/posts.service.ts:205-210 | every tag parsed from the query string is clean |
| PostFilters.CleanTagsKeepsClean | src/modules/posts/posts.service.ts:209 | cleaning clean tags changes nothing |
| PostFilters.TagsRoundTrip | src/modules/posts/posts.service.ts:205-210 | parsing clean tags joined with commas gives back the tags |
| PostFilters.AsFilter | src/modules/posts/posts.service.ts:201-214 | hasReward is set iff given, and true iff its text lowers to `true`; tags are set iff truthy |
| PostFilters.BuildCombinedWhere | src/modules/posts/posts.service.ts:180-221 | the combined `where` describes the query's filter, is accepted iff the status is valid, and matches exactly the admitted posts |
| PostFilters.TagTextFiltersLikeList | src/modules/posts/posts.service.ts:205-214 | a comma-joined tag string filters the same posts as the tag list |
| Posts.MapToPostResponse | src/modules/posts/posts.service.ts:429-467 | status and preferred contact go out as their names lower-cased and read back as the stored values; coordinates iff latitude and longitude are both truthy; isLiked iff a viewer is given and is among the loaded likers; id, title, description, category, address, city, state, country, reward, phone, email, author, tags, counts, dates and image urls echoed |
| Posts.RowWithLikers | src/modules/posts/posts.service.ts:243-270 | a row whose likers are loaded holds exactly the users who liked the post |
| Posts.OrderedEntry | src/modules/posts/posts.service.ts:139-160 | each entry of the ordered selection is a stored post the `where` keeps |
| Posts.Ordered | src/modules/posts/posts.service.ts:139-160 | the kept posts newest first: membership iff stored and kept, length equal to the count |
| Posts.PageOfPosts | src/modules/posts/posts.service.ts:139-166 | at most take responses; response i is the projection of the ordered post skip + i |
| Posts.PageEntrySelected | src/modules/posts/posts.service.ts:139-166 | one response of a page projects a stored post the filter keeps |
| Posts.PageOfPostsSelected | src/modules/posts/posts.service.ts:139-166 | every response projects a stored post the filter keeps |
| Posts.PageOfPostsNewestFirst | src/modules/posts/posts.service.ts:158-160 | the responses of a page are newest first |
| Posts.ListPosts | src/modules/posts/posts.service.ts:138-172 | total is the count of kept posts; page and limit echoed; totalPages is `Math.ceil(total / limit)`, the least page count covering the total; hasNext/hasPrev by the envelope's laws; data is the capped page at the page's skip |
| Posts.FindAll | src/modules/posts/posts.service.ts:81-173 | rejected by the store iff the status filter names no status; otherwise the listing of exactly the admitted posts |
| Posts.FindAllCombined | src/modules/posts/posts.service.ts:175-241 | the same for the combined query, with page and limit defaulted by `Number(x) \|\| d` |
| Posts.FindOne | src/modules/posts/posts.service.ts:243-270 | as written: not found iff no post has the id; a found post is the stored row projected for the viewer, with its like count, and is never marked liked |
| Posts.FindOneWithLikes | src/modules/posts/posts.service.ts:243-270 | corrected: isLiked iff the viewer is given and liked the post |
| Posts.LikedPostReadsUnliked | src/modules/posts/posts.service.ts:465 | as written: a post the viewer liked reads as not liked; the corrected read marks it liked |
| Posts.ContactInputRoundTrip | src/modules/posts/posts.service.ts:38 | an accepted lower-case contact method upper-cases to a stored one and reads back as itself |
| Posts.NewPost | src/modules/posts/posts.service.ts:24-48 | the new row has the id, author, status, category, contact method, image urls and timestamps asked for, and the request's title, description, address, city, state, country, coordinates, phone, email, reward and tags |
| Posts.FreshRowCounts | src/modules/posts/posts.service.ts:59-64 | a new post has no comments and no likes |
| Posts.Create | src/modules/posts/posts.service.ts:13-79 | the category is upserted, the post appended and the author's postsCount raised by one, nothing else; the response echoes the request's text, location, reward, contact details, tags, image urls and lower-cased status and contact method, with zero counts and not liked |
| Posts.ApplyUpdate | src/modules/posts/posts.service.ts:286-313 | the updated post is the stored one with each given field written as the update's rules say |
| Posts.ContactLowerNamesDiffer | src/modules/posts/posts.service.ts:451 | distinct contact methods read differently in lower case |
| Posts.UpdateIdempotent | src/modules/posts/posts.service.ts:286-313 | applying the same update twice at the same time gives the same post as once |
| Posts.EmptyUpdateOnlyStamps | src/modules/posts/posts.service.ts:286-313 | an update giving nothing truthy only moves updatedAt |
| Posts.EmptyPhoneIsWritten | src/modules/posts/posts.service.ts:292-298 | an empty contact phone is written while an empty address is skipped |
| Posts.Update | src/modules/posts/posts.service.ts:272-338 | not found, then forbidden for another author, both leaving the store untouched; otherwise the post is replaced by the updated one and a truthy category is upserted |
| Posts.Remove | src/modules/posts/posts.service.ts:340-369 | not found, then forbidden, both leaving the store untouched; otherwise the post is deleted and the author's postsCount lowered by one |
| Posts.LikePost | src/modules/posts/posts.service.ts:371-401 | not found, then forbidden when already liked; otherwise exactly one like row is added |
| Posts.UnlikePost | src/modules/posts/posts.service.ts:403-427 | not found iff there is no like row; otherwise exactly that row is removed |
| Posts.LikeCountMoves | src/modules/posts/posts.service.ts:371-427 | a like raises the post's count by one and an unlike undoes it |
| Comments.MapToCommentResponse | src/modules/comments/comments.service.ts:332-350 | fields echoed; isAuthor iff the viewer is the author; isLiked iff the viewer is among the loaded likers; the replies are the loaded replies, each projected the same way |
| Comments.AnonymousFlagsClear | src/modules/comments/comments.service.ts:345-346 | without a viewer no comment or reply is marked liked or authored |
| Comments.ProjectionKeepsSize | src/modules/comments/comments.service.ts:343 | the projection keeps every comment of the thread |
| Comments.ProjectionKeepsSizes | src/modules/comments/comments.service.ts:343 | the same over a list of replies |
| Comments.TopLevel | src/modules/comments/comments.service.ts:90-127 | the post's comments without a parent, newest first, and as many as the count |
| Comments.PageOfComments | src/modules/comments/comments.service.ts:90-127 | at most take rows; row i projects top-level comment skip + i |
| Comments.TopLevelEntry | src/modules/comments/comments.service.ts:90-95 | each entry of the top-level list is a stored comment of the post without a parent |
| Comments.PageEntrySelected | src/modules/comments/comments.service.ts:90-127 | one row of a page projects a stored top-level comment of the post |
| Comments.PageOfCommentsSelected | src/modules/comments/comments.service.ts:90-127 | every row of a page projects a stored top-level comment of the post |
| Comments.PageOfCommentsNewestFirst | src/modules/comments/comments.service.ts:124-126 | the rows of a page are newest first |
| Comments.FindByPostId | src/modules/comments/comments.service.ts:85-145 | total counts the top-level comments of the post; page and limit echoed; totalPages is `Math.ceil(total / limit)`, the least page count covering the total; hasNext/hasPrev by the envelope's laws; data is the requested page |
| Comments.FindOne | src/modules/comments/comments.service.ts:147-187 | not found iff no comment has the id; a found comment is the stored row with its replies projected for the viewer, never marked liked, and isAuthor iff the viewer wrote it |
| Comments.FreshRowEmpty | src/modules/comments/comments.service.ts:33-82 | a new comment has no replies and no likes, and its author sees it authored and unliked |
| Comments.AppendedRowEmpty | src/modules/comments/comments.service.ts:33-82 | appending a comment under a fresh id with a stored parent keeps every author stored, and the author sees the new comment authored, unliked, with no likes or replies |
| Comments.Create | src/modules/comments/comments.service.ts:12-83 | post not found, then parent not found for a non-empty parent id, then, for an empty parent id naming no comment, the store's rejection of the parent key, all leaving the store untouched; otherwise the comment is appended and the author's commentsCount raised by one; the response is authored, unliked, with no likes or replies |
| Comments.Update | src/modules/comments/comments.service.ts:189-241 | not found, then forbidden, both leaving the store untouched; otherwise only the content and updatedAt of that comment change, and the response is the updated row with its replies projected for its author |
| Comments.Remove | src/modules/comments/comments.service.ts:243-272 | not found, then forbidden; otherwise the comment is deleted and the author's commentsCount lowered by one |
| Comments.LikeComment | src/modules/comments/comments.service.ts:274-304 | not found, then forbidden when already liked; otherwise exactly one like row is added |
| Comments.UnlikeComment | src/modules/comments/comments.service.ts:306-330 | not found iff there is no like row; otherwise exactly that row is removed |
| Comments.SampleThreadRows | src/modules/comments/comments.service.ts:88-128 | in the sample thread C1 is the only top-level comment and C2 its only reply, neither liked |
| Comments.ReplyThread | src/modules/comments/comments.service.ts:85-145 | a two-comment thread reads as one top-level comment with one reply, each authored only for its own writer |
| Users.MapToUserProfileDto | src/modules/users/users.service.ts:149-179 | fields and preferences echoed; location present iff city, state or country is truthy; stats from the live counts; memberSince is createdAt |
| Users.ProfileCountsAreLive | src/modules/users/users.service.ts:170-175 | the profile reports the live post count, not a stale stored counter |
| Users.FindById | src/modules/users/users.service.ts:10-28 | not found iff no user has the id; otherwise the profile projected from that user's row, with live counts |
| Users.FindByUsername | src/modules/users/users.service.ts:30-48 | not found iff no user has the name; otherwise the same profile as the read by that user's id |
| Users.ByUsernameAgreesWithById | src/modules/users/users.service.ts:10-48 | reading a stored user by name and by id gives the same result |
| Users.ApplyProfileUpdate | src/modules/users/users.service.ts:50-77 | id, email, username, avatar, counters and createdAt are kept; updatedAt is stamped; each text field follows undefined/null/value and each flag follows given/absent |
| Users.ProfileUpdateIdempotent | src/modules/users/users.service.ts:50-77 | applying the same update twice equals applying it once |
| Users.EmptyProfileUpdateOnlyStamps | src/modules/users/users.service.ts:50-77 | an update giving nothing only moves updatedAt |
| Users.ClearedLocationIsHidden | src/modules/users/users.service.ts:159-163 | nulling city, state and country hides the profile location |
| Users.EmptyCityKeepsLocation | src/modules/users/users.service.ts:159-163 | an empty city is stored as empty and the location is still shown when a country is given |
| Users.UpdateProfile | src/modules/users/users.service.ts:50-77 | the store rejects a missing user and is left untouched; otherwise exactly that user row is replaced by the update and the response is its profile |
| Users.PostRows | src/modules/users/users.service.ts:84-106 | at most take rows; row i is the user's post skip + i, newest first |
| Users.PostRowsByUser | src/modules/users/users.service.ts:84-106 | every row is a stored post of the user, and the rows are newest first |
| Users.GetUserPosts | src/modules/users/users.service.ts:79-121 | total counts the user's posts; totalPages is the ceiling; hasNext iff page < totalPages; at most 50 and at most limit rows, from skip (page - 1) * limit |
| Users.UserPostsEnvelopeIsStandard | src/modules/users/users.service.ts:112-120 | the hand-built envelope equals the shared envelope |
| Users.GetUserStats | src/modules/users/users.service.ts:123-147 | counts of posts, returned posts and comments; active equals total; resolved equals returned; reputation is 10 per return plus 2 per comment; returns never exceed posts |
| Users.UnknownUserStatsAreZero | src/modules/users/users.service.ts:123-147 | a user with no rows has all-zero statistics |
| Dashboard.GetStats | src/modules/dashboard/dashboard.service.ts:9-34 | the six counts; lost + found + returned never exceed total |
| Dashboard.LikeRaisesTotalLikes | src/modules/dashboard/dashboard.service.ts:23 | a new post like by the user raises totalLikes by one |
| Dashboard.MyPostsWhereMeaning | src/modules/dashboard/dashboard.service.ts:40-43 | selects the user's posts, and with a status only those whose status name is that text upper-cased |
| Dashboard.CountedRows | src/modules/dashboard/dashboard.service.ts:46-59 | at most take rows; row i is selected post skip + i, newest first |
| Dashboard.CountedRowsSelected | src/modules/dashboard/dashboard.service.ts:46-59 | every row is a stored post the `where` admits, newest first |
| Dashboard.GetMyPosts | src/modules/dashboard/dashboard.service.ts:36-76 | rejected by the store iff a status is given that names no status; otherwise the page and the pagination over the same selection |
| Dashboard.UnfilteredTotalIsTotalPosts | src/modules/dashboard/dashboard.service.ts:9-76 | without a status, the page total equals getStats' totalPosts |
| Dashboard.StatusTotalMatchesStats | src/modules/dashboard/dashboard.service.ts:9-76 | a lower-case status gives the same total as getStats' count for that status |
| Search.AnyHoldsAppend | src/modules/search/search.service.ts:13-22 | an `OR` over two lists holds iff it holds over one of them |
| Search.SearchWhereMeaning | src/modules/search/search.service.ts:13-22 | a post matches iff one of the five texts contains the query ignoring case, or a tag equals it |
| Search.EmptyQueryMatchesAll | src/modules/search/search.service.ts:13-22 | the empty query matches every post |
| Search.SearchRows | src/modules/search/search.service.ts:25-49 | at most take rows; row i is hit skip + i, newest first |
| Search.SearchRowsAreHits | src/modules/search/search.service.ts:25-49 | every row is a stored hit, newest first |
| Search.SearchPosts | src/modules/search/search.service.ts:9-65 | the query is echoed; pagination counts the same selection as the page; data is the requested page |
| Search.TotalCountsHits | src/modules/search/search.service.ts:48 | the total counts exactly the hits |
| Search.EmptyQueryCountsEveryPost | src/modules/search/search.service.ts:48 | for the empty query the total is the number of posts |
| Upload.Rejection | src/modules/upload/upload.service.ts:12-27 | the guards in order: missing file, then type, then size; none fails iff the file is present, of an allowed type and at most 5 MiB |
| Upload.SizeBoundIsInclusive | src/modules/upload/upload.service.ts:24-27 | exactly 5 MiB passes and one byte more fails |
| Upload.TypeCheckedBeforeSize | src/modules/upload/upload.service.ts:18-21 | a wrong type is reported as such whatever the size |
| Upload.UploadFile | src/modules/upload/upload.service.ts:12-57 | fails iff a guard fails, with its error; otherwise Multer's stored name, or a fresh id plus the extension; the url is under `/uploads/`; the rest is echoed |
| Upload.UploadedUrlNamesImage | src/modules/upload/upload.service.ts:50-56 | an uploaded url attached to a post names an image after the uploaded file |

## Left out

- The controllers, guards, modules, configuration and `main.ts` are not part of this model. The authenticated user id is a parameter; the write methods require it to be a stored user.
- Class-validator decorators on the DTOs are predicates (`ValidQuery`, `ValidCreateInput`, `ValidUpdateInput`, `ValidContent`, `ValidUpdateUserInput`) that the services require, because validation runs before the services are called.
- `ValidQuery`: page and limit are whole numbers. `@IsPositive()` and `@Min(1) @Max(50)` carry no `@IsInt()`, so `page=1.5` or `limit=2.5` passes validation; `getSkip`/`getTake` then give a fractional skip or take (a negative skip for `page=0.5`), which the store rejects. This affects comments `findByPostId`, users `getUserPosts`, dashboard `getMyPosts` and search `searchPosts`; the model's integer fields cannot hold such input.
- `PostsQuery`: `status`, `category`, `location`, `search`, `hasReward`, `startDate` and `endDate` are single values. `findAllCombined(query: any)` receives a repeated key as an array. `status.toUpperCase()` then throws, and a repeated `location`, `search`, `category`, `startDate` or `endDate` makes the store reject the `where`. A repeated `hasReward=true` gives `String(['true','true']).toLowerCase() === 'true,true'`, so it selects the posts without a reward. Only `tags` is modelled as either an array or a string (`TagsParam`).
- `PostsQuery`: page and limit are whole and non-negative numbers or absent. `findAllCombined` has no validation, and `Number(query.page) || 1` keeps any truthy number: `page=-1` gives a negative skip, `limit=-5` a negative take and totalPages, and `limit=2.5` a fractional take. The store rejects each of these `findMany` calls, and the model cannot represent them.
- `Lists.SortDesc`: `orderBy: { createdAt: 'desc' }` leaves the order among rows with equal `createdAt` to the store. The model keeps table order for such ties, and every page equation (`PageOfPosts`, `PageOfComments`, `PostRows`, `CountedRows`, `SearchRows`) depends on that choice.
- Prisma's `include`/`select` shapes are reduced to the fields the services read. Category rows are names only. Images are part of the post row.
- The like table is a single table for post likes and comment likes. It is modelled as two sets of (user, target) pairs, which is the same uniqueness constraint on each kind.
- Cascading deletes are not modelled. Deleting a post leaves its comments and likes in the tables, and deleting a comment leaves its replies and likes.
- The two writes of `create`, `remove` (post and comment) and the counter updates are two separate writes, not a transaction. The model applies them in sequence, so it does not capture a failure between them.
- `Promise.all` of a page read and a count read is modelled as two reads of one snapshot. Interleaving with concurrent writers is not modelled.
- Timestamps are integers supplied by the caller (`now`). `toISOString` and `new Date(...)` parsing of date filters are not modelled; the date range filter takes integers.
- Latitude, longitude and reward are integers (`Option<int>`), not floating point. Truthiness of a coordinate is modelled as "present and not zero".
- Case folding is ASCII only. `mode: 'insensitive'` and `toUpperCase`/`toLowerCase` on non-ASCII letters are not modelled.
- `findAll` of the posts service is modelled although no route calls it; the listing route calls `findAllCombined`.
- Search: a missing query parameter (`undefined`) is not modelled; the query is always a string.
- Users.UpdateProfile: a boolean preference sent as `null` is not modelled; each flag is given or absent.
- Users.UpdateProfile: `updatedAt` is stamped with `now`, assuming the schema's automatic update timestamp; the schema is not part of this model.
- Users.GetUserPosts: the result field holding the rows is named `posts` in the source; the model uses the shared envelope's `data`. The requires `page >= 1 && limit >= 1` excludes the division by zero a limit of 0 would give.
- Users.GetUserStats: an unknown user is not an error in the source and gives zeros, as `UnknownUserStatsAreZero` states.
- Upload: the upload directory, the filesystem, `uuid` and `path.extname` are left out; the fresh id and the extension are parameters.
- Database: URL parsing and serialisation are left out. The parsed URL is a parameter, and `None` stands for a URL that fails to parse.
- Database: `setTimeout` and `console.error` are left out. The delays are returned instead of slept.
- Database.ConnectWithRetry: the error thrown when every attempt failed is the last `Error` itself; the model keeps only its message.
- `isLiked` when the `likes` relation is not loaded: `userId ? x.likes?.some(...) : false` is `undefined` for a signed-in viewer, and the key is then omitted from the JSON. The model gives `false` in that case. This covers `findAll`, `findOne` and `findAllCombined` of posts and every read and write response of comments.
- Comments: the `replies` include has no `orderBy`, so the store promises no order for a comment's replies. The model lists them in insertion order.
- Database: the environment values `PRISMA_CONNECT_MAX_ATTEMPTS` and `PRISMA_CONNECT_BASE_DELAY_MS` are natural numbers or absent. A value that is not a whole number is not modelled: `Number` gives `NaN`, which makes no attempt and goes straight to the final error, and a fraction such as `2.5` gives three attempts.

## Findings

| source | as written | input that shows it | evidently intended | confidence | as-written member | corrected member |
|---|---|---|---|---|---|---|
| src/modules/posts/posts.service.ts:176-179 | `findAllCombined` caps the take at 50 with `getTake`, but computes the skip and the envelope's totalPages from the uncapped limit | 120 posts, `limit=100`: totalPages is 2; page 1 serves rows 0-49 and page 2 starts at row 100, so rows 50-99 are on no page | compute skip and totalPages from the capped page size, so every row lies on some advertised page | not executed | Pagination.UncappedLimitSkipsRows | Pagination.ClampedWindowServesEveryRow |
| src/modules/posts/posts.service.ts:243-270 | `findOne` does not include the post's likes, so `post.likes?.some(...)` at line 465 is always undefined and `isLiked` is never true (it is `undefined` for a signed-in viewer, modelled as false) | a post the viewer has liked, read by that viewer, does not report `isLiked: true` | include the likes, so that `isLiked` is true iff the viewer liked the post | not executed | Posts.LikedPostReadsUnliked | Posts.FindOneWithLikes |
| src/modules/posts/posts.service.ts:98-136 | the search `OR` (lines 130-136) overwrites the location `OR` (lines 98-104) | `location=Paris&search=phone` lists a post in Rome titled "phone" | both groups apply: the location matches and the search matches | not executed | PostFilters.LocationIgnoredUnderSearch | PostFilters.BuildWhereAllGroups |

=== FILE: comments.dfy ===
/**
 * `CommentsService`: the recursive projection of a comment with its
 * replies, the page of a post's top-level comments, the single read, and
 * the writes (create, update, remove, like, unlike) with their guards and
 * the author's `commentsCount` counter.
 */
module Comments {
  import opened Wrappers
  import opened Text
  import opened Entities
  import Lists
  import Pagination
  import PaginationDto
  import Store

  const PostNotFound := "Post not found"
  const ParentNotFound := "Parent comment not found"
  const CommentNotFound := "Comment not found"
  const NotYourCommentToUpdate := "You can only update your own comments"
  const NotYourCommentToDelete := "You can only delete your own comments"
  const AlreadyLiked := "You have already liked this comment"
  const LikeNotFound := "Like not found"
  const CommentDeleted := "Comment deleted successfully"
  const CommentLiked := "Comment liked successfully"
  const CommentUnliked := "Comment unliked successfully"
  /** The store's error when `parentId` names no comment. */
  const ParentKeyViolation := "Foreign key constraint failed on the field: `parentId`"

  /**
   * A comment as the store returns it: the author summary, the like count,
   * the likers when the `likes` relation is loaded, and the replies when
   * the `replies` relation is loaded (each of them one more row).
   */
  datatype CommentRow = CommentRow(
    comment: Comment,
    author: AuthorSummary,
    likeCount: nat,
    likedBy: Option<set<UserId>>,
    replies: Replies)

  /** The `replies` relation of a row: absent from the query, or loaded. */
  datatype Replies = NotLoaded | Loaded(rows: seq<CommentRow>)

  datatype CommentResponse = CommentResponse(
    id: CommentId,
    content: string,
    author: AuthorSummary,
    postId: PostId,
    parentId: Option<CommentId>,
    replies: seq<CommentResponse>,
    likes: nat,
    isLiked: bool,
    isAuthor: bool,
    createdAt: int,
    updatedAt: int)

  /**
   * `mapToCommentResponse`: the same mapping applied to every loaded reply,
   * `[]` when none are loaded; `isAuthor` compares the viewer with the
   * author and `isLiked` looks the viewer up among loaded likers.
   */
  function MapToCommentResponse(row: CommentRow, viewer: Option<UserId>): (r: CommentResponse)
    ensures r.id == row.comment.id && r.content == row.comment.content && r.author == row.author
    ensures r.postId == row.comment.postId && r.parentId == row.comment.parentId
    ensures r.likes == row.likeCount
    ensures r.isAuthor <==> viewer == Some(row.author.id)
    ensures r.isLiked <==> Given(viewer) && row.likedBy.Some? && viewer.value in row.likedBy.value
    ensures row.replies.NotLoaded? ==> r.replies == []
    ensures row.replies.Loaded? ==> |r.replies| == |row.replies.rows|
    ensures row.replies.Loaded? ==>
      forall i :: 0 <= i < |r.replies| ==> r.replies[i] == MapToCommentResponse(row.replies.rows[i], viewer)
    decreases row
  {
    var c := row.comment;
    var replies := match row.replies
      case NotLoaded => []
      case Loaded(rs) => seq(|rs|, i requires 0 <= i < |rs| => MapToCommentResponse(rs[i], viewer));
    CommentResponse(c.id, c.content, row.author, c.postId, c.parentId, replies, row.likeCount,
      Given(viewer) && row.likedBy.Some? && viewer.value in row.likedBy.value,
      viewer == Some(row.author.id), c.createdAt, c.updatedAt)
  }

  /** No flag is set anywhere in the tree. */
  predicate FlagsClear(r: CommentResponse) {
    !r.isLiked && !r.isAuthor && forall i :: 0 <= i < |r.replies| ==> FlagsClear(r.replies[i])
  }

  /** An anonymous reader sees no comment as liked or as theirs, at any depth. */
  lemma {:induction false} AnonymousFlagsClear(row: CommentRow)
    ensures FlagsClear(MapToCommentResponse(row, None))
    decreases row
  {
    var r := MapToCommentResponse(row, None);
    if row.replies.Loaded? {
      forall i | 0 <= i < |r.replies| ensures FlagsClear(r.replies[i]) {
        assert row.replies.rows[i] in row.replies.rows;
        AnonymousFlagsClear(row.replies.rows[i]);
      }
    }
  }

  /** The number of comments in a row tree. */
  function RowSize(row: CommentRow): nat
    decreases row
  {
    1 + match row.replies
      case NotLoaded => 0
      case Loaded(rs) => SumRowSizes(rs)
  }

  function SumRowSizes(rs: seq<CommentRow>): nat
    decreases rs
  {
    if rs == [] then 0 else RowSize(rs[0]) + SumRowSizes(rs[1..])
  }

  /** The number of comments in a response tree. */
  function Size(r: CommentResponse): nat
    decreases r
  {
    1 + SumSizes(r.replies)
  }

  function SumSizes(rs: seq<CommentResponse>): nat
    decreases rs
  {
    if rs == [] then 0 else Size(rs[0]) + SumSizes(rs[1..])
  }

  /** The projection drops no reply and invents none: the trees have the same number of comments. */
  lemma {:induction false} ProjectionKeepsSize(row: CommentRow, viewer: Option<UserId>)
    ensures Size(MapToCommentResponse(row, viewer)) == RowSize(row)
    decreases row, 1
  {
    if row.replies.Loaded? {
      forall k | 0 <= k < |row.replies.rows| ensures row.replies.rows[k] < row {
        assert row.replies.rows[k] in row.replies.rows;
      }
      ProjectionKeepsSizes(row, row.replies.rows, MapToCommentResponse(row, viewer).replies, viewer);
    }
  }

  lemma {:induction false} ProjectionKeepsSizes(parent: CommentRow, rs: seq<CommentRow>, out: seq<CommentResponse>, viewer: Option<UserId>)
    requires forall k :: 0 <= k < |rs| ==> rs[k] < parent
    requires |out| == |rs|
    requires forall k :: 0 <= k < |rs| ==> out[k] == MapToCommentResponse(rs[k], viewer)
    ensures SumSizes(out) == SumRowSizes(rs)
    decreases parent, 0, |rs|
  {
    if rs != [] {
      ProjectionKeepsSize(rs[0], viewer);
      ProjectionKeepsSizes(parent, rs[1..], out[1..], viewer);
    }
  }

  // ----- reading rows from the store -----

  /** The row selector `{ parentId: id }`: the replies of comment `id`. */
  function RepliesTo(id: CommentId): Comment -> bool {
    (c: Comment) => c.parentId == Some(id)
  }

  /** The row selector `{ postId, parentId: null }`: the top-level comments of a post. */
  function TopLevelOn(postId: PostId): Comment -> bool {
    (c: Comment) => c.postId == postId && c.parentId.None?
  }

  /** A reply as the `replies` include loads it: author and like count, nothing nested. */
  function ReplyRow(t: Tables, c: Comment): (row: CommentRow)
    requires c.authorId in t.users
    ensures row.comment == c && row.author.id == c.authorId && row.likedBy.None? && row.replies.NotLoaded?
    ensures row.likeCount == CommentLikeCount(t.commentLikes, c.id)
  {
    CommentRow(c, AuthorOf(t.users, c.authorId), CommentLikeCount(t.commentLikes, c.id), None, NotLoaded)
  }

  /**
   * A comment with the `include` every query of this service uses: author,
   * like count and direct replies, without the `likes` relation.
   */
  function RowOf(t: Tables, c: Comment): (row: CommentRow)
    requires Joined(t)
    requires c.authorId in t.users
    ensures row.comment == c && row.author.id == c.authorId && row.likedBy.None?
    ensures row.likeCount == CommentLikeCount(t.commentLikes, c.id)
    ensures row.replies.Loaded?
    ensures |row.replies.rows| == Lists.Count(t.comments, RepliesTo(c.id))
    ensures forall i :: 0 <= i < |row.replies.rows| ==>
      row.replies.rows[i] == ReplyRow(t, Lists.Select(t.comments, RepliesTo(c.id))[i])
  {
    var replies := Lists.Select(t.comments, RepliesTo(c.id));
    CommentRow(c, AuthorOf(t.users, c.authorId), CommentLikeCount(t.commentLikes, c.id), None,
      Loaded(seq(|replies|, i requires 0 <= i < |replies| => ReplyRow(t, replies[i]))))
  }

  /** A post's top-level comments, newest first: `findMany` with `orderBy: { createdAt: 'desc' }`. */
  function TopLevel(t: Tables, postId: PostId): (s: seq<Comment>)
    ensures Lists.Descending(s, CommentCreatedAt)
    ensures forall c :: c in s <==> c in t.comments && c.postId == postId && c.parentId.None?
    ensures |s| == Lists.Count(t.comments, TopLevelOn(postId))
  {
    Lists.SortedSelection(t.comments, TopLevelOn(postId), CommentCreatedAt)
  }

  /** `comments.map(mapToCommentResponse)`: one response per row, in order. */
  function Project(t: Tables, rows: seq<Comment>, viewer: Option<UserId>): (r: seq<CommentResponse>)
    requires Joined(t)
    requires forall c :: c in rows ==> c.authorId in t.users
    ensures |r| == |rows|
    ensures forall i :: 0 <= i < |rows| ==> r[i] == MapToCommentResponse(RowOf(t, rows[i]), viewer)
  {
    seq(|rows|, i requires 0 <= i < |rows| => MapToCommentResponse(RowOf(t, rows[i]), viewer))
  }

  /** The rows at `skip` .. `skip + take - 1` of the top-level comments, projected for `viewer`. */
  function PageOfComments(t: Tables, postId: PostId, skip: nat, take: nat, viewer: Option<UserId>)
    : (r: seq<CommentResponse>)
    requires Joined(t)
    ensures |r| <= take
    ensures forall i :: 0 <= i < |r| ==>
      skip + i < |TopLevel(t, postId)| &&
      r[i] == MapToCommentResponse(RowOf(t, TopLevel(t, postId)[skip + i]), viewer)
  {
    var ordered := TopLevel(t, postId);
    var rows := Lists.PageOf(ordered, skip, take);
    Lists.PageRowsComeFromTable(ordered, skip, take);
    Project(t, rows, viewer)
  }

  /** Each entry of the top-level list is a stored top-level comment of the post. */
  lemma TopLevelEntry(t: Tables, postId: PostId, k: nat)
    requires k < |TopLevel(t, postId)|
    ensures var c := TopLevel(t, postId)[k]; c in t.comments && c.postId == postId && c.parentId.None?
  {
    assert TopLevel(t, postId)[k] in TopLevel(t, postId);
  }

  /** `resp` is how `viewer` sees some stored top-level comment of the post. */
  predicate ShowsTopLevel(t: Tables, postId: PostId, viewer: Option<UserId>, resp: CommentResponse)
    requires Joined(t)
  {
    exists c :: c in t.comments && c.postId == postId && c.parentId.None? && resp == MapToCommentResponse(RowOf(t, c), viewer)
  }

  lemma PageEntrySelected(t: Tables, postId: PostId, skip: nat, take: nat, viewer: Option<UserId>, i: nat)
    requires Joined(t)
    requires i < |PageOfComments(t, postId, skip, take, viewer)|
    ensures ShowsTopLevel(t, postId, viewer, PageOfComments(t, postId, skip, take, viewer)[i])
  {
    TopLevelEntry(t, postId, skip + i);
  }

  /** Every comment on a page is the projection of a stored top-level comment of the post. */
  lemma PageOfCommentsSelected(t: Tables, postId: PostId, skip: nat, take: nat, viewer: Option<UserId>)
    requires Joined(t)
    ensures var r := PageOfComments(t, postId, skip, take, viewer);
      forall i :: 0 <= i < |r| ==> ShowsTopLevel(t, postId, viewer, r[i])
  {
    var r := PageOfComments(t, postId, skip, take, viewer);
    forall i | 0 <= i < |r| ensures ShowsTopLevel(t, postId, viewer, r[i]) {
      PageEntrySelected(t, postId, skip, take, viewer, i);
    }
  }

  /** A page of comments is newest first. */
  lemma PageOfCommentsNewestFirst(t: Tables, postId: PostId, skip: nat, take: nat, viewer: Option<UserId>)
    requires Joined(t)
    ensures var r := PageOfComments(t, postId, skip, take, viewer);
      forall i, j :: 0 <= i < j < |r| ==> r[i].createdAt >= r[j].createdAt
  {
    var ordered := TopLevel(t, postId);
    var r := PageOfComments(t, postId, skip, take, viewer);
    forall i, j | 0 <= i < j < |r| ensures r[i].createdAt >= r[j].createdAt {
      assert CommentCreatedAt(ordered[skip + i]) >= CommentCreatedAt(ordered[skip + j]);
    }
  }

  /**
   * `findByPostId`: the page of the post's top-level comments given by
   * PaginationUtil, each with its direct replies, in the envelope built
   * from the count of the same selection.
   */
  function FindByPostId(t: Tables, postId: PostId, pq: PaginationDto.PaginationQuery, viewer: Option<UserId>)
    : (r: Pagination.Envelope<CommentResponse>)
    requires Joined(t)
    requires PaginationDto.ValidQuery(pq)
    ensures r.total == Lists.Count(t.comments, TopLevelOn(postId))
    ensures r.page == pq.page && r.limit == pq.limit
    ensures r.totalPages == Pagination.CeilDiv(r.total, pq.limit)
    ensures r.hasNext <==> pq.page * pq.limit < r.total
    ensures r.hasPrev <==> pq.page > 1
    ensures |r.data| <= pq.limit
    ensures r.data == PageOfComments(t, postId, Pagination.GetSkip(pq.page, pq.limit), pq.limit, viewer)
  {
    Pagination.CreatePaginatedResponse(
      PageOfComments(t, postId, Pagination.GetSkip(pq.page, pq.limit), Pagination.GetTake(pq.limit), viewer),
      |TopLevel(t, postId)|, pq.page, pq.limit)
  }

  /** `findOne`: NotFound for a missing comment, otherwise its row with replies. */
  function FindOne(t: Tables, id: CommentId, viewer: Option<UserId>): (r: Result<CommentResponse>)
    requires Joined(t)
    ensures r.Err? <==> FindComment(t.comments, id).None?
    ensures r.Err? ==> r.failure == NotFound(CommentNotFound)
    ensures r.Ok? ==> r.value == MapToCommentResponse(RowOf(t, FindComment(t.comments, id).value), viewer)
    ensures r.Ok? ==> r.value.id == id && !r.value.isLiked
    ensures r.Ok? ==> (r.value.isAuthor <==> viewer == Some(FindComment(t.comments, id).value.authorId))
  {
    match FindComment(t.comments, id)
    case None => Err(NotFound(CommentNotFound))
    case Some(c) => Ok(MapToCommentResponse(RowOf(t, c), viewer))
  }

  // ----- writes -----

  /** A validated `CreateCommentDto`. */
  datatype CreateCommentInput = CreateCommentInput(content: string, parentId: Option<CommentId>)

  predicate ValidContent(content: string) {
    1 <= |content| <= 500
  }

  /**
   * A comment under a fresh id has no replies and no likes yet, so its
   * author sees it as authored, unliked, with no likes and no replies.
   */
  lemma FreshRowEmpty(t: Tables, c: Comment)
    requires Joined(t) && c.authorId in t.users
    requires forall q :: q in t.comments ==> q.parentId != Some(c.id)
    requires forall l :: l in t.commentLikes ==> l.1 != c.id
    ensures RowOf(t, c).replies == Loaded([]) && RowOf(t, c).likeCount == 0
    ensures var r := MapToCommentResponse(RowOf(t, c), Some(c.authorId));
      r.id == c.id && r.content == c.content && r.parentId == c.parentId &&
      r.isAuthor && !r.isLiked && r.likes == 0 && r.replies == []
  {
    Lists.SelectNone(t.comments, RepliesTo(c.id));
    assert (set l | l in t.commentLikes && l.1 == c.id) == {};
  }

  /** Appending a comment under a fresh id, whose parent if any is stored, keeps the tables joined and gives an empty row. */
  lemma AppendedRowEmpty(t: Tables, c: Comment)
    requires Joined(t) && c.authorId in t.users
    requires FreshCommentId(t, c.id)
    requires c.parentId.Some? ==> FindComment(t.comments, c.parentId.value).Some?
    ensures var t' := t.(comments := t.comments + [c]);
      Joined(t') &&
      var r := MapToCommentResponse(RowOf(t', c), Some(c.authorId));
      r.id == c.id && r.content == c.content && r.parentId == c.parentId &&
      r.isAuthor && !r.isLiked && r.likes == 0 && r.replies == []
  {
    var t' := t.(comments := t.comments + [c]);
    if c.parentId.Some? {
      assert FindComment(t.comments, c.parentId.value).value.id != c.id;
    }
    FreshRowEmpty(t', c);
  }

  /**
   * `create`: NotFound for a missing post, then for a truthy `parentId`
   * naming no comment; the parent's own post is not compared. The comment
   * is inserted, then the author's `commentsCount` is incremented; the
   * response is the new comment seen by its author.
   */
  method Create(db: Store.Db, postId: PostId, userId: UserId, d: CreateCommentInput, id: CommentId, now: int)
    returns (r: Result<CommentResponse>)
    requires db.Valid() && userId in db.users
    requires ValidContent(d.content)
    requires FreshCommentId(db.Snapshot(), id)
    modifies db
    ensures db.Valid()
    ensures FindPost(old(db.posts), postId).None? ==> r == Err(NotFound(PostNotFound))
    ensures FindPost(old(db.posts), postId).Some? && Given(d.parentId) &&
            FindComment(old(db.comments), d.parentId.value).None?
            ==> r == Err(NotFound(ParentNotFound))
    ensures FindPost(old(db.posts), postId).Some? && d.parentId == Some("") &&
            FindComment(old(db.comments), "").None?
            ==> r == Err(StoreRejected(ParentKeyViolation))
    ensures r.Ok? <==>
      FindPost(old(db.posts), postId).Some? &&
      (d.parentId.Some? ==> FindComment(old(db.comments), d.parentId.value).Some?)
    ensures r.Err? ==> db.Snapshot() == old(db.Snapshot())
    ensures r.Ok? ==> db.Snapshot() == old(db.Snapshot()).(
      comments := old(db.comments) + [Comment(id, d.content, postId, userId, d.parentId, now, now)],
      users := Store.BumpComments(old(db.users), userId, 1))
    ensures r.Ok? ==> r.value.id == id && r.value.content == d.content && r.value.parentId == d.parentId
    ensures r.Ok? ==> r.value.isAuthor && !r.value.isLiked && r.value.likes == 0 && r.value.replies == []
  {
    if FindPost(db.posts, postId).None? {
      return Err(NotFound(PostNotFound));
    }
    if Given(d.parentId) && FindComment(db.comments, d.parentId.value).None? {
      return Err(NotFound(ParentNotFound));
    }
    if d.parentId.Some? && FindComment(db.comments, d.parentId.value).None? {
      // An empty `parentId` passes the guard and is stored, but names no comment.
      return Err(StoreRejected(ParentKeyViolation));
    }
    var c := Comment(id, d.content, postId, userId, d.parentId, now, now);
    AppendedRowEmpty(db.Snapshot(), c);
    db.InsertComment(c);
    r := Ok(MapToCommentResponse(RowOf(db.Snapshot(), c), Some(userId)));
    db.AddToCommentsCount(userId, 1);
  }

  /**
   * `update`: NotFound for a missing comment, Forbidden for someone else's;
   * otherwise only the content changes (and the update time), and the
   * response is the updated row, with its replies, seen by its author.
   */
  method Update(db: Store.Db, id: CommentId, userId: UserId, content: string, now: int)
    returns (r: Result<CommentResponse>)
    requires db.Valid()
    requires ValidContent(content)
    modifies db
    ensures db.Valid()
    ensures FindComment(old(db.comments), id).None? ==> r == Err(NotFound(CommentNotFound))
    ensures FindComment(old(db.comments), id).Some? && FindComment(old(db.comments), id).value.authorId != userId ==>
      r == Err(Forbidden(NotYourCommentToUpdate))
    ensures r.Ok? <==>
      FindComment(old(db.comments), id).Some? && FindComment(old(db.comments), id).value.authorId == userId
    ensures r.Err? ==> db.Snapshot() == old(db.Snapshot())
    ensures r.Ok? ==>
      var c := FindComment(old(db.comments), id).value;
      db.Snapshot() == old(db.Snapshot()).(comments := ReplaceComment(old(db.comments), c.(content := content, updatedAt := now))) &&
      r.value == MapToCommentResponse(RowOf(db.Snapshot(), c.(content := content, updatedAt := now)), Some(userId)) &&
      r.value.content == content && r.value.id == id && r.value.isAuthor
  {
    var found := FindComment(db.comments, id);
    if found.None? {
      return Err(NotFound(CommentNotFound));
    }
    if found.value.authorId != userId {
      return Err(Forbidden(NotYourCommentToUpdate));
    }
    var c := found.value.(content := content, updatedAt := now);
    db.UpdateComment(c);
    r := Ok(MapToCommentResponse(RowOf(db.Snapshot(), c), Some(userId)));
  }

  /**
   * `remove`: NotFound for a missing comment, Forbidden for someone else's;
   * otherwise the row is deleted, then the author's `commentsCount` is
   * decremented.
   */
  method Remove(db: Store.Db, id: CommentId, userId: UserId) returns (r: Result<string>)
    requires db.Valid()
    modifies db
    ensures db.Valid()
    ensures FindComment(old(db.comments), id).None? ==> r == Err(NotFound(CommentNotFound))
    ensures FindComment(old(db.comments), id).Some? && FindComment(old(db.comments), id).value.authorId != userId ==>
      r == Err(Forbidden(NotYourCommentToDelete))
    ensures r.Ok? <==>
      FindComment(old(db.comments), id).Some? && FindComment(old(db.comments), id).value.authorId == userId
    ensures r.Err? ==> db.Snapshot() == old(db.Snapshot())
    ensures r.Ok? ==> r.value == CommentDeleted && userId in old(db.users)
    ensures r.Ok? ==> db.Snapshot() == old(db.Snapshot()).(
      comments := WithoutComment(old(db.comments), id),
      users := Store.BumpComments(old(db.users), userId, -1))
  {
    var found := FindComment(db.comments, id);
    if found.None? {
      return Err(NotFound(CommentNotFound));
    }
    if found.value.authorId != userId {
      return Err(Forbidden(NotYourCommentToDelete));
    }
    db.DeleteComment(id);
    db.AddToCommentsCount(userId, -1);
    r := Ok(CommentDeleted);
  }

  /**
   * `likeComment`: NotFound for a missing comment, Forbidden when the pair
   * is already there; otherwise exactly that pair is added.
   */
  method LikeComment(db: Store.Db, id: CommentId, userId: UserId) returns (r: Result<string>)
    requires db.Valid() && userId in db.users
    modifies db
    ensures db.Valid()
    ensures FindComment(db.comments, id).None? ==> r == Err(NotFound(CommentNotFound))
    ensures FindComment(db.comments, id).Some? && (userId, id) in old(db.commentLikes) ==>
      r == Err(Forbidden(AlreadyLiked))
    ensures r.Ok? <==> FindComment(db.comments, id).Some? && (userId, id) !in old(db.commentLikes)
    ensures r.Err? ==> db.Snapshot() == old(db.Snapshot())
    ensures r.Ok? ==> r.value == CommentLiked
    ensures r.Ok? ==> db.Snapshot() == old(db.Snapshot()).(commentLikes := old(db.commentLikes) + {(userId, id)})
  {
    if FindComment(db.comments, id).None? {
      return Err(NotFound(CommentNotFound));
    }
    if (userId, id) in db.commentLikes {
      return Err(Forbidden(AlreadyLiked));
    }
    db.AddCommentLike((userId, id));
    r := Ok(CommentLiked);
  }

  /** `unlikeComment`: NotFound when the pair is absent; otherwise exactly that pair is removed. */
  method UnlikeComment(db: Store.Db, id: CommentId, userId: UserId) returns (r: Result<string>)
    requires db.Valid()
    modifies db
    ensures db.Valid()
    ensures r.Ok? <==> (userId, id) in old(db.commentLikes)
    ensures r.Err? ==> r == Err(NotFound(LikeNotFound)) && db.Snapshot() == old(db.Snapshot())
    ensures r.Ok? ==> r.value == CommentUnliked
    ensures r.Ok? ==> db.Snapshot() == old(db.Snapshot()).(commentLikes := old(db.commentLikes) - {(userId, id)})
  {
    if (userId, id) !in db.commentLikes {
      return Err(NotFound(LikeNotFound));
    }
    db.RemoveCommentLike((userId, id));
    r := Ok(CommentUnliked);
  }

  // ----- a worked thread -----

  /** A user row with only an id and a name set. */
  function SampleUser(id: UserId): User {
    User(id, id + "@example.org", id, None, None, None, None, None, None, None, None,
      true, true, true, false, 0, 0, 0, 0, 0)
  }

  /** Post `a`; comment C1 on A by U2; reply C2 to C1 by U1; no likes. */
  function SampleThread(a: Post): Tables {
    Tables([a],
      [Comment("C1", "Is this yours?", "A", "U2", None, 1, 1),
       Comment("C2", "Yes, thanks!", "A", "U1", Some("C1"), 2, 2)],
      map["U1" := SampleUser("U1"), "U2" := SampleUser("U2")], {}, {}, {})
  }

  /** In the sample thread, C1 is A's only top-level comment and C2 its only reply, neither liked. */
  lemma SampleThreadRows(a: Post)
    requires a.id == "A" && a.authorId == "U1"
    ensures var t := SampleThread(a);
      Joined(t) &&
      TopLevel(t, "A") == [t.comments[0]] &&
      Lists.Select(t.comments, RepliesTo("C1")) == [t.comments[1]] &&
      CommentLikeCount(t.commentLikes, "C1") == 0 && CommentLikeCount(t.commentLikes, "C2") == 0
  {
    var t := SampleThread(a);
    var c1, c2 := t.comments[0], t.comments[1];
    assert t.comments == [c1, c2];
    assert Lists.Select([c2], TopLevelOn("A")) == [];
    assert Lists.Select(t.comments, TopLevelOn("A")) == [c1];
    assert Lists.Select([c2], RepliesTo("C1")) == [c2];
    var top := TopLevel(t, "A");
    assert |top| == 1 && top[0] in top;
    assert (set l | l in t.commentLikes && l.1 == "C1") == {};
    assert (set l | l in t.commentLikes && l.1 == "C2") == {};
  }

  /**
   * The first page of A's comments in the sample thread holds C1 alone,
   * carrying C2 as its reply, with no likes; U2 is C1's author and not
   * C2's, U1 the other way round.
   */
  lemma ReplyThread(a: Post)
    requires a.id == "A" && a.authorId == "U1"
    ensures var t := SampleThread(a);
      var pq := PaginationDto.PaginationQuery(1, 10, None, None, PaginationDto.Desc);
      var byU2 := FindByPostId(t, "A", pq, Some("U2"));
      var byU1 := FindByPostId(t, "A", pq, Some("U1"));
      byU2.total == 1 && |byU2.data| == 1 && |byU1.data| == 1 &&
      byU2.data[0].id == "C1" && byU2.data[0].likes == 0 && byU2.data[0].isAuthor &&
      |byU2.data[0].replies| == 1 && byU2.data[0].replies[0].id == "C2" && byU2.data[0].replies[0].likes == 0 &&
      !byU2.data[0].replies[0].isAuthor &&
      !byU1.data[0].isAuthor && byU1.data[0].replies[0].isAuthor
  {
    SampleThreadRows(a);
  }
}

=== FILE: dashboard.dfy ===
/**
 * `DashboardService`: the signed-in user's counts and the page of the
 * user's own posts, optionally restricted to one status.
 */
module Dashboard {
  import opened Wrappers
  import opened Text
  import opened Entities
  import opened PostFilters
  import Lists
  import Pagination
  import PaginationDto
  import Posts

  datatype DashboardStats = DashboardStats(
    totalPosts: nat,
    lostPosts: nat,
    foundPosts: nat,
    returnedPosts: nat,
    totalComments: nat,
    totalLikes: nat)

  /** The like rows whose `userId` is `u`: the likes the user gave, to posts and to comments. */
  function LikesGivenBy(t: Tables, u: UserId): nat {
    |set l | l in t.postLikes && l.0 == u| + |set l | l in t.commentLikes && l.0 == u|
  }

  /**
   * `getStats`: six counts over the tables. The three status counts refine
   * the author count by distinct statuses, so together they never exceed
   * it (closed posts are in the total only).
   */
  function GetStats(t: Tables, userId: UserId): (r: DashboardStats)
    ensures r.totalPosts == Lists.Count(t.posts, ByAuthor(userId))
    ensures r.lostPosts == Lists.Count(t.posts, ByAuthorWithStatus(userId, Lost))
    ensures r.foundPosts == Lists.Count(t.posts, ByAuthorWithStatus(userId, Found))
    ensures r.returnedPosts == Lists.Count(t.posts, ByAuthorWithStatus(userId, Returned))
    ensures r.totalComments == Lists.Count(t.comments, CommentsBy(userId))
    ensures r.totalLikes == LikesGivenBy(t, userId)
    ensures r.lostPosts + r.foundPosts + r.returnedPosts <= r.totalPosts
  {
    Lists.CountExclusiveSum(t.posts, ByAuthor(userId),
      ByAuthorWithStatus(userId, Lost), ByAuthorWithStatus(userId, Found), ByAuthorWithStatus(userId, Returned));
    DashboardStats(
      Lists.Count(t.posts, ByAuthor(userId)),
      Lists.Count(t.posts, ByAuthorWithStatus(userId, Lost)),
      Lists.Count(t.posts, ByAuthorWithStatus(userId, Found)),
      Lists.Count(t.posts, ByAuthorWithStatus(userId, Returned)),
      Lists.Count(t.comments, CommentsBy(userId)),
      LikesGivenBy(t, userId))
  }

  /** Liking a post the user had not liked adds one to the user's `totalLikes`. */
  lemma LikeRaisesTotalLikes(t: Tables, u: UserId, id: PostId)
    requires (u, id) !in t.postLikes
    ensures GetStats(t.(postLikes := t.postLikes + {(u, id)}), u).totalLikes == GetStats(t, u).totalLikes + 1
  {
    var before := set l | l in t.postLikes && l.0 == u;
    var after := set l | l in t.postLikes + {(u, id)} && l.0 == u;
    assert after == before + {(u, id)};
  }

  // ----- getMyPosts -----

  /** A post with `_count: { comments, likes }` and no other relation. */
  datatype CountedPost = CountedPost(post: Post, commentCount: nat, likeCount: nat)

  function CountedRow(t: Tables, p: Post): (row: CountedPost)
    ensures row.post == p
    ensures row.commentCount == Lists.Count(t.comments, CommentsOn(p.id))
    ensures row.likeCount == PostLikeCount(t.postLikes, p.id)
  {
    CountedPost(p, Lists.Count(t.comments, CommentsOn(p.id)), PostLikeCount(t.postLikes, p.id))
  }

  /** `{ authorId, ...(status && { status: status.toUpperCase() }) }`. */
  function MyPostsWhere(userId: UserId, status: Option<string>): (w: Where)
    ensures w.authorId == Some(userId)
    ensures w.status == if Given(status) then Some(Upper(status.value)) else None
  {
    EmptyWhere().(authorId := Some(userId), status := if Given(status) then Some(Upper(status.value)) else None)
  }

  /**
   * The selection means: the user's posts, and when a status is given, the
   * posts whose status name is that text upper-cased.
   */
  lemma MyPostsWhereMeaning(userId: UserId, status: Option<string>, p: Post)
    ensures Matches(MyPostsWhere(userId, status), p) <==>
      p.authorId == userId && (Given(status) ==> ParseStatus(Upper(status.value)) == Some(p.status))
  {
    StatusNames(p.status);
  }

  /** The rows `skip` .. `skip + take - 1` of the posts `w` selects, newest first. */
  function CountedRows(t: Tables, w: Where, skip: nat, take: nat): (r: seq<CountedPost>)
    ensures |r| <= take && |r| <= Lists.Count(t.posts, Matcher(w))
    ensures forall i :: 0 <= i < |r| ==>
      skip + i < |Posts.Ordered(t, Matcher(w))| &&
      r[i] == CountedRow(t, Posts.Ordered(t, Matcher(w))[skip + i])
  {
    var rows := Lists.PageOf(Posts.Ordered(t, Matcher(w)), skip, take);
    seq(|rows|, i requires 0 <= i < |rows| => CountedRow(t, rows[i]))
  }

  /** Every row is a stored post `w` admits, and the rows are newest first. */
  lemma CountedRowsSelected(t: Tables, w: Where, skip: nat, take: nat)
    ensures var r := CountedRows(t, w, skip, take);
      (forall i :: 0 <= i < |r| ==> r[i].post in t.posts && Matches(w, r[i].post)) &&
      (forall i, j :: 0 <= i < j < |r| ==> r[i].post.createdAt >= r[j].post.createdAt)
  {
    var ordered := Posts.Ordered(t, Matcher(w));
    var r := CountedRows(t, w, skip, take);
    forall i | 0 <= i < |r| ensures r[i].post in t.posts && Matches(w, r[i].post) {
      assert ordered[skip + i] in ordered;
    }
    forall i, j | 0 <= i < j < |r| ensures r[i].post.createdAt >= r[j].post.createdAt {
      assert PostCreatedAt(ordered[skip + i]) >= PostCreatedAt(ordered[skip + j]);
    }
  }

  datatype MyPosts = MyPosts(data: seq<CountedPost>, pagination: Pagination.PageInfo)

  /**
   * `getMyPosts`: the page and the count read the same selection; the take
   * is the requested limit, without the 50-row cap. A status that names no
   * `PostStatus` once upper-cased makes the store reject the query.
   */
  function GetMyPosts(t: Tables, userId: UserId, pq: PaginationDto.PaginationQuery, status: Option<string>)
    : (r: Result<MyPosts>)
    requires PaginationDto.ValidQuery(pq)
    ensures r.Err? <==> Given(status) && ParseStatus(Upper(status.value)).None?
    ensures r.Err? ==> r.failure == StoreRejected(Posts.InvalidStatus)
    ensures r.Ok? ==>
      var w := MyPostsWhere(userId, status);
      r.value.pagination == Pagination.PageInfoOf(Lists.Count(t.posts, Matcher(w)), pq.page, pq.limit) &&
      r.value.data == CountedRows(t, w, Pagination.GetSkip(pq.page, pq.limit), pq.limit)
  {
    var w := MyPostsWhere(userId, status);
    if !StatusAccepted(w) then Err(StoreRejected(Posts.InvalidStatus))
    else
      Ok(MyPosts(
        CountedRows(t, w, Pagination.GetSkip(pq.page, pq.limit), pq.limit),
        Pagination.PageInfoOf(Lists.Count(t.posts, Matcher(w)), pq.page, pq.limit)))
  }

  /** Without a status the page counts all of the user's posts, as `getStats` does. */
  lemma UnfilteredTotalIsTotalPosts(t: Tables, userId: UserId, pq: PaginationDto.PaginationQuery)
    requires PaginationDto.ValidQuery(pq)
    ensures GetMyPosts(t, userId, pq, None).Ok?
    ensures GetMyPosts(t, userId, pq, None).value.pagination.total == GetStats(t, userId).totalPosts
  {
    var w := MyPostsWhere(userId, None);
    forall p ensures Matcher(w)(p) == ByAuthor(userId)(p) {
    }
    Lists.SelectExt(t.posts, Matcher(w), ByAuthor(userId));
  }

  /** A lower-case status selects the same posts as `getStats` counts for that status. */
  lemma StatusTotalMatchesStats(t: Tables, userId: UserId, pq: PaginationDto.PaginationQuery, s: Status)
    requires PaginationDto.ValidQuery(pq)
    ensures GetMyPosts(t, userId, pq, Some(Lower(s.Name()))).Ok?
    ensures GetMyPosts(t, userId, pq, Some(Lower(s.Name()))).value.pagination.total ==
      Lists.Count(t.posts, ByAuthorWithStatus(userId, s))
  {
    StatusNames(s);
    UpperOfLower(s.Name());
    var w := MyPostsWhere(userId, Some(Lower(s.Name())));
    assert w.status == Some(s.Name());
    forall p ensures Matcher(w)(p) == ByAuthorWithStatus(userId, s)(p) {
      StatusNames(p.status);
    }
    Lists.SelectExt(t.posts, Matcher(w), ByAuthorWithStatus(userId, s));
  }
}

=== FILE: database.dfy ===
/**
 * Connection bootstrap of the store client: the normalisation of a
 * PostgreSQL connection URL, and the connect loop with exponential backoff.
 * The URL is taken in its parsed form (scheme, host name, query parameters);
 * the connect attempts and their outcomes are given as a sequence, and the
 * delays the loop would sleep are returned instead of slept.
 */
module Database {
  import opened Wrappers
  import opened Text

  type Param = (string, string)

  /** A connection URL after parsing, reduced to the parts the normalisation reads and writes. */
  datatype ParsedUrl = ParsedUrl(protocol: string, hostname: string, params: seq<Param>)

  /** The result of normalisation: the input string untouched, or the rewritten URL to be serialised. */
  datatype NormalisedUrl = Original(raw: string) | Serialised(url: ParsedUrl)

  /** `URLSearchParams.get`: the value of the first parameter named `k`. */
  function Get(ps: seq<Param>, k: string): Option<string> {
    if ps == [] then None
    else if ps[0].0 == k then Some(ps[0].1)
    else Get(ps[1..], k)
  }

  /** `URLSearchParams.has`. */
  predicate Has(ps: seq<Param>, k: string) {
    Get(ps, k).Some?
  }

  /** `ps` without any parameter named `k`. */
  function RemoveAll(ps: seq<Param>, k: string): seq<Param> {
    if ps == [] then []
    else if ps[0].0 == k then RemoveAll(ps[1..], k)
    else [ps[0]] + RemoveAll(ps[1..], k)
  }

  function ReplaceFirst(ps: seq<Param>, k: string, v: string): seq<Param> {
    if ps == [] then []
    else if ps[0].0 == k then [(k, v)] + RemoveAll(ps[1..], k)
    else [ps[0]] + ReplaceFirst(ps[1..], k, v)
  }

  /**
   * `URLSearchParams.set`: the first parameter named `k` takes the value `v` and
   * the later ones are dropped; without such a parameter, `(k, v)` is appended.
   */
  function SetParam(ps: seq<Param>, k: string, v: string): seq<Param> {
    if Has(ps, k) then ReplaceFirst(ps, k, v) else ps + [(k, v)]
  }

  lemma {:induction false} GetAfterRemoval(ps: seq<Param>, k: string, k': string)
    requires k' != k
    ensures Get(RemoveAll(ps, k), k') == Get(ps, k')
  {
    if ps != [] {
      GetAfterRemoval(ps[1..], k, k');
    }
  }

  lemma {:induction false} GetAfterReplace(ps: seq<Param>, k: string, v: string, k': string)
    requires Has(ps, k)
    ensures Get(ReplaceFirst(ps, k, v), k') == if k' == k then Some(v) else Get(ps, k')
  {
    if ps[0].0 == k {
      if k' != k {
        GetAfterRemoval(ps[1..], k, k');
      }
    } else {
      GetAfterReplace(ps[1..], k, v, k');
    }
  }

  lemma {:induction false} GetAfterAppend(ps: seq<Param>, k: string, v: string, k': string)
    ensures Get(ps + [(k, v)], k') == if Has(ps, k') then Get(ps, k') else if k' == k then Some(v) else None
  {
    if ps != [] {
      assert (ps + [(k, v)])[1..] == ps[1..] + [(k, v)];
      GetAfterAppend(ps[1..], k, v, k');
    }
  }

  /** After `set(k, v)`, `get(k)` is `v` and every other name reads as before. */
  lemma SetThenGet(ps: seq<Param>, k: string, v: string, k': string)
    ensures Get(SetParam(ps, k, v), k') == if k' == k then Some(v) else Get(ps, k')
  {
    if Has(ps, k) {
      GetAfterReplace(ps, k, v, k');
    } else {
      GetAfterAppend(ps, k, v, k');
    }
  }

  const ManagedHostSuffix := ".supabase.co"

  /** The parameter list the normalisation produces from `ps` for host `hostname`. */
  function NormaliseParams(hostname: string, ps: seq<Param>): seq<Param> {
    var withSsl := if Has(ps, "sslmode") then ps else SetParam(ps, "sslmode", "require");
    if EndsWith(hostname, ManagedHostSuffix) then
      var withPool := if Has(withSsl, "pgbouncer") then withSsl else SetParam(withSsl, "pgbouncer", "true");
      if Has(withPool, "connection_limit") then withPool else SetParam(withPool, "connection_limit", "1")
    else withSsl
  }

  /** `PrismaService.ensureSecurePostgresUrl`, over the parse result of `raw` (None when parsing throws). */
  method EnsureSecurePostgresUrl(raw: string, parsed: Option<ParsedUrl>) returns (r: NormalisedUrl)
    ensures raw == "" || parsed.None? ==> r == Original(raw)
    ensures parsed.Some? && !StartsWith(parsed.value.protocol, "postgres") ==> r == Original(raw)
    ensures raw != "" && parsed.Some? && StartsWith(parsed.value.protocol, "postgres") ==>
      r == Serialised(parsed.value.(params := NormaliseParams(parsed.value.hostname, parsed.value.params)))
  {
    if raw == "" {
      return Original(raw);
    }
    if parsed.None? {
      return Original(raw);
    }
    var url := parsed.value;
    var isPostgres := StartsWith(url.protocol, "postgres");
    if !isPostgres {
      return Original(raw);
    }
    var params := url.params;
    if !Has(params, "sslmode") {
      params := SetParam(params, "sslmode", "require");
    }
    if EndsWith(url.hostname, ManagedHostSuffix) {
      if !Has(params, "pgbouncer") {
        params := SetParam(params, "pgbouncer", "true");
      }
      if !Has(params, "connection_limit") {
        params := SetParam(params, "connection_limit", "1");
      }
    }
    url := url.(params := params);
    r := Serialised(url);
  }

  /** The value every parameter name reads after normalisation. */
  lemma NormalisedValues(hostname: string, ps: seq<Param>, k: string)
    ensures var managed := EndsWith(hostname, ManagedHostSuffix);
      Get(NormaliseParams(hostname, ps), k) ==
        if Has(ps, k) then Get(ps, k)
        else if k == "sslmode" then Some("require")
        else if managed && k == "pgbouncer" then Some("true")
        else if managed && k == "connection_limit" then Some("1")
        else None
  {
    var withSsl := if Has(ps, "sslmode") then ps else SetParam(ps, "sslmode", "require");
    SetThenGet(ps, "sslmode", "require", k);
    if EndsWith(hostname, ManagedHostSuffix) {
      var withPool := if Has(withSsl, "pgbouncer") then withSsl else SetParam(withSsl, "pgbouncer", "true");
      SetThenGet(withSsl, "pgbouncer", "true", k);
      SetThenGet(withSsl, "pgbouncer", "true", "connection_limit");
      SetThenGet(ps, "sslmode", "require", "connection_limit");
      SetThenGet(ps, "sslmode", "require", "pgbouncer");
      SetThenGet(withPool, "connection_limit", "1", k);
    }
  }

  /** Parameters the URL already carries keep their values, and nothing is removed or reordered. */
  lemma NormaliseOnlyAppends(hostname: string, ps: seq<Param>)
    ensures |ps| <= |NormaliseParams(hostname, ps)|
    ensures NormaliseParams(hostname, ps)[..|ps|] == ps
  {
    var withSsl := if Has(ps, "sslmode") then ps else SetParam(ps, "sslmode", "require");
    assert withSsl[..|ps|] == ps;
    if EndsWith(hostname, ManagedHostSuffix) {
      var withPool := if Has(withSsl, "pgbouncer") then withSsl else SetParam(withSsl, "pgbouncer", "true");
      assert withPool[..|withSsl|] == withSsl;
      var result := NormaliseParams(hostname, ps);
      assert result[..|withPool|] == withPool;
      assert result[..|ps|] == withPool[..|withSsl|][..|ps|];
    }
  }

  /** A host outside the managed provider gets at most `sslmode=require`, never the pooling parameters. */
  lemma UnmanagedHostOnlyGetsSsl(hostname: string, ps: seq<Param>)
    requires !EndsWith(hostname, ManagedHostSuffix)
    ensures NormaliseParams(hostname, ps) == if Has(ps, "sslmode") then ps else ps + [("sslmode", "require")]
  {
  }

  /** Normalising an already normalised URL changes nothing. */
  lemma NormaliseIdempotent(hostname: string, ps: seq<Param>)
    ensures NormaliseParams(hostname, NormaliseParams(hostname, ps)) == NormaliseParams(hostname, ps)
  {
    var once := NormaliseParams(hostname, ps);
    NormalisedValues(hostname, ps, "sslmode");
    if EndsWith(hostname, ManagedHostSuffix) {
      NormalisedValues(hostname, ps, "pgbouncer");
      NormalisedValues(hostname, ps, "connection_limit");
    }
  }

  // ---------------------------------------------------------------------------------------------
  // Connect loop

  /** Outcome of one `$connect()` call: success, or a failure carrying the message of an `Error` (None for a non-Error throw). */
  datatype ConnectOutcome = Connected | Failed(error: Option<string>)

  /** How bootstrap ends: connected after `attempts` attempts, or a fatal error that aborts start-up. */
  datatype Bootstrap = Ready(attempts: nat) | Fatal(message: string)

  const DefaultMaxAttempts: nat := 5
  const DefaultBaseDelayMs: nat := 500
  const GenericConnectError := "Failed to connect to database"

  /** `Number(process.env.X || d)`: an unset or empty variable gives `d`; a set one gives its value, 0 included. */
  function EnvNumber(env: Option<nat>, default: nat): nat {
    if env.Some? then env.value else default
  }

  function Pow2(n: nat): (p: nat)
    ensures p >= 1
  {
    if n == 0 then 1 else 2 * Pow2(n - 1)
  }

  /** The delays slept after the first `n` failed attempts: base, 2 base, 4 base, ... */
  function BackoffDelays(base: nat, n: nat): (d: seq<nat>)
    ensures |d| == n
    ensures forall i :: 0 <= i < n ==> d[i] == base * Pow2(i)
  {
    seq(n, i requires 0 <= i < n => base * Pow2(i))
  }

  function Sum(s: seq<nat>): nat {
    if s == [] then 0 else Sum(s[..|s| - 1]) + s[|s| - 1]
  }

  lemma BackoffPrefix(base: nat, n: nat)
    requires n > 0
    ensures BackoffDelays(base, n)[..n - 1] == BackoffDelays(base, n - 1)
  {
  }

  lemma GeometricStep(base: nat, p: nat)
    ensures base * (p - 1) + base * p == base * (2 * p - 1)
  {
    assert base * (p - 1) == base * p - base;
    assert base * (2 * p - 1) == base * p + base * p - base;
  }

  /** n failed attempts sleep base * (2^n - 1) milliseconds in total. */
  lemma {:induction false} TotalBackoff(base: nat, n: nat)
    ensures Sum(BackoffDelays(base, n)) == base * (Pow2(n) - 1)
  {
    if n > 0 {
      var d := BackoffDelays(base, n);
      BackoffPrefix(base, n);
      TotalBackoff(base, n - 1);
      var p := Pow2(n - 1);
      assert d[n - 1] == base * p;
      assert Sum(d) == base * (p - 1) + base * p;
      GeometricStep(base, p);
    }
  }

  /** The error thrown once every attempt failed: the last failure if it is an Error, otherwise a generic one. */
  function FatalMessage(outcomes: seq<ConnectOutcome>, attempts: nat): string
    requires attempts <= |outcomes|
  {
    if attempts > 0 && outcomes[attempts - 1].Failed? && outcomes[attempts - 1].error.Some?
    then outcomes[attempts - 1].error.value
    else GenericConnectError
  }

  /** `PrismaService.onModuleInit`: attempt k + 1 has outcome `outcomes[k]`. */
  method ConnectWithRetry(outcomes: seq<ConnectOutcome>, maxAttempts: nat, baseDelay: nat)
    returns (slept: seq<nat>, result: Bootstrap)
    requires maxAttempts <= |outcomes|
    ensures result.Ready? <==> exists k :: 0 <= k < maxAttempts && outcomes[k].Connected?
    ensures result.Ready? ==>
      && 1 <= result.attempts <= maxAttempts
      && outcomes[result.attempts - 1].Connected?
      && (forall k :: 0 <= k < result.attempts - 1 ==> outcomes[k].Failed?)
      && slept == BackoffDelays(baseDelay, result.attempts - 1)
    ensures result.Fatal? ==>
      && slept == BackoffDelays(baseDelay, maxAttempts)
      && result.message == FatalMessage(outcomes, maxAttempts)
  {
    var attempt: nat := 0;
    var lastError: Option<ConnectOutcome> := None;
    slept := [];
    while attempt < maxAttempts
      invariant attempt <= maxAttempts
      invariant forall k :: 0 <= k < attempt ==> outcomes[k].Failed?
      invariant slept == BackoffDelays(baseDelay, attempt)
      invariant lastError == if attempt == 0 then None else Some(outcomes[attempt - 1])
    {
      attempt := attempt + 1;
      if outcomes[attempt - 1].Connected? {
        return slept, Ready(attempt);
      }
      lastError := Some(outcomes[attempt - 1]);
      var delay := baseDelay * Pow2(attempt - 1);
      slept := slept + [delay];
    }
    var message := if lastError.Some? && lastError.value.Failed? && lastError.value.error.Some?
                   then lastError.value.error.value else GenericConnectError;
    result := Fatal(message);
  }

  /** Two failures and then a success, with the defaults: ready on attempt 3 after sleeping base + 2 base. */
  method TwoFailuresThenSuccess() returns (slept: seq<nat>, result: Bootstrap)
    ensures result == Ready(3)
    ensures slept == [DefaultBaseDelayMs, 2 * DefaultBaseDelayMs]
    ensures Sum(slept) == DefaultBaseDelayMs + 2 * DefaultBaseDelayMs
  {
    var outcomes := [Failed(Some("ECONNREFUSED")), Failed(Some("ECONNREFUSED")), Connected, Connected, Connected];
    slept, result := ConnectWithRetry(outcomes, EnvNumber(None, DefaultMaxAttempts), EnvNumber(None, DefaultBaseDelayMs));
    assert outcomes[2].Connected?;
    TotalBackoff(DefaultBaseDelayMs, 2);
  }

  /** Five failures with the defaults: fatal, after sleeping 500 * (2^5 - 1) ms, the last one included. */
  method FiveFailures() returns (slept: seq<nat>, result: Bootstrap)
    ensures result == Fatal("timeout")
    ensures |slept| == 5 && Sum(slept) == DefaultBaseDelayMs * 31
  {
    var f := Failed(Some("timeout"));
    slept, result := ConnectWithRetry([f, f, f, f, f], DefaultMaxAttempts, DefaultBaseDelayMs);
    TotalBackoff(DefaultBaseDelayMs, 5);
  }
}

=== FILE: entities.dfy ===
/**
 * The stored entities (post, comment, user, like) and the contents of the
 * store at one moment, with the lookups and orderings every service uses.
 */
module Entities {
  import opened Wrappers
  import opened Text
  import Lists

  type UserId = string
  type PostId = string
  type CommentId = string

  /** The database enum `PostStatus`. */
  datatype Status = Lost | Found | Returned | Closed {
    /** The name the database stores. */
    function Name(): string {
      match this
      case Lost => "LOST"
      case Found => "FOUND"
      case Returned => "RETURNED"
      case Closed => "CLOSED"
    }
  }

  /** The enum value stored under `name`, if any. */
  function ParseStatus(name: string): (r: Option<Status>)
    ensures r.Some? ==> r.value.Name() == name
  {
    if name == "LOST" then Some(Lost)
    else if name == "FOUND" then Some(Found)
    else if name == "RETURNED" then Some(Returned)
    else if name == "CLOSED" then Some(Closed)
    else None
  }

  /** The database enum `PreferredContact`. */
  datatype Contact = Phone | Email | Both {
    function Name(): string {
      match this
      case Phone => "PHONE"
      case Email => "EMAIL"
      case Both => "BOTH"
    }
  }

  function ParseContact(name: string): (r: Option<Contact>)
    ensures r.Some? ==> r.value.Name() == name
  {
    if name == "PHONE" then Some(Phone)
    else if name == "EMAIL" then Some(Email)
    else if name == "BOTH" then Some(Both)
    else None
  }

  /** Every stored status name reads back as that status, and contains no lower-case letter. */
  lemma StatusNames(s: Status)
    ensures ParseStatus(s.Name()) == Some(s)
    ensures NoLowerLetters(s.Name())
  {
  }

  lemma ContactNames(c: Contact)
    ensures ParseContact(c.Name()) == Some(c)
    ensures NoLowerLetters(c.Name())
  {
  }

  /** An image row attached to a post. */
  datatype Image = Image(url: string, filename: string)

  /** The image row created for an uploaded url: its file name is the last path segment, or "image.jpg" when that is empty. */
  function ImageFor(url: string): (r: Image)
    ensures r.url == url
    ensures r.filename != "" && '/' !in r.filename
    ensures EndsWith(url, "/") ==> r.filename == "image.jpg"
  {
    var parts := Split(url, '/');
    SplitPartsFree(url, '/');
    assert EndsWith(url, "/") ==> parts[|parts| - 1] == "" by {
      if EndsWith(url, "/") {
        assert url == url[..|url| - 1] + ['/'] + "";
        SplitLastAfterSep(url[..|url| - 1], "", '/');
      }
    }
    var last := parts[|parts| - 1];
    Image(url, if last != "" then last else "image.jpg")
  }

  /** An image stored under `dir + "/" + name` is recorded with file name `name`. */
  lemma ImageNamedAfterLastSegment(dir: string, name: string)
    requires name != "" && '/' !in name
    ensures ImageFor(dir + "/" + name).filename == name
  {
    assert dir + "/" + name == dir + ['/'] + name;
    SplitLastAfterSep(dir, name, '/');
  }

  /**
   * A post row. The category is kept by its unique name; latitude, longitude
   * and reward are numbers in the store and only their presence and sign
   * matter here, so they are integers.
   */
  datatype Post = Post(
    id: PostId,
    title: string,
    description: string,
    status: Status,
    category: string,
    address: string,
    city: string,
    state: string,
    country: string,
    latitude: Option<int>,
    longitude: Option<int>,
    contactPhone: Option<string>,
    contactEmail: Option<string>,
    preferredContact: Contact,
    reward: Option<int>,
    tags: seq<string>,
    images: seq<Image>,
    authorId: UserId,
    createdAt: int,
    updatedAt: int)

  datatype Comment = Comment(
    id: CommentId,
    content: string,
    postId: PostId,
    authorId: UserId,
    parentId: Option<CommentId>,
    createdAt: int,
    updatedAt: int)

  datatype User = User(
    id: UserId,
    email: string,
    username: string,
    firstName: Option<string>,
    lastName: Option<string>,
    avatar: Option<string>,
    bio: Option<string>,
    phone: Option<string>,
    city: Option<string>,
    state: Option<string>,
    country: Option<string>,
    emailNotifications: bool,
    pushNotifications: bool,
    publicProfile: bool,
    showContactInfo: bool,
    postsCount: int,
    commentsCount: int,
    successfulReturns: int,
    createdAt: int,
    updatedAt: int)

  /** The `author: { select: { id, username, avatar } }` part of a row. */
  datatype AuthorSummary = AuthorSummary(id: UserId, username: string, avatar: Option<string>)

  type PostLike = (UserId, PostId)
  type CommentLike = (UserId, CommentId)

  /** The contents of the store at one moment; posts and comments in insertion order. */
  datatype Tables = Tables(
    posts: seq<Post>,
    comments: seq<Comment>,
    users: map<UserId, User>,
    postLikes: set<PostLike>,
    commentLikes: set<CommentLike>,
    categories: set<string>)

  /** Every post and comment has an author in the users table (the foreign keys). */
  predicate Joined(t: Tables) {
    (forall p :: p in t.posts ==> p.authorId in t.users) &&
    (forall c :: c in t.comments ==> c.authorId in t.users)
  }

  predicate UniquePostIds(posts: seq<Post>) {
    forall i, j :: 0 <= i < j < |posts| ==> posts[i].id != posts[j].id
  }

  predicate UniqueCommentIds(comments: seq<Comment>) {
    forall i, j :: 0 <= i < j < |comments| ==> comments[i].id != comments[j].id
  }

  /** `id` is a new key: no post, comment or like row refers to it yet. */
  predicate FreshPostId(t: Tables, id: PostId) {
    (forall p :: p in t.posts ==> p.id != id) &&
    (forall c :: c in t.comments ==> c.postId != id) &&
    (forall l :: l in t.postLikes ==> l.1 != id)
  }

  predicate FreshCommentId(t: Tables, id: CommentId) {
    (forall c :: c in t.comments ==> c.id != id && c.parentId != Some(id)) &&
    (forall l :: l in t.commentLikes ==> l.1 != id)
  }

  /** `findUnique({ where: { id } })` on posts. */
  function FindPost(posts: seq<Post>, id: PostId): (r: Option<Post>)
    ensures r.Some? ==> r.value in posts && r.value.id == id
    ensures r.None? <==> forall p :: p in posts ==> p.id != id
  {
    if posts == [] then None
    else if posts[0].id == id then Some(posts[0])
    else FindPost(posts[1..], id)
  }

  /** `findUnique({ where: { id } })` on comments. */
  function FindComment(comments: seq<Comment>, id: CommentId): (r: Option<Comment>)
    ensures r.Some? ==> r.value in comments && r.value.id == id
    ensures r.None? <==> forall c :: c in comments ==> c.id != id
  {
    if comments == [] then None
    else if comments[0].id == id then Some(comments[0])
    else FindComment(comments[1..], id)
  }

  /** The author part of a row, read through the foreign key. */
  function AuthorOf(users: map<UserId, User>, id: UserId): AuthorSummary
    requires id in users
  {
    AuthorSummary(id, users[id].username, users[id].avatar)
  }

  function PostCreatedAt(p: Post): int { p.createdAt }
  function CommentCreatedAt(c: Comment): int { c.createdAt }

  /** The row selector `{ authorId }` on posts. */
  function ByAuthor(u: UserId): Post -> bool {
    (p: Post) => p.authorId == u
  }

  /** The row selector `{ authorId, status }` on posts. */
  function ByAuthorWithStatus(u: UserId, s: Status): Post -> bool {
    (p: Post) => p.authorId == u && p.status == s
  }

  /** The row selector `{ authorId }` on comments. */
  function CommentsBy(u: UserId): Comment -> bool {
    (c: Comment) => c.authorId == u
  }

  /** The row selector `{ postId }` on comments (the `_count.comments` of a post). */
  function CommentsOn(id: PostId): Comment -> bool {
    (c: Comment) => c.postId == id
  }

  /** The number of like rows that point at post `id` (the `_count.likes` of a post). */
  function PostLikeCount(likes: set<PostLike>, id: PostId): nat {
    |set l | l in likes && l.1 == id|
  }

  function CommentLikeCount(likes: set<CommentLike>, id: CommentId): nat {
    |set l | l in likes && l.1 == id|
  }

  /** The users whose like rows point at post `id` (the `likes` relation of a post). */
  function PostLikers(likes: set<PostLike>, id: PostId): set<UserId> {
    set l | l in likes && l.1 == id :: l.0
  }

  function CommentLikers(likes: set<CommentLike>, id: CommentId): set<UserId> {
    set l | l in likes && l.1 == id :: l.0
  }

  /** Removing one row by id from a table with unique ids. */
  function WithoutPost(posts: seq<Post>, id: PostId): (r: seq<Post>)
    ensures forall p :: p in r <==> p in posts && p.id != id
  {
    Lists.Select(posts, (p: Post) => p.id != id)
  }

  function WithoutComment(comments: seq<Comment>, id: CommentId): (r: seq<Comment>)
    ensures forall c :: c in r <==> c in comments && c.id != id
  {
    Lists.Select(comments, (c: Comment) => c.id != id)
  }

  /** The row with id `p.id` replaced by `p`. */
  function ReplacePost(posts: seq<Post>, p: Post): (r: seq<Post>)
    ensures |r| == |posts|
    ensures forall i :: 0 <= i < |posts| ==> r[i] == if posts[i].id == p.id then p else posts[i]
  {
    seq(|posts|, i requires 0 <= i < |posts| => if posts[i].id == p.id then p else posts[i])
  }

  /**
   * The comment table's counterpart of `ReplacePost`. The two are kept as
   * separate members on purpose: each table has its own row type and its
   * own read-back lemma below, as the two `update` calls have in the source.
   */
  function ReplaceComment(comments: seq<Comment>, c: Comment): (r: seq<Comment>)
    ensures |r| == |comments|
    ensures forall i :: 0 <= i < |comments| ==> r[i] == if comments[i].id == c.id then c else comments[i]
  {
    seq(|comments|, i requires 0 <= i < |comments| => if comments[i].id == c.id then c else comments[i])
  }

  /**
   * After replacing, a lookup of the id finds the new row exactly when the
   * id was stored, and the rows under every other id are the ones there
   * were before.
   */
  lemma {:induction false} ReplacePostReadsBack(posts: seq<Post>, p: Post)
    ensures FindPost(ReplacePost(posts, p), p.id) == if FindPost(posts, p.id).Some? then Some(p) else None
    ensures WithoutPost(ReplacePost(posts, p), p.id) == WithoutPost(posts, p.id)
  {
    if posts != [] {
      ReplacePostReadsBack(posts[1..], p);
      assert ReplacePost(posts, p)[1..] == ReplacePost(posts[1..], p);
    }
  }

  lemma {:induction false} ReplaceCommentReadsBack(comments: seq<Comment>, c: Comment)
    ensures FindComment(ReplaceComment(comments, c), c.id) == if FindComment(comments, c.id).Some? then Some(c) else None
    ensures WithoutComment(ReplaceComment(comments, c), c.id) == WithoutComment(comments, c.id)
  {
    if comments != [] {
      ReplaceCommentReadsBack(comments[1..], c);
      assert ReplaceComment(comments, c)[1..] == ReplaceComment(comments[1..], c);
    }
  }

  lemma {:induction false} SelectPreservesUniquePosts(posts: seq<Post>, keep: Post -> bool)
    requires UniquePostIds(posts)
    ensures UniquePostIds(Lists.Select(posts, keep))
  {
    if posts != [] {
      SelectPreservesUniquePosts(posts[1..], keep);
      var rest := Lists.Select(posts[1..], keep);
      forall x | x in rest ensures x.id != posts[0].id {
        var k :| 1 <= k < |posts| && posts[k] == x;
      }
    }
  }

  lemma {:induction false} SelectPreservesUniqueComments(comments: seq<Comment>, keep: Comment -> bool)
    requires UniqueCommentIds(comments)
    ensures UniqueCommentIds(Lists.Select(comments, keep))
  {
    if comments != [] {
      SelectPreservesUniqueComments(comments[1..], keep);
      var rest := Lists.Select(comments[1..], keep);
      forall x | x in rest ensures x.id != comments[0].id {
        var k :| 1 <= k < |comments| && comments[k] == x;
      }
    }
  }
}

=== FILE: lists.dfy ===
/**
 * What the store does with a table once a `where` predicate is fixed:
 * select the matching rows, count them, order them by a key (newest
 * first) and cut out the page given by `skip` and `take`.
 */
module Lists {

  /** The rows of `s` that satisfy `keep`, in table order. */
  function Select<T(!new)>(s: seq<T>, keep: T -> bool): (r: seq<T>)
    ensures |r| <= |s|
    ensures forall x :: x in r <==> x in s && keep(x)
  {
    if s == [] then []
    else (if keep(s[0]) then [s[0]] else []) + Select(s[1..], keep)
  }

  /** Two selectors that agree on every row select the same rows. */
  lemma {:induction false} SelectExt<T(!new)>(s: seq<T>, p: T -> bool, q: T -> bool)
    requires forall x :: p(x) == q(x)
    ensures Select(s, p) == Select(s, q)
  {
    if s != [] {
      SelectExt(s[1..], p, q);
    }
  }

  /** A selector no row satisfies selects nothing. */
  lemma {:induction false} SelectNone<T(!new)>(s: seq<T>, keep: T -> bool)
    requires forall x :: x in s ==> !keep(x)
    ensures Select(s, keep) == []
  {
    if s != [] {
      SelectNone(s[1..], keep);
    }
  }

  /** A selector every row satisfies selects the whole table. */
  lemma {:induction false} SelectAll<T(!new)>(s: seq<T>, keep: T -> bool)
    requires forall x :: x in s ==> keep(x)
    ensures Select(s, keep) == s
  {
    if s != [] {
      SelectAll(s[1..], keep);
      assert s == [s[0]] + s[1..];
    }
  }

  /** The store's `count({ where })`. */
  function Count<T(!new)>(s: seq<T>, keep: T -> bool): nat {
    |Select(s, keep)|
  }

  /** Counting with a weaker predicate never gives less. */
  lemma {:induction false} CountMonotone<T(!new)>(s: seq<T>, p: T -> bool, q: T -> bool)
    requires forall x :: p(x) ==> q(x)
    ensures Count(s, p) <= Count(s, q)
  {
    if s != [] {
      CountMonotone(s[1..], p, q);
    }
  }

  /** Three pairwise exclusive refinements of `base` together count no more than `base` itself. */
  lemma {:induction false} CountExclusiveSum<T(!new)>(s: seq<T>, base: T -> bool, a: T -> bool, b: T -> bool, c: T -> bool)
    requires forall x :: (a(x) ==> base(x)) && (b(x) ==> base(x)) && (c(x) ==> base(x))
    requires forall x :: !(a(x) && b(x)) && !(a(x) && c(x)) && !(b(x) && c(x))
    ensures Count(s, a) + Count(s, b) + Count(s, c) <= Count(s, base)
  {
    if s != [] {
      CountExclusiveSum(s[1..], base, a, b, c);
    }
  }

  /** Keys never increase from the front of the sequence to its back. */
  predicate Descending<T>(s: seq<T>, key: T -> int) {
    forall i, j :: 0 <= i < j < |s| ==> key(s[i]) >= key(s[j])
  }

  function Insert<T>(x: T, s: seq<T>, key: T -> int): (r: seq<T>)
    ensures multiset(r) == multiset(s) + multiset{x}
  {
    if s == [] then [x]
    else if key(x) >= key(s[0]) then [x] + s
    else
      assert s == [s[0]] + s[1..];
      [s[0]] + Insert(x, s[1..], key)
  }

  /** Inserting a row whose key is at most `b` into rows whose keys are at most `b` keeps every key at most `b`. */
  lemma {:induction false} InsertBounded<T>(x: T, s: seq<T>, key: T -> int, b: int)
    requires key(x) <= b
    requires forall k :: 0 <= k < |s| ==> key(s[k]) <= b
    ensures forall k :: 0 <= k < |Insert(x, s, key)| ==> key(Insert(x, s, key)[k]) <= b
  {
    if s != [] && key(x) < key(s[0]) {
      InsertBounded(x, s[1..], key, b);
    }
  }

  lemma {:induction false} InsertDescending<T>(x: T, s: seq<T>, key: T -> int)
    requires Descending(s, key)
    ensures Descending(Insert(x, s, key), key)
  {
    if s != [] && key(x) < key(s[0]) {
      InsertDescending(x, s[1..], key);
      InsertBounded(x, s[1..], key, key(s[0]));
    }
  }

  /** `orderBy: { key: 'desc' }`: the same rows, largest key first. */
  function SortDesc<T>(s: seq<T>, key: T -> int): (r: seq<T>)
    ensures multiset(r) == multiset(s)
    ensures Descending(r, key)
  {
    if s == [] then []
    else
      assert s == [s[0]] + s[1..];
      var sorted := SortDesc(s[1..], key);
      InsertDescending(s[0], sorted, key);
      Insert(s[0], sorted, key)
  }

  /** The rows `keep` selects, ordered by `key` with the largest first. */
  function SortedSelection<T(!new)>(s: seq<T>, keep: T -> bool, key: T -> int): (r: seq<T>)
    ensures multiset(r) == multiset(Select(s, keep))
    ensures Descending(r, key)
    ensures forall x :: x in r <==> x in s && keep(x)
    ensures |r| == Count(s, keep)
  {
    var selected := Select(s, keep);
    var sorted := SortDesc(selected, key);
    assert forall x :: x in sorted <==> x in multiset(selected);
    assert |sorted| == |multiset(sorted)|;
    sorted
  }

  function Min(a: int, b: int): int {
    if a <= b then a else b
  }

  /** `skip` and `take` applied to an ordered result: the rows at positions skip .. skip + take - 1 that exist. */
  function PageOf<T>(s: seq<T>, skip: nat, take: nat): (r: seq<T>)
    ensures |r| <= take
    ensures |r| == if skip >= |s| then 0 else Min(take, |s| - skip)
    ensures forall k :: 0 <= k < |r| ==> r[k] == s[skip + k]
  {
    if skip >= |s| then [] else s[skip..Min(skip + take, |s|)]
  }

  lemma PageRowsComeFromTable<T>(s: seq<T>, skip: nat, take: nat)
    ensures forall x :: x in PageOf(s, skip, take) ==> x in s
  {
    var r := PageOf(s, skip, take);
    forall x | x in r ensures x in s {
      var k :| 0 <= k < |r| && r[k] == x;
      assert s[skip + k] == x;
    }
  }

  /** A descending sequence stays descending when a page is cut out of it. */
  lemma PageOfDescending<T>(s: seq<T>, skip: nat, take: nat, key: T -> int)
    requires Descending(s, key)
    ensures Descending(PageOf(s, skip, take), key)
  {
  }
}

=== FILE: pagination.dfy ===
/**
 * The pagination arithmetic shared by every list endpoint: the offset of a
 * page, the 50-row cap on a page, the number of pages and the envelope
 * `{ data, total, page, limit, totalPages, hasNext, hasPrev }`.
 */
module Pagination {
  import opened Wrappers

  /** Largest number of rows one page may hold. */
  const MaxTake: nat := 50

  /** `PaginationUtil.getSkip`: rows that lie on the pages before `page`. */
  function GetSkip(page: int, limit: int): (skip: int)
    ensures page >= 1 && limit >= 0 ==> skip >= 0
  {
    (page - 1) * limit
  }

  /** `PaginationUtil.getTake`: the requested page size, capped at 50 rows. */
  function GetTake(limit: int): (take: int)
    ensures take <= MaxTake && take <= limit
    ensures take == limit || take == MaxTake
  {
    if limit <= MaxTake then limit else MaxTake
  }

  /** Consecutive pages of the same size are adjacent: no row is skipped and none is served twice. */
  lemma PagesTile(page: int, limit: int)
    ensures GetSkip(page + 1, limit) == GetSkip(page, limit) + limit
  {
    assert (page + 1 - 1) * limit == (page - 1) * limit + limit;
  }

  /** `Math.ceil(total / limit)` for a non-negative total and a positive limit. */
  function CeilDiv(total: nat, limit: nat): nat
    requires limit > 0
  {
    if total % limit == 0 then total / limit else total / limit + 1
  }

  lemma MulMono(a: int, b: int, l: nat)
    requires a <= b
    ensures a * l <= b * l
  {
    assert b * l - a * l == (b - a) * l;
  }

  /** The number of pages is the least page count whose pages hold every row. */
  lemma CeilDivBounds(total: nat, limit: nat)
    requires limit > 0
    ensures total == 0 ==> CeilDiv(total, limit) == 0
    ensures total > 0 ==> (CeilDiv(total, limit) - 1) * limit < total <= CeilDiv(total, limit) * limit
  {
    var q, r := total / limit, total % limit;
    assert total == q * limit + r && 0 <= r < limit;
    if r != 0 {
      assert (q + 1) * limit == q * limit + limit;
    }
  }

  /** Page `page` lies before the last page exactly when rows remain after it. */
  lemma BelowLastPage(page: int, total: nat, limit: nat)
    requires limit > 0
    ensures page < CeilDiv(total, limit) <==> page * limit < total
  {
    var tp: int := CeilDiv(total, limit);
    CeilDivBounds(total, limit);
    if page < tp {
      MulMono(page, tp - 1, limit);
    } else {
      MulMono(tp, page, limit);
    }
  }

  /** The paginated envelope returned by list endpoints. */
  datatype Envelope<T> = Envelope(
    data: seq<T>,
    total: nat,
    page: int,
    limit: nat,
    totalPages: nat,
    hasNext: bool,
    hasPrev: bool)

  /** `PaginationUtil.createPaginatedResponse`. */
  function CreatePaginatedResponse<T>(data: seq<T>, total: nat, page: int, limit: nat): (r: Envelope<T>)
    requires limit > 0
    ensures r.data == data && r.total == total && r.page == page && r.limit == limit
    ensures total > 0 ==> (r.totalPages - 1) * limit < total <= r.totalPages * limit
    ensures total == 0 ==> r.totalPages == 0
    ensures r.hasNext <==> page * limit < total
    ensures r.hasPrev <==> page > 1
  {
    CeilDivBounds(total, limit);
    BelowLastPage(page, total, limit);
    var totalPages := CeilDiv(total, limit);
    Envelope(data, total, page, limit, totalPages, page < totalPages, page > 1)
  }

  /** The `pagination` object the dashboard and the search build inline, beside `data`. */
  datatype PageInfo = PageInfo(page: int, limit: nat, total: nat, totalPages: nat, hasNext: bool, hasPrev: bool)

  /** `Math.ceil(total / limit)` and the two flags, as the inline copies compute them. */
  function PageInfoOf(total: nat, page: int, limit: nat): (r: PageInfo)
    requires limit > 0
    ensures r.page == page && r.limit == limit && r.total == total
    ensures total > 0 ==> (r.totalPages - 1) * limit < total <= r.totalPages * limit
    ensures total == 0 ==> r.totalPages == 0
    ensures r.hasNext <==> page * limit < total
    ensures r.hasPrev <==> page > 1
  {
    CeilDivBounds(total, limit);
    BelowLastPage(page, total, limit);
    var totalPages := CeilDiv(total, limit);
    PageInfo(page, limit, total, totalPages, page < totalPages, page > 1)
  }

  /** The inline copies agree field for field with PaginationUtil's envelope. */
  lemma PageInfoAgreesWithEnvelope<T>(data: seq<T>, total: nat, page: int, limit: nat)
    requires limit > 0
    ensures var e := CreatePaginatedResponse(data, total, page, limit);
      PageInfoOf(total, page, limit) == PageInfo(e.page, e.limit, e.total, e.totalPages, e.hasNext, e.hasPrev)
  {
  }

  /** An empty result on the first page offers neither a next nor a previous page. */
  lemma EmptyFirstPage<T>(data: seq<T>, limit: nat)
    requires limit > 0
    ensures var r := CreatePaginatedResponse(data, 0, 1, limit);
      r.totalPages == 0 && !r.hasNext && !r.hasPrev
  {
  }

  /** `Number(x) || d` for a query value already parsed as a non-negative number (None when absent or not a number). */
  function NumberOr(v: Option<nat>, default: nat): (n: nat)
    ensures n == default || (v.Some? && n == v.value)
    ensures default > 0 ==> n > 0
    ensures v.Some? && v.value != 0 ==> n == v.value
    ensures v.None? || v.value == 0 ==> n == default
  {
    if v.Some? && v.value != 0 then v.value else default
  }

  /** What a request for page `page` of size `limit` reads from the store, and the page size it reports. */
  datatype Window = Window(skip: int, take: int, pageSize: int)

  /** The window of `findAllCombined`: the take is capped but the offset and the reported size are not. */
  function CombinedWindow(page: int, limit: int): Window {
    Window(GetSkip(page, limit), GetTake(limit), limit)
  }

  /** The window with the cap applied before the offset and the page count are computed. */
  function ClampedWindow(page: int, limit: int): Window {
    var size := GetTake(limit);
    Window(GetSkip(page, size), size, size)
  }

  predicate Serves(w: Window, row: int) {
    w.skip <= row < w.skip + w.take
  }

  /** Within the cap, the two windows coincide. */
  lemma WindowsAgreeWithinCap(page: int, limit: int)
    requires limit <= MaxTake
    ensures CombinedWindow(page, limit) == ClampedWindow(page, limit)
  {
  }

  /**
   * With limit 100 and 120 matching rows the envelope announces 2 pages, yet
   * row 50 (0-based, newest first) is served by neither of them.
   */
  lemma UncappedLimitSkipsRows()
    ensures CeilDiv(120, 100) == 2
    ensures forall page :: 1 <= page <= CeilDiv(120, 100) ==> !Serves(CombinedWindow(page, 100), 50)
  {
    assert CombinedWindow(1, 100) == Window(0, 50, 100);
    assert CombinedWindow(2, 100) == Window(100, 50, 100);
  }

  /** With the cap applied first, every row lies on exactly the page the envelope counts it on. */
  lemma ClampedWindowServesEveryRow(total: nat, limit: int, row: nat)
    requires limit >= 1 && row < total
    ensures var size := GetTake(limit);
      var page := row / size + 1;
      1 <= page <= CeilDiv(total, size) && Serves(ClampedWindow(page, limit), row)
  {
    var size := GetTake(limit);
    var q := row / size;
    assert row == q * size + row % size && 0 <= row % size < size;
    BelowLastPage(q, total, size);
    assert q * size <= row < total;
    assert GetSkip(q + 1, size) == q * size;
  }
}

=== FILE: pagination_dto.dfy ===
/**
 * The request-side `PaginationDto` (defaults and validated bounds) and the
 * response-side `PaginatedResponseDto`, whose constructor fills its fields
 * one after the other.
 */
module PaginationDto {
  import opened Wrappers
  import Pagination

  datatype SortOrder = Asc | Desc

  /** A `PaginationDto` once the class defaults are in place. */
  datatype PaginationQuery = PaginationQuery(
    page: int,
    limit: int,
    search: Option<string>,
    sortBy: Option<string>,
    sortOrder: SortOrder)

  /** The bounds the validation pipe enforces: a positive page and 1 <= limit <= 50. */
  predicate ValidQuery(q: PaginationQuery) {
    q.page > 0 && 1 <= q.limit <= Pagination.MaxTake
  }

  /** The query produced by a request that gives no pagination parameter. */
  function DefaultQuery(): (q: PaginationQuery)
    ensures ValidQuery(q)
    ensures q.page == 1 && q.limit == 10 && q.sortOrder == Desc
    ensures q.search.None? && q.sortBy.None?
  {
    PaginationQuery(1, 10, None, None, Desc)
  }

  /** On a validated query the 50-row cap never bites and the first page starts at row 0. */
  lemma ValidatedQueryWindow(q: PaginationQuery)
    requires ValidQuery(q)
    ensures Pagination.GetTake(q.limit) == q.limit
    ensures Pagination.GetSkip(q.page, q.limit) >= 0
    ensures q.page == 1 ==> Pagination.GetSkip(q.page, q.limit) == 0
  {
  }

  class PaginatedResponseDto<T> {
    var data: seq<T>
    var total: nat
    var page: int
    var limit: nat
    var totalPages: nat
    var hasNext: bool
    var hasPrev: bool

    /** The envelope value the object holds. */
    function AsEnvelope(): Pagination.Envelope<T>
      reads this
    {
      Pagination.Envelope(data, total, page, limit, totalPages, hasNext, hasPrev)
    }

    constructor (data: seq<T>, total: nat, page: int, limit: nat)
      requires limit > 0
      ensures this.data == data && this.total == total && this.page == page && this.limit == limit
      ensures totalPages == Pagination.CeilDiv(total, limit)
      ensures hasNext <==> page * limit < total
      ensures hasPrev <==> page > 1
      ensures AsEnvelope() == Pagination.CreatePaginatedResponse(data, total, page, limit)
    {
      this.data := data;
      this.total := total;
      this.page := page;
      this.limit := limit;
      this.totalPages := Pagination.CeilDiv(total, limit);
      new;
      hasNext := page < totalPages;
      hasPrev := page > 1;
      Pagination.BelowLastPage(page, total, limit);
    }
  }
}

=== FILE: post_filters.dfy ===
/**
 * The `where` predicate of the post listings: its shape, what it means for
 * one post, and the two builders of `PostsService` (`findAll` over a
 * validated filter, `findAllCombined` over the raw query string values),
 * which fill it in field by field.
 */
module PostFilters {
  import opened Wrappers
  import opened Text
  import opened Entities

  /** The text columns a `contains` test can name. */
  datatype TextField = Title | Description | City | State | Country

  function FieldText(p: Post, f: TextField): string {
    match f
    case Title => p.title
    case Description => p.description
    case City => p.city
    case State => p.state
    case Country => p.country
  }

  /** One member of an `OR` list: a case-insensitive `contains` on a text column, or `hasSome` on the tags. */
  datatype OrTerm = FieldContains(field: TextField, needle: string) | TagsHaveSome(wanted: seq<string>)

  /** The two reward tests: `{ gt: 0 }` and `{ equals: null }`. */
  datatype RewardTest = RewardPositive | RewardNull

  /**
   * A `where` object. Every field is optional; `or` is the single `OR` key,
   * `and` a list of further `OR` groups that must all hold.
   */
  datatype Where = Where(
    authorId: Option<UserId>,
    category: Option<string>,
    status: Option<string>,
    or: Option<seq<OrTerm>>,
    createdFrom: Option<int>,
    createdUntil: Option<int>,
    reward: Option<RewardTest>,
    tags: Option<seq<string>>,
    and: seq<seq<OrTerm>>)

  /** `{}`: no constraint at all. */
  function EmptyWhere(): Where {
    Where(None, None, None, None, None, None, None, None, [])
  }

  /** `hasSome`: at least one wanted tag is among the post's tags. */
  predicate HasSome(tags: seq<string>, wanted: seq<string>) {
    exists t :: t in wanted && t in tags
  }

  predicate TermHolds(term: OrTerm, p: Post) {
    match term
    case FieldContains(f, q) => ContainsIgnoreCase(FieldText(p, f), q)
    case TagsHaveSome(ws) => HasSome(p.tags, ws)
  }

  /** An `OR` list holds when one of its members holds; the empty list holds for no post. */
  predicate AnyHolds(terms: seq<OrTerm>, p: Post) {
    exists term :: term in terms && TermHolds(term, p)
  }

  predicate RewardPasses(test: RewardTest, reward: Option<int>) {
    match test
    case RewardPositive => reward.Some? && reward.value > 0
    case RewardNull => reward.None?
  }

  /** The store accepts a status only when it is the name of an enum value; any other string is rejected before the query runs. */
  predicate StatusAccepted(w: Where) {
    w.status.None? || ParseStatus(w.status.value).Some?
  }

  /** Whether post `p` satisfies `w`. */
  predicate Matches(w: Where, p: Post) {
    (w.authorId.Some? ==> p.authorId == w.authorId.value) &&
    (w.category.Some? ==> EqualsIgnoreCase(p.category, w.category.value)) &&
    (w.status.Some? ==> p.status.Name() == w.status.value) &&
    (w.or.Some? ==> AnyHolds(w.or.value, p)) &&
    (w.createdFrom.Some? ==> p.createdAt >= w.createdFrom.value) &&
    (w.createdUntil.Some? ==> p.createdAt <= w.createdUntil.value) &&
    (w.reward.Some? ==> RewardPasses(w.reward.value, p.reward)) &&
    (w.tags.Some? ==> HasSome(p.tags, w.tags.value)) &&
    (forall group :: group in w.and ==> AnyHolds(group, p))
  }

  /** `w` as a row selector for the store. */
  function Matcher(w: Where): Post -> bool {
    (p: Post) => Matches(w, p)
  }

  /** The location `OR` group: city, state or country. */
  function LocationTerms(q: string): seq<OrTerm> {
    [FieldContains(City, q), FieldContains(State, q), FieldContains(Country, q)]
  }

  /** The search `OR` group: title, description, or a tag equal to the search term. */
  function SearchTerms(q: string): seq<OrTerm> {
    [FieldContains(Title, q), FieldContains(Description, q), TagsHaveSome([q])]
  }

  predicate LocationHit(q: string, p: Post) {
    ContainsIgnoreCase(p.city, q) || ContainsIgnoreCase(p.state, q) || ContainsIgnoreCase(p.country, q)
  }

  predicate SearchHit(q: string, p: Post) {
    ContainsIgnoreCase(p.title, q) || ContainsIgnoreCase(p.description, q) || q in p.tags
  }

  lemma LocationTermsMeaning(q: string, p: Post)
    ensures AnyHolds(LocationTerms(q), p) <==> LocationHit(q, p)
  {
    var ts := LocationTerms(q);
    assert TermHolds(ts[0], p) <==> ContainsIgnoreCase(p.city, q);
    assert TermHolds(ts[1], p) <==> ContainsIgnoreCase(p.state, q);
    assert TermHolds(ts[2], p) <==> ContainsIgnoreCase(p.country, q);
    assert forall term :: term in ts ==> term == ts[0] || term == ts[1] || term == ts[2];
  }

  lemma SearchTermsMeaning(q: string, p: Post)
    ensures AnyHolds(SearchTerms(q), p) <==> SearchHit(q, p)
  {
    var ts := SearchTerms(q);
    assert TermHolds(ts[0], p) <==> ContainsIgnoreCase(p.title, q);
    assert TermHolds(ts[1], p) <==> ContainsIgnoreCase(p.description, q);
    assert HasSome(p.tags, [q]) <==> q in p.tags by {
      if q in p.tags {
        assert q in [q];
      }
    }
    assert TermHolds(ts[2], p) <==> q in p.tags;
    assert forall term :: term in ts ==> term == ts[0] || term == ts[1] || term == ts[2];
  }

  /** A validated `PostFilterDto`; dates are already timestamps and absent when not given. */
  datatype PostFilter = PostFilter(
    category: Option<string>,
    status: Option<string>,
    location: Option<string>,
    startDate: Option<int>,
    endDate: Option<int>,
    hasReward: Option<bool>,
    tags: Option<seq<string>>,
    search: Option<string>)

  predicate RewardWanted(want: bool, reward: Option<int>) {
    if want then reward.Some? && reward.value > 0 else reward.None?
  }

  /**
   * The posts a filter lets through, written as one condition per filter
   * key. The location condition applies only when no search term is given:
   * the search group takes the place of the location group.
   */
  predicate FilterAdmits(f: PostFilter, p: Post) {
    (Given(f.category) ==> EqualsIgnoreCase(p.category, f.category.value)) &&
    (Given(f.status) ==> p.status.Name() == Upper(f.status.value)) &&
    (Given(f.location) && !Given(f.search) ==> LocationHit(f.location.value, p)) &&
    (Given(f.search) ==> SearchHit(f.search.value, p)) &&
    (f.startDate.Some? ==> p.createdAt >= f.startDate.value) &&
    (f.endDate.Some? ==> p.createdAt <= f.endDate.value) &&
    (f.hasReward.Some? ==> RewardWanted(f.hasReward.value, p.reward)) &&
    (f.tags.Some? && |f.tags.value| > 0 ==> exists t :: t in f.tags.value && t in p.tags)
  }

  function Admitter(f: PostFilter): Post -> bool {
    (p: Post) => FilterAdmits(f, p)
  }

  /** The filter's status, upper-cased, is rejected exactly when it names no status. */
  predicate StatusFilterAccepted(f: PostFilter) {
    !Given(f.status) || ParseStatus(Upper(f.status.value)).Some?
  }

  /** `w` holds, key by key, what the builders put in for filter `f`; the search group takes the `OR` key when both are given. */
  predicate Describes(w: Where, f: PostFilter) {
    w.authorId.None? && w.and == [] &&
    w.category == (if Given(f.category) then f.category else None) &&
    w.status == (if Given(f.status) then Some(Upper(f.status.value)) else None) &&
    w.or == (if Given(f.search) then Some(SearchTerms(f.search.value))
             else if Given(f.location) then Some(LocationTerms(f.location.value))
             else None) &&
    w.createdFrom == f.startDate && w.createdUntil == f.endDate &&
    w.reward == (if f.hasReward.None? then None
                 else if f.hasReward.value then Some(RewardPositive) else Some(RewardNull)) &&
    w.tags == (if f.tags.Some? && |f.tags.value| > 0 then f.tags else None)
  }

  lemma DescribedWhereMeaning(w: Where, f: PostFilter)
    requires Describes(w, f)
    ensures StatusAccepted(w) <==> StatusFilterAccepted(f)
    ensures forall p :: Matches(w, p) <==> FilterAdmits(f, p)
  {
    forall p ensures Matches(w, p) <==> FilterAdmits(f, p) {
      if Given(f.search) {
        SearchTermsMeaning(f.search.value, p);
      } else if Given(f.location) {
        LocationTermsMeaning(f.location.value, p);
      }
    }
  }

  // Each step below sets one key of the `where` object when its filter value is given.

  /** `where.category = { name: { equals, mode: 'insensitive' } }`. */
  method SetCategory(w0: Where, category: Option<string>) returns (w: Where)
    ensures w == w0.(category := if Given(category) then category else w0.category)
  {
    w := w0;
    if Given(category) {
      w := w.(category := Some(category.value));
    }
  }

  /** `where.status = status.toUpperCase()`. */
  method SetStatus(w0: Where, status: Option<string>) returns (w: Where)
    ensures w == w0.(status := if Given(status) then Some(Upper(status.value)) else w0.status)
  {
    w := w0;
    if Given(status) {
      w := w.(status := Some(Upper(status.value)));
    }
  }

  /** `where.OR = [city, state, country contains location]`. */
  method SetLocation(w0: Where, location: Option<string>) returns (w: Where)
    ensures w == w0.(or := if Given(location) then Some(LocationTerms(location.value)) else w0.or)
  {
    w := w0;
    if Given(location) {
      w := w.(or := Some(LocationTerms(location.value)));
    }
  }

  /** `where.createdAt = {}` with `gte` and `lte` set for the bounds that are given. */
  method SetDateRange(w0: Where, start: Option<int>, end: Option<int>) returns (w: Where)
    ensures w == w0.(createdFrom := if start.Some? then start else w0.createdFrom,
                     createdUntil := if end.Some? then end else w0.createdUntil)
  {
    w := w0;
    if start.Some? || end.Some? {
      if start.Some? {
        w := w.(createdFrom := Some(start.value));
      }
      if end.Some? {
        w := w.(createdUntil := Some(end.value));
      }
    }
  }

  /** `where.reward = { gt: 0 }` or `{ equals: null }`. */
  method SetReward(w0: Where, hasReward: Option<bool>) returns (w: Where)
    ensures w == w0.(reward := if hasReward.None? then w0.reward
                               else if hasReward.value then Some(RewardPositive) else Some(RewardNull))
  {
    w := w0;
    if hasReward.Some? {
      if hasReward.value {
        w := w.(reward := Some(RewardPositive));
      } else {
        w := w.(reward := Some(RewardNull));
      }
    }
  }

  /** `where.tags = { hasSome: tags }` for a non-empty list. */
  method SetTags(w0: Where, tags: Option<seq<string>>) returns (w: Where)
    ensures w == w0.(tags := if tags.Some? && |tags.value| > 0 then tags else w0.tags)
  {
    w := w0;
    if tags.Some? && |tags.value| > 0 {
      w := w.(tags := Some(tags.value));
    }
  }

  /** `where.OR = [title, description contains search, tags hasSome [search]]`, replacing any earlier `OR`. */
  method SetSearch(w0: Where, search: Option<string>) returns (w: Where)
    ensures w == w0.(or := if Given(search) then Some(SearchTerms(search.value)) else w0.or)
  {
    w := w0;
    if Given(search) {
      w := w.(or := Some(SearchTerms(search.value)));
    }
  }

  /** The `where` of `findAll`, built one filter key at a time. */
  method BuildWhere(f: PostFilter) returns (w: Where)
    ensures Describes(w, f)
    ensures StatusAccepted(w) <==> StatusFilterAccepted(f)
    ensures forall p :: Matches(w, p) <==> FilterAdmits(f, p)
  {
    w := EmptyWhere();
    w := SetCategory(w, f.category);
    w := SetStatus(w, f.status);
    w := SetLocation(w, f.location);
    w := SetDateRange(w, f.startDate, f.endDate);
    w := SetReward(w, f.hasReward);
    w := SetTags(w, f.tags);
    w := SetSearch(w, f.search);
    DescribedWhereMeaning(w, f);
  }

  /** With a search term given, the location no longer restricts the result. */
  lemma SearchDisplacesLocation(f: PostFilter, p: Post)
    requires Given(f.search)
    ensures FilterAdmits(f, p) <==> FilterAdmits(f.(location := None), p)
  {
  }

  /** The condition the location and search keys were meant to state together: both groups must hold. */
  predicate IntendedAdmits(f: PostFilter, p: Post) {
    FilterAdmits(f, p) && (Given(f.location) ==> LocationHit(f.location.value, p))
  }

  /**
   * A post in Rome whose title mentions "phone" is listed for
   * `location=Paris&search=phone`, although it is not in Paris.
   */
  lemma LocationIgnoredUnderSearch()
    ensures var f := PostFilter(None, None, Some("Paris"), None, None, None, None, Some("phone"));
      var p := Post("p1", "phone", "lost it", Lost, "electronics", "", "Rome", "", "", None, None,
                    None, None, Email, None, [], [], "u1", 0, 0);
      FilterAdmits(f, p) && !IntendedAdmits(f, p)
  {
    var p := Post("p1", "phone", "lost it", Lost, "electronics", "", "Rome", "", "", None, None,
                  None, None, Email, None, [], [], "u1", 0, 0);
    assert Lower("phone") == "phone";
    assert IsPrefix("phone", "phone");
    assert ContainsIgnoreCase(p.title, "phone");
    assert Lower("Paris") == "paris";
    assert Lower("Rome") == "rome";
    assert Lower("") == "";
    NotContained("rome", "paris");
    assert !Contains("", "paris");
  }

  /**
   * A needle longer than what is left of the haystack does not occur in it;
   * `LocationIgnoredUnderSearch` uses it to show that "rome" does not
   * contain "paris".
   */
  lemma {:induction false} NotContained(s: string, q: string)
    requires |s| < |q|
    ensures !Contains(s, q)
    decreases |s|
  {
    if |s| > 0 {
      NotContained(s[1..], q);
    }
  }

  /** The `where` with the location group kept as a separate conjunct beside the search group. */
  method BuildWhereAllGroups(f: PostFilter) returns (w: Where)
    ensures w.authorId.None?
    ensures StatusAccepted(w) <==> StatusFilterAccepted(f)
    ensures forall p :: Matches(w, p) <==> IntendedAdmits(f, p)
  {
    w := BuildWhere(f);
    if Given(f.location) && Given(f.search) {
      w := w.(and := [LocationTerms(f.location.value)]);
      forall p ensures Matches(w, p) <==> IntendedAdmits(f, p) {
        LocationTermsMeaning(f.location.value, p);
      }
    } else {
      forall p ensures Matches(w, p) <==> IntendedAdmits(f, p) {
        if Given(f.location) {
          LocationTermsMeaning(f.location.value, p);
        }
      }
    }
  }

  // ----- findAllCombined: the raw query string values -----

  /** `query.tags` as it arrives: a repeated key (an array), a single string, or some other value. */
  datatype TagsParam = TagList(items: seq<string>) | TagText(raw: string) | TagOther

  /**
   * The raw query of `findAllCombined`. `page` and `limit` are `Number(...)`
   * already applied, None when absent or not a number; only whole,
   * non-negative numbers are represented. Dates are timestamps.
   */
  datatype PostsQuery = PostsQuery(
    page: Option<nat>,
    limit: Option<nat>,
    category: Option<string>,
    status: Option<string>,
    location: Option<string>,
    startDate: Option<int>,
    endDate: Option<int>,
    hasReward: Option<string>,
    tags: Option<TagsParam>,
    search: Option<string>)

  /** The trimmed, non-empty entries of a comma-separated list. */
  function CleanTags(parts: seq<string>): (tags: seq<string>)
    ensures |tags| <= |parts|
  {
    if parts == [] then []
    else
      var t := Trim(parts[0]);
      (if t != "" then [t] else []) + CleanTags(parts[1..])
  }

  /** Cleaning a concatenation cleans each part on its own: the surviving tags keep their input order. */
  lemma {:induction false} CleanTagsAppend(a: seq<string>, b: seq<string>)
    ensures CleanTags(a + b) == CleanTags(a) + CleanTags(b)
  {
    if a != [] {
      assert (a + b)[1..] == a[1..] + b;
      CleanTagsAppend(a[1..], b);
    } else {
      assert a + b == b;
    }
  }

  /** The tags that survive are the non-empty trimmed entries, and nothing else. */
  lemma {:induction false} CleanTagsMembers(parts: seq<string>)
    ensures forall k :: 0 <= k < |parts| && Trim(parts[k]) != "" ==> Trim(parts[k]) in CleanTags(parts)
    ensures forall t :: t in CleanTags(parts) ==> t != "" && exists k :: 0 <= k < |parts| && t == Trim(parts[k])
  {
    if parts != [] {
      CleanTagsMembers(parts[1..]);
      var first := Trim(parts[0]);
      var rest := CleanTags(parts[1..]);
      assert CleanTags(parts) == (if first != "" then [first] else []) + rest;
      forall k | 0 <= k < |parts| && Trim(parts[k]) != "" ensures Trim(parts[k]) in CleanTags(parts) {
        if k > 0 {
          assert parts[1..][k - 1] == parts[k];
        }
      }
      forall t | t in CleanTags(parts) ensures t != "" && exists k :: 0 <= k < |parts| && t == Trim(parts[k]) {
        if t in rest {
          var k :| 0 <= k < |parts[1..]| && t == Trim(parts[1..][k]);
          assert parts[k + 1] == parts[1..][k];
        } else {
          assert t == first;
        }
      }
    }
  }

  /** `tags.split(',').map(t => t.trim()).filter(Boolean)`. */
  function ParseTags(raw: string): seq<string> {
    CleanTags(Split(raw, ','))
  }

  /** `" a , ,b"` parses to `["a", "b"]`: blanks around a tag go, and so does an entry that is only blanks. */
  lemma ParseTagsExample()
    ensures ParseTags(" a , ,b") == ["a", "b"]
  {
    var parts := [" a ", " ", "b"];
    SampleTagsJoin();
    assert forall k :: 0 <= k < |parts| ==> ',' !in parts[k];
    SplitJoin(parts, ',');
    SampleTagsTrim();
    assert CleanTags(parts) == ["a"] + CleanTags([" ", "b"]) by {
      assert parts[1..] == [" ", "b"];
    }
    assert CleanTags([" ", "b"]) == CleanTags(["b"]) by {
      assert [" ", "b"][1..] == ["b"];
    }
  }

  /** The sample tag text is the three entries " a ", " " and "b" joined with commas. */
  lemma SampleTagsJoin()
    ensures Join([" a ", " ", "b"], ',') == " a , ,b"
  {
    assert Join(["b"], ',') == "b";
    assert Join([" ", "b"], ',') == " " + [','] + "b";
  }

  /** Trimming the sample entries. */
  lemma SampleTagsTrim()
    ensures Trim(" a ") == "a" && Trim(" ") == "" && Trim("b") == "b"
  {
    assert TrimStart(" a ") == TrimStart("a ");
    assert TrimStart("a ") == "a ";
    assert TrimEnd("a ") == TrimEnd("a");
    assert TrimStart(" ") == TrimStart("");
  }

  /** A tag as `ParseTags` produces it: non-empty, trimmed and without a comma. */
  predicate CleanTag(t: string) {
    t != "" && Trimmed(t) && ',' !in t
  }

  lemma {:induction false} CleanTagsAreClean(parts: seq<string>)
    requires forall k :: 0 <= k < |parts| ==> ',' !in parts[k]
    ensures forall k :: 0 <= k < |CleanTags(parts)| ==> CleanTag(CleanTags(parts)[k])
  {
    if parts != [] {
      CleanTagsAreClean(parts[1..]);
      var t := Trim(parts[0]);
      TrimIsTrimmed(parts[0]);
      var i, j :| 0 <= i <= j <= |parts[0]| && t == parts[0][i..j];
      assert forall c :: c in t ==> c in parts[0];
      var rest := CleanTags(parts[1..]);
      var tags := CleanTags(parts);
      assert tags == (if t != "" then [t] else []) + rest;
      forall k | 0 <= k < |tags| ensures CleanTag(tags[k]) {
        if t != "" && k == 0 {
          assert tags[k] == t;
        } else {
          assert tags[k] == rest[k - (if t != "" then 1 else 0)];
        }
      }
    }
  }

  /** Every entry of a parsed tag list is non-empty, trimmed and comma-free. */
  lemma ParsedTagsAreClean(raw: string)
    ensures forall k :: 0 <= k < |ParseTags(raw)| ==> CleanTag(ParseTags(raw)[k])
  {
    SplitPartsFree(raw, ',');
    CleanTagsAreClean(Split(raw, ','));
  }

  lemma {:induction false} CleanTagsKeepsClean(tags: seq<string>)
    requires forall k :: 0 <= k < |tags| ==> CleanTag(tags[k])
    ensures CleanTags(tags) == tags
  {
    if tags != [] {
      TrimOfTrimmed(tags[0]);
      CleanTagsKeepsClean(tags[1..]);
      assert tags == [tags[0]] + tags[1..];
    }
  }

  /** Joining clean tags with commas and parsing the result gives back the same list. */
  lemma TagsRoundTrip(tags: seq<string>)
    requires forall k :: 0 <= k < |tags| ==> CleanTag(tags[k])
    ensures ParseTags(Join(tags, ',')) == tags
  {
    if tags == [] {
      assert Split("", ',') == [""];
      assert Trim("") == "";
    } else {
      SplitJoin(tags, ',');
      CleanTagsKeepsClean(tags);
    }
  }

  /** The tag list `findAllCombined` derives from `query.tags`. */
  function QueryTags(t: TagsParam): seq<string> {
    match t
    case TagList(items) => items
    case TagText(raw) => ParseTags(raw)
    case TagOther => []
  }

  /** JavaScript truthiness of `query.tags`: arrays and objects are truthy, a string when non-empty. */
  predicate TagsTruthy(t: TagsParam) {
    !t.TagText? || t.raw != ""
  }

  /** `String(query.hasReward).toLowerCase() === 'true'`. */
  predicate RewardFlag(s: string) {
    Lower(s) == "true"
  }

  /**
   * The raw query read as a `PostFilter`: `hasReward` becomes the test for
   * "true", and `tags` becomes the parsed list when it is truthy.
   */
  function AsFilter(q: PostsQuery): (f: PostFilter)
    ensures f.hasReward.Some? <==> q.hasReward.Some?
    ensures q.hasReward.Some? ==> (f.hasReward.value <==> Lower(q.hasReward.value) == "true")
    ensures f.tags.Some? <==> q.tags.Some? && TagsTruthy(q.tags.value)
  {
    PostFilter(
      q.category,
      q.status,
      q.location,
      q.startDate,
      q.endDate,
      if q.hasReward.Some? then Some(RewardFlag(q.hasReward.value)) else None,
      if q.tags.Some? && TagsTruthy(q.tags.value) then Some(QueryTags(q.tags.value)) else None,
      q.search)
  }

  /** The `where` of `findAllCombined`, built one query key at a time. */
  method BuildCombinedWhere(q: PostsQuery) returns (w: Where)
    ensures Describes(w, AsFilter(q))
    ensures StatusAccepted(w) <==> StatusFilterAccepted(AsFilter(q))
    ensures forall p :: Matches(w, p) <==> FilterAdmits(AsFilter(q), p)
  {
    var hasReward: Option<bool> := None;
    if q.hasReward.Some? {
      hasReward := Some(RewardFlag(q.hasReward.value));
    }
    var tags: Option<seq<string>> := None;
    if q.tags.Some? && TagsTruthy(q.tags.value) {
      tags := Some(QueryTags(q.tags.value));
    }
    assert AsFilter(q) == PostFilter(q.category, q.status, q.location, q.startDate, q.endDate, hasReward, tags, q.search);
    w := EmptyWhere();
    w := SetCategory(w, q.category);
    w := SetStatus(w, q.status);
    w := SetLocation(w, q.location);
    w := SetDateRange(w, q.startDate, q.endDate);
    w := SetReward(w, hasReward);
    w := SetTags(w, tags);
    w := SetSearch(w, q.search);
    DescribedWhereMeaning(w, AsFilter(q));
  }

  /** A comma-separated `tags` string filters exactly like the list of its clean entries. */
  lemma TagTextFiltersLikeList(q: PostsQuery, tags: seq<string>, p: Post)
    requires forall k :: 0 <= k < |tags| ==> CleanTag(tags[k])
    requires |tags| > 0
    ensures FilterAdmits(AsFilter(q.(tags := Some(TagText(Join(tags, ','))))), p)
        <==> FilterAdmits(AsFilter(q.(tags := Some(TagList(tags)))), p)
  {
    TagsRoundTrip(tags);
    assert Join(tags, ',') != "" by {
      assert tags[0] != "";
      JoinStartsWithFirst(tags, ',');
    }
  }

  /** A join is at least as long as its first part, so joining a non-empty first tag is never `""`; used by `TagTextFiltersLikeList`. */
  lemma JoinStartsWithFirst(parts: seq<string>, sep: char)
    requires |parts| > 0
    ensures |Join(parts, sep)| >= |parts[0]|
  {
  }
}

=== FILE: posts.dfy ===
/**
 * `PostsService`: the projection of a post row for clients, the two
 * listings, the single read, and the writes (create, update, remove, like,
 * unlike) with their guards and the author's `postsCount` counter.
 *
 * Reads take a snapshot of the store; writes change a `Store.Db` in place,
 * first the entity and then the counter, as two separate steps.
 */
module Posts {
  import opened Wrappers
  import opened Text
  import opened Entities
  import opened PostFilters
  import Lists
  import Pagination
  import PaginationDto
  import Store

  const PostNotFound := "Post not found"
  const NotYourPostToUpdate := "You can only update your own posts"
  const NotYourPostToDelete := "You can only delete your own posts"
  const AlreadyLiked := "You have already liked this post"
  const LikeNotFound := "Like not found"
  const PostDeleted := "Post deleted successfully"
  const PostLiked := "Post liked successfully"
  const PostUnliked := "Post unliked successfully"
  /** The store's validation error for a `status` that names no `PostStatus`. */
  const InvalidStatus := "Invalid value for argument `status`. Expected PostStatus."

  // ----- the client-facing shape -----

  datatype Coordinates = Coordinates(lat: int, lng: int)

  datatype Location = Location(
    address: string,
    city: string,
    state: string,
    country: string,
    coordinates: Option<Coordinates>)

  datatype ContactInfo = ContactInfo(phone: Option<string>, email: Option<string>, preferredContact: string)

  /** The `_count` part: comments on the post and like rows pointing at it. */
  datatype Counts = Counts(comments: nat, likes: nat)

  datatype PostResponse = PostResponse(
    id: PostId,
    title: string,
    description: string,
    category: string,
    status: string,
    location: Location,
    images: seq<string>,
    reward: Option<int>,
    contactInfo: ContactInfo,
    tags: seq<string>,
    author: AuthorSummary,
    createdAt: int,
    updatedAt: int,
    count: Counts,
    isLiked: bool)

  /**
   * A post as the store returns it with its `include`: the author summary,
   * the two counts, and the likers only when the query loads the `likes`
   * relation (None otherwise).
   */
  datatype PostRow = PostRow(
    post: Post,
    author: AuthorSummary,
    commentCount: nat,
    likeCount: nat,
    likedBy: Option<set<UserId>>)

  /** A JavaScript number that is present and not 0. */
  predicate Truthy(x: Option<int>) {
    x.Some? && x.value != 0
  }

  /** `post.images.map(img => img.url)`. */
  function ImageUrls(images: seq<Image>): (urls: seq<string>)
    ensures |urls| == |images|
    ensures forall i :: 0 <= i < |images| ==> urls[i] == images[i].url
  {
    seq(|images|, i requires 0 <= i < |images| => images[i].url)
  }

  /**
   * `mapToPostResponse`. The enum names go out lower-cased and read back
   * as the stored value once upper-cased; coordinates appear only when
   * both numbers are truthy; a post counts as liked only for a viewer
   * found among loaded likers.
   */
  function MapToPostResponse(row: PostRow, viewer: Option<UserId>): (r: PostResponse)
    ensures r.status == Lower(row.post.status.Name())
    ensures r.contactInfo.preferredContact == Lower(row.post.preferredContact.Name())
    ensures ParseStatus(Upper(r.status)) == Some(row.post.status)
    ensures ParseContact(Upper(r.contactInfo.preferredContact)) == Some(row.post.preferredContact)
    ensures r.title == row.post.title && r.description == row.post.description && r.category == row.post.category
    ensures r.location.address == row.post.address && r.location.city == row.post.city
    ensures r.location.state == row.post.state && r.location.country == row.post.country
    ensures r.reward == row.post.reward
    ensures r.contactInfo.phone == row.post.contactPhone && r.contactInfo.email == row.post.contactEmail
    ensures r.location.coordinates.Some? <==> Truthy(row.post.latitude) && Truthy(row.post.longitude)
    ensures r.location.coordinates.Some? ==>
      r.location.coordinates.value == Coordinates(row.post.latitude.value, row.post.longitude.value)
    ensures r.isLiked <==> Given(viewer) && row.likedBy.Some? && viewer.value in row.likedBy.value
    ensures r.id == row.post.id && r.author == row.author && r.tags == row.post.tags
    ensures r.count == Counts(row.commentCount, row.likeCount)
    ensures r.createdAt == row.post.createdAt && r.updatedAt == row.post.updatedAt
    ensures |r.images| == |row.post.images|
    ensures forall i :: 0 <= i < |r.images| ==> r.images[i] == row.post.images[i].url
  {
    var p := row.post;
    StatusNames(p.status);
    UpperOfLower(p.status.Name());
    ContactNames(p.preferredContact);
    UpperOfLower(p.preferredContact.Name());
    PostResponse(
      p.id, p.title, p.description, p.category, Lower(p.status.Name()),
      Location(p.address, p.city, p.state, p.country,
        if Truthy(p.latitude) && Truthy(p.longitude)
        then Some(Coordinates(p.latitude.value, p.longitude.value)) else None),
      ImageUrls(p.images), p.reward,
      ContactInfo(p.contactPhone, p.contactEmail, Lower(p.preferredContact.Name())),
      p.tags, row.author, p.createdAt, p.updatedAt,
      Counts(row.commentCount, row.likeCount),
      Given(viewer) && row.likedBy.Some? && viewer.value in row.likedBy.value)
  }

  // ----- reads -----

  /** A post with the `include` every query of this service uses: no `likes` relation. */
  function RowOf(t: Tables, p: Post): (row: PostRow)
    requires p.authorId in t.users
    ensures row.post == p && row.likedBy.None?
    ensures row.author.id == p.authorId
    ensures row.likeCount == PostLikeCount(t.postLikes, p.id)
  {
    PostRow(p, AuthorOf(t.users, p.authorId), Lists.Count(t.comments, CommentsOn(p.id)),
      PostLikeCount(t.postLikes, p.id), None)
  }

  /** The same row with the likers loaded as well. */
  function RowWithLikers(t: Tables, p: Post): (row: PostRow)
    requires p.authorId in t.users
    ensures row.post == p && row.likedBy == Some(PostLikers(t.postLikes, p.id))
  {
    RowOf(t, p).(likedBy := Some(PostLikers(t.postLikes, p.id)))
  }

  /** `posts.map(post => this.mapToPostResponse(post, userId))`. */
  function Project(t: Tables, rows: seq<Post>, viewer: Option<UserId>): (r: seq<PostResponse>)
    requires forall p :: p in rows ==> p.authorId in t.users
    ensures |r| == |rows|
    ensures forall i :: 0 <= i < |rows| ==> r[i] == MapToPostResponse(RowOf(t, rows[i]), viewer)
  {
    seq(|rows|, i requires 0 <= i < |rows| => MapToPostResponse(RowOf(t, rows[i]), viewer))
  }

  /** The rows of `findMany` with this include: one per post, in order. */
  function Rows(t: Tables, posts: seq<Post>): (r: seq<PostRow>)
    requires forall p :: p in posts ==> p.authorId in t.users
    ensures |r| == |posts|
    ensures forall i :: 0 <= i < |posts| ==> r[i] == RowOf(t, posts[i])
  {
    seq(|posts|, i requires 0 <= i < |posts| => RowOf(t, posts[i]))
  }

  /** The posts `keep` selects, newest first: the order of `findMany` with `orderBy: { createdAt: 'desc' }`. */
  function Ordered(t: Tables, keep: Post -> bool): (s: seq<Post>)
    ensures Lists.Descending(s, PostCreatedAt)
    ensures forall p :: p in s <==> p in t.posts && keep(p)
    ensures |s| == Lists.Count(t.posts, keep)
  {
    Lists.SortedSelection(t.posts, keep, PostCreatedAt)
  }

  /**
   * `findMany` with `orderBy: { createdAt: 'desc' }`, `skip` and `take`,
   * each row projected for `viewer`.
   */
  function PageOfPosts(t: Tables, keep: Post -> bool, skip: nat, take: nat, viewer: Option<UserId>)
    : (r: seq<PostResponse>)
    requires Joined(t)
    ensures |r| <= take && |r| <= Lists.Count(t.posts, keep)
    ensures forall i :: 0 <= i < |r| ==>
      skip + i < |Ordered(t, keep)| &&
      r[i] == MapToPostResponse(RowOf(t, Ordered(t, keep)[skip + i]), viewer)
  {
    var ordered := Ordered(t, keep);
    var rows := Lists.PageOf(ordered, skip, take);
    Lists.PageRowsComeFromTable(ordered, skip, take);
    Project(t, rows, viewer)
  }

  /** Each entry of the ordered selection is a stored post the selection keeps. */
  lemma OrderedEntry(t: Tables, keep: Post -> bool, k: nat)
    requires k < |Ordered(t, keep)|
    ensures Ordered(t, keep)[k] in t.posts && keep(Ordered(t, keep)[k])
  {
    assert Ordered(t, keep)[k] in Ordered(t, keep);
  }

  /** `resp` is how `viewer` sees some stored post that `keep` admits. */
  predicate ShowsAdmitted(t: Tables, keep: Post -> bool, viewer: Option<UserId>, resp: PostResponse)
    requires Joined(t)
  {
    exists p :: p in t.posts && keep(p) && resp == MapToPostResponse(RowOf(t, p), viewer)
  }

  lemma PageEntrySelected(t: Tables, keep: Post -> bool, skip: nat, take: nat, viewer: Option<UserId>, i: nat)
    requires Joined(t)
    requires i < |PageOfPosts(t, keep, skip, take, viewer)|
    ensures ShowsAdmitted(t, keep, viewer, PageOfPosts(t, keep, skip, take, viewer)[i])
  {
    OrderedEntry(t, keep, skip + i);
  }

  /** Every row of a page is the projection of a stored post the selection admits. */
  lemma PageOfPostsSelected(t: Tables, keep: Post -> bool, skip: nat, take: nat, viewer: Option<UserId>)
    requires Joined(t)
    ensures var r := PageOfPosts(t, keep, skip, take, viewer);
      forall i :: 0 <= i < |r| ==> ShowsAdmitted(t, keep, viewer, r[i])
  {
    var r := PageOfPosts(t, keep, skip, take, viewer);
    forall i | 0 <= i < |r| ensures ShowsAdmitted(t, keep, viewer, r[i]) {
      PageEntrySelected(t, keep, skip, take, viewer, i);
    }
  }

  /** A page is newest first. */
  lemma PageOfPostsNewestFirst(t: Tables, keep: Post -> bool, skip: nat, take: nat, viewer: Option<UserId>)
    requires Joined(t)
    ensures var r := PageOfPosts(t, keep, skip, take, viewer);
      forall i, j :: 0 <= i < j < |r| ==> r[i].createdAt >= r[j].createdAt
  {
    var ordered := Ordered(t, keep);
    var r := PageOfPosts(t, keep, skip, take, viewer);
    forall i, j | 0 <= i < j < |r| ensures r[i].createdAt >= r[j].createdAt {
      assert PostCreatedAt(ordered[skip + i]) >= PostCreatedAt(ordered[skip + j]);
    }
  }

  /**
   * One page of the posts `keep` selects, with PaginationUtil's skip and
   * take, in the envelope built from the count of the same selection.
   */
  function ListPosts(t: Tables, keep: Post -> bool, page: int, limit: nat, viewer: Option<UserId>)
    : (r: Pagination.Envelope<PostResponse>)
    requires Joined(t)
    requires page >= 1 && limit >= 1
    ensures r.total == Lists.Count(t.posts, keep)
    ensures r.page == page && r.limit == limit
    ensures r.totalPages == Pagination.CeilDiv(r.total, limit)
    ensures r.hasNext <==> page * limit < r.total
    ensures r.hasPrev <==> page > 1
    ensures |r.data| <= Pagination.GetTake(limit)
    ensures r.data == PageOfPosts(t, keep, Pagination.GetSkip(page, limit), Pagination.GetTake(limit), viewer)
  {
    Pagination.CreatePaginatedResponse(
      PageOfPosts(t, keep, Pagination.GetSkip(page, limit), Pagination.GetTake(limit), viewer),
      Lists.Count(t.posts, keep), page, limit)
  }

  /**
   * `findAll`: the validated query's page and limit, the `where` object
   * built from the filter, and the page of matching posts. A status that
   * names no `PostStatus` makes the store reject the query.
   */
  method FindAll(t: Tables, pq: PaginationDto.PaginationQuery, f: PostFilter, viewer: Option<UserId>)
    returns (r: Result<Pagination.Envelope<PostResponse>>)
    requires Joined(t)
    requires PaginationDto.ValidQuery(pq)
    ensures r.Err? <==> !StatusFilterAccepted(f)
    ensures r.Err? ==> r.failure == StoreRejected(InvalidStatus)
    ensures r.Ok? ==> r.value == ListPosts(t, Admitter(f), pq.page, pq.limit, viewer)
  {
    var page := if pq.page != 0 then pq.page else 1;
    var limit := if pq.limit != 0 then pq.limit else 10;
    var w := BuildWhere(f);
    if !StatusAccepted(w) {
      return Err(StoreRejected(InvalidStatus));
    }
    Lists.SelectExt(t.posts, Matcher(w), Admitter(f));
    r := Ok(ListPosts(t, Matcher(w), page, limit, viewer));
  }

  /**
   * `findAllCombined`: page and limit default to 1 and 10 but are not
   * bounded, so the offset and the page count use a limit the take caps
   * at 50.
   */
  method FindAllCombined(t: Tables, q: PostsQuery, viewer: Option<UserId>)
    returns (r: Result<Pagination.Envelope<PostResponse>>)
    requires Joined(t)
    ensures r.Err? <==> !StatusFilterAccepted(AsFilter(q))
    ensures r.Err? ==> r.failure == StoreRejected(InvalidStatus)
    ensures r.Ok? ==>
      r.value == ListPosts(t, Admitter(AsFilter(q)), Pagination.NumberOr(q.page, 1), Pagination.NumberOr(q.limit, 10), viewer)
  {
    var page := Pagination.NumberOr(q.page, 1);
    var limit := Pagination.NumberOr(q.limit, 10);
    var w := BuildCombinedWhere(q);
    if !StatusAccepted(w) {
      return Err(StoreRejected(InvalidStatus));
    }
    Lists.SelectExt(t.posts, Matcher(w), Admitter(AsFilter(q)));
    r := Ok(ListPosts(t, Matcher(w), page, limit, viewer));
  }

  /**
   * `findOne` as written: the row is read without its `likes` relation, so
   * the response never says liked, whoever asks.
   */
  function FindOne(t: Tables, id: PostId, viewer: Option<UserId>): (r: Result<PostResponse>)
    requires Joined(t)
    ensures r.Err? <==> FindPost(t.posts, id).None?
    ensures r.Err? ==> r.failure == NotFound(PostNotFound)
    ensures r.Ok? ==> r.value == MapToPostResponse(RowOf(t, FindPost(t.posts, id).value), viewer)
    ensures r.Ok? ==> r.value.id == id && !r.value.isLiked
    ensures r.Ok? ==> r.value.count.likes == PostLikeCount(t.postLikes, id)
  {
    match FindPost(t.posts, id)
    case None => Err(NotFound(PostNotFound))
    case Some(p) => Ok(MapToPostResponse(RowOf(t, p), viewer))
  }

  /** `findOne` with the likers loaded, as `isLiked` evidently intends. */
  function FindOneWithLikes(t: Tables, id: PostId, viewer: Option<UserId>): (r: Result<PostResponse>)
    requires Joined(t)
    ensures r.Err? <==> FindPost(t.posts, id).None?
    ensures r.Err? ==> r.failure == NotFound(PostNotFound)
    ensures r.Ok? ==> r.value.id == id
    ensures r.Ok? ==> (r.value.isLiked <==> Given(viewer) && (viewer.value, id) in t.postLikes)
  {
    match FindPost(t.posts, id)
    case None => Err(NotFound(PostNotFound))
    case Some(p) =>
      var r := MapToPostResponse(RowWithLikers(t, p), viewer);
      assert Given(viewer) ==> (viewer.value in PostLikers(t.postLikes, id) <==> (viewer.value, id) in t.postLikes) by {
        if Given(viewer) && (viewer.value, id) in t.postLikes {
          var l := (viewer.value, id);
          assert l in t.postLikes && l.1 == id;
        }
      }
      Ok(r)
  }

  /** A user who liked a post reads it back as not liked from `findOne`, and as liked once the likers are loaded. */
  lemma LikedPostReadsUnliked(t: Tables, id: PostId, u: UserId)
    requires Joined(t)
    requires FindPost(t.posts, id).Some?
    requires u != "" && (u, id) in t.postLikes
    ensures FindOne(t, id, Some(u)).Ok? && !FindOne(t, id, Some(u)).value.isLiked
    ensures FindOneWithLikes(t, id, Some(u)).Ok? && FindOneWithLikes(t, id, Some(u)).value.isLiked
  {
  }

  // ----- create -----

  /** The categories of the `PostCategory` enum. */
  const Categories: set<string> :=
    {"electronics", "jewelry", "clothing", "documents", "pets", "vehicles", "books", "sports", "other"}

  /** The `PreferredContact` enum values a request carries (lower-case). */
  predicate ContactInput(s: string) {
    s == "phone" || s == "email" || s == "both"
  }

  /** Upper-casing a request's contact value gives a stored name; lower-casing that name gives the value back. */
  lemma ContactInputRoundTrip(s: string)
    requires ContactInput(s)
    ensures ParseContact(Upper(s)).Some?
    ensures Lower(ParseContact(Upper(s)).value.Name()) == s
  {
    if s == "phone" {
      assert Upper(s) == "PHONE";
      assert Lower("PHONE") == s;
    } else if s == "email" {
      assert Upper(s) == "EMAIL";
      assert Lower("EMAIL") == s;
    } else {
      assert Upper(s) == "BOTH";
      assert Lower("BOTH") == s;
    }
  }

  /** A validated `CreatePostDto`; `status` is the enum, whose values are already upper-case. */
  datatype CreatePostInput = CreatePostInput(
    title: string,
    description: string,
    category: string,
    status: Status,
    address: string,
    city: string,
    state: string,
    country: string,
    latitude: Option<int>,
    longitude: Option<int>,
    contactPhone: Option<string>,
    contactEmail: Option<string>,
    preferredContact: string,
    reward: Option<int>,
    tags: seq<string>)

  predicate ValidCreateInput(d: CreatePostInput) {
    5 <= |d.title| <= 100 &&
    10 <= |d.description| <= 2000 &&
    d.category in Categories &&
    ContactInput(d.preferredContact) &&
    (d.reward.Some? ==> 0 <= d.reward.value <= 10000)
  }

  /** `imageUrls.map(url => ({ url, filename: ... }))`. */
  function ImagesFor(urls: seq<string>): (images: seq<Image>)
    ensures |images| == |urls|
    ensures forall i :: 0 <= i < |urls| ==> images[i] == ImageFor(urls[i])
  {
    seq(|urls|, i requires 0 <= i < |urls| => ImageFor(urls[i]))
  }

  /** The row `create` inserts. */
  function NewPost(d: CreatePostInput, userId: UserId, imageUrls: seq<string>, id: PostId, now: int): (p: Post)
    requires ContactInput(d.preferredContact)
    ensures p.id == id && p.authorId == userId && p.status == d.status && p.category == d.category
    ensures Lower(p.preferredContact.Name()) == d.preferredContact
    ensures ImageUrls(p.images) == imageUrls
    ensures p.createdAt == now && p.updatedAt == now
    ensures p.title == d.title && p.description == d.description
    ensures p.address == d.address && p.city == d.city && p.state == d.state && p.country == d.country
    ensures p.latitude == d.latitude && p.longitude == d.longitude
    ensures p.contactPhone == d.contactPhone && p.contactEmail == d.contactEmail
    ensures p.reward == d.reward && p.tags == d.tags
  {
    ContactInputRoundTrip(d.preferredContact);
    var images := ImagesFor(imageUrls);
    assert ImageUrls(images) == imageUrls;
    Post(id, d.title, d.description, d.status, d.category, d.address, d.city, d.state, d.country,
      d.latitude, d.longitude, d.contactPhone, d.contactEmail,
      ParseContact(Upper(d.preferredContact)).value, d.reward, d.tags, images, userId, now, now)
  }

  /** A post under a fresh id has no comments and no likes yet. */
  lemma FreshRowCounts(t: Tables, p: Post)
    requires p.authorId in t.users
    requires forall c :: c in t.comments ==> c.postId != p.id
    requires forall l :: l in t.postLikes ==> l.1 != p.id
    ensures RowOf(t, p).commentCount == 0 && RowOf(t, p).likeCount == 0
  {
    Lists.SelectNone(t.comments, CommentsOn(p.id));
    assert (set l | l in t.postLikes && l.1 == p.id) == {};
  }

  /**
   * `create`: upserts the category, inserts the post with its image rows,
   * then increments the author's `postsCount`. The response echoes the
   * request: its text, location, reward, contact details, tags and image
   * urls, the status and contact values lower-cased; it starts with no
   * comments, no likes and not liked.
   */
  method Create(db: Store.Db, userId: UserId, d: CreatePostInput, imageUrls: seq<string>, id: PostId, now: int)
    returns (r: PostResponse)
    requires db.Valid() && userId in db.users
    requires ValidCreateInput(d)
    requires FreshPostId(db.Snapshot(), id)
    modifies db
    ensures db.Valid()
    ensures db.Snapshot() == old(db.Snapshot()).(
      categories := old(db.categories) + {d.category},
      posts := old(db.posts) + [NewPost(d, userId, imageUrls, id, now)],
      users := Store.BumpPosts(old(db.users), userId, 1))
    ensures r.id == id && r.author.id == userId
    ensures r.status == Lower(d.status.Name()) && r.contactInfo.preferredContact == d.preferredContact
    ensures r.images == imageUrls
    ensures r.count == Counts(0, 0) && !r.isLiked
    ensures r.title == d.title && r.description == d.description && r.category == d.category
    ensures r.location.address == d.address && r.location.city == d.city
    ensures r.location.state == d.state && r.location.country == d.country
    ensures r.location.coordinates.Some? <==> Truthy(d.latitude) && Truthy(d.longitude)
    ensures r.contactInfo.phone == d.contactPhone && r.contactInfo.email == d.contactEmail
    ensures r.reward == d.reward && r.tags == d.tags
    ensures r.createdAt == now && r.updatedAt == now
  {
    db.UpsertCategory(d.category);
    var post := NewPost(d, userId, imageUrls, id, now);
    db.InsertPost(post);
    FreshRowCounts(db.Snapshot(), post);
    r := MapToPostResponse(RowOf(db.Snapshot(), post), None);
    db.AddToPostsCount(userId, 1);
  }

  // ----- update -----

  /** A supplied string that JavaScript treats as true. */
  predicate TruthyText(x: Patch<string>) {
    x.Value? && x.value != ""
  }

  /** A validated `UpdatePostDto`. */
  datatype UpdatePostInput = UpdatePostInput(
    title: Patch<string>,
    description: Patch<string>,
    category: Patch<string>,
    status: Patch<Status>,
    address: Patch<string>,
    city: Patch<string>,
    state: Patch<string>,
    country: Patch<string>,
    latitude: Patch<int>,
    longitude: Patch<int>,
    contactPhone: Patch<string>,
    contactEmail: Patch<string>,
    preferredContact: Patch<string>,
    reward: Patch<int>,
    tags: Patch<seq<string>>)

  predicate ValidUpdateInput(d: UpdatePostInput) {
    (d.title.Value? ==> 5 <= |d.title.value| <= 100) &&
    (d.description.Value? ==> 10 <= |d.description.value| <= 2000) &&
    (d.category.Value? ==> d.category.value in Categories) &&
    (d.preferredContact.Value? ==> ContactInput(d.preferredContact.value)) &&
    (d.reward.Value? ==> 0 <= d.reward.value <= 10000)
  }

  /** The value a text key ends with: `if (x) updateData.k = x`. */
  function TextKey(stored: string, x: Patch<string>): (v: string)
    ensures TruthyText(x) ==> v == x.value
    ensures !TruthyText(x) ==> v == stored
  {
    if TruthyText(x) then x.value else stored
  }

  /**
   * What `update` does to the row, key by key: text keys, the category and
   * the contact preference are written only when truthy; the status when
   * given; the numbers and the contact details whenever they are not
   * undefined; tags whenever given (an array is truthy even when empty).
   * Identity, author, images and creation time stay; the update time
   * becomes `now`.
   */
  predicate UpdateOutcome(p: Post, d: UpdatePostInput, now: int, q: Post) {
    q.id == p.id && q.authorId == p.authorId && q.images == p.images &&
    q.createdAt == p.createdAt && q.updatedAt == now &&
    q.title == TextKey(p.title, d.title) &&
    q.description == TextKey(p.description, d.description) &&
    q.category == TextKey(p.category, d.category) &&
    q.status == (if d.status.Value? then d.status.value else p.status) &&
    q.address == TextKey(p.address, d.address) &&
    q.city == TextKey(p.city, d.city) &&
    q.state == TextKey(p.state, d.state) &&
    q.country == TextKey(p.country, d.country) &&
    q.latitude == DefinedKey(p.latitude, d.latitude) &&
    q.longitude == DefinedKey(p.longitude, d.longitude) &&
    q.contactPhone == DefinedKey(p.contactPhone, d.contactPhone) &&
    q.contactEmail == DefinedKey(p.contactEmail, d.contactEmail) &&
    q.reward == DefinedKey(p.reward, d.reward) &&
    (if TruthyText(d.preferredContact) then Lower(q.preferredContact.Name()) == d.preferredContact.value
     else q.preferredContact == p.preferredContact) &&
    q.tags == (if d.tags.Value? then d.tags.value else p.tags)
  }

  /**
   * The `updateData` object of `update`, applied to the row: one key after
   * the other, each only when its request field passes its test. A local
   * holds the stored value until its key is set.
   */
  method ApplyUpdate(p: Post, d: UpdatePostInput, now: int) returns (q: Post)
    requires ValidUpdateInput(d)
    ensures UpdateOutcome(p, d, now, q)
  {
    var title, description, status, reward := p.title, p.description, p.status, p.reward;
    var address, city, state, country := p.address, p.city, p.state, p.country;
    var latitude, longitude, contactPhone, contactEmail := p.latitude, p.longitude, p.contactPhone, p.contactEmail;
    var preferredContact, tags, category := p.preferredContact, p.tags, p.category;
    if TruthyText(d.title) { title := d.title.value; }
    if TruthyText(d.description) { description := d.description.value; }
    if d.status.Value? { status := d.status.value; }
    if !d.reward.Undefined? { reward := Written(d.reward); }
    if TruthyText(d.address) { address := d.address.value; }
    if TruthyText(d.city) { city := d.city.value; }
    if TruthyText(d.state) { state := d.state.value; }
    if TruthyText(d.country) { country := d.country.value; }
    if !d.latitude.Undefined? { latitude := Written(d.latitude); }
    if !d.longitude.Undefined? { longitude := Written(d.longitude); }
    if !d.contactPhone.Undefined? { contactPhone := Written(d.contactPhone); }
    if !d.contactEmail.Undefined? { contactEmail := Written(d.contactEmail); }
    if TruthyText(d.preferredContact) {
      ContactInputRoundTrip(d.preferredContact.value);
      preferredContact := ParseContact(Upper(d.preferredContact.value)).value;
    }
    if d.tags.Value? { tags := d.tags.value; }
    if TruthyText(d.category) { category := d.category.value; }
    q := Post(p.id, title, description, status, category, address, city, state, country,
      latitude, longitude, contactPhone, contactEmail, preferredContact, reward, tags,
      p.images, p.authorId, p.createdAt, now);
  }

  /** Different contact preferences go out as different lower-case names. */
  lemma ContactLowerNamesDiffer(a: Contact, b: Contact)
    requires a != b
    ensures Lower(a.Name()) != Lower(b.Name())
  {
    assert Lower(a.Name())[0] == LowerChar(a.Name()[0]);
    assert Lower(b.Name())[0] == LowerChar(b.Name()[0]);
  }

  /** Applying the same update twice gives the same row as applying it once. */
  lemma UpdateIdempotent(p: Post, d: UpdatePostInput, now: int, q: Post, q2: Post)
    requires UpdateOutcome(p, d, now, q) && UpdateOutcome(q, d, now, q2)
    ensures q2 == q
  {
    if q2.preferredContact != q.preferredContact {
      ContactLowerNamesDiffer(q2.preferredContact, q.preferredContact);
    }
  }

  /** A request that supplies nothing only moves the update time; empty strings and nulls in the text keys count as nothing. */
  lemma EmptyUpdateOnlyStamps(p: Post, now: int, q: Post)
    requires UpdateOutcome(p, UpdatePostInput(Null, Null, Null, Null, Value(""), Value(""), Null, Value(""),
      Undefined, Undefined, Undefined, Undefined, Null, Undefined, Null), now, q)
    ensures q == p.(updatedAt := now)
  {
  }

  /** An empty phone number, unlike an empty address, is written: it replaces the stored one. */
  lemma EmptyPhoneIsWritten(p: Post, d: UpdatePostInput, now: int, q: Post)
    requires ValidUpdateInput(d)
    requires d.contactPhone == Value("") && d.address == Value("")
    requires UpdateOutcome(p, d, now, q)
    ensures q.contactPhone == Some("") && q.address == p.address
  {
  }

  /**
   * `update`: NotFound for a missing post, Forbidden for someone else's;
   * otherwise the row is replaced by its updated form (and a given
   * category is upserted), and the response shows it with no viewer.
   */
  method Update(db: Store.Db, id: PostId, userId: UserId, d: UpdatePostInput, now: int)
    returns (r: Result<PostResponse>)
    requires db.Valid()
    requires ValidUpdateInput(d)
    modifies db
    ensures db.Valid()
    ensures FindPost(old(db.posts), id).None? ==> r == Err(NotFound(PostNotFound))
    ensures FindPost(old(db.posts), id).Some? && FindPost(old(db.posts), id).value.authorId != userId ==>
      r == Err(Forbidden(NotYourPostToUpdate))
    ensures r.Err? ==> db.Snapshot() == old(db.Snapshot())
    ensures r.Ok? <==> FindPost(old(db.posts), id).Some? && FindPost(old(db.posts), id).value.authorId == userId
    ensures r.Ok? ==> exists q ::
      UpdateOutcome(FindPost(old(db.posts), id).value, d, now, q) &&
      db.Snapshot() == old(db.Snapshot()).(
        categories := old(db.categories) + (if TruthyText(d.category) then {d.category.value} else {}),
        posts := ReplacePost(old(db.posts), q)) &&
      r.value == MapToPostResponse(RowOf(db.Snapshot(), q), None)
  {
    var found := FindPost(db.posts, id);
    if found.None? {
      return Err(NotFound(PostNotFound));
    }
    var post := found.value;
    if post.authorId != userId {
      return Err(Forbidden(NotYourPostToUpdate));
    }
    var updated := ApplyUpdate(post, d, now);
    ghost var categories := db.categories + (if TruthyText(d.category) then {d.category.value} else {});
    if TruthyText(d.category) {
      db.UpsertCategory(d.category.value);
    }
    assert db.Snapshot() == old(db.Snapshot()).(categories := categories);
    db.UpdatePost(updated);
    r := Ok(MapToPostResponse(RowOf(db.Snapshot(), updated), None));
    assert db.Snapshot() == old(db.Snapshot()).(categories := categories, posts := ReplacePost(old(db.posts), updated));
  }

  // ----- remove -----

  /**
   * `remove`: NotFound for a missing post, Forbidden for someone else's;
   * otherwise the row is deleted and then the author's `postsCount` is
   * decremented (with no lower bound).
   */
  method Remove(db: Store.Db, id: PostId, userId: UserId) returns (r: Result<string>)
    requires db.Valid()
    modifies db
    ensures db.Valid()
    ensures FindPost(old(db.posts), id).None? ==> r == Err(NotFound(PostNotFound))
    ensures FindPost(old(db.posts), id).Some? && FindPost(old(db.posts), id).value.authorId != userId ==>
      r == Err(Forbidden(NotYourPostToDelete))
    ensures r.Err? ==> db.Snapshot() == old(db.Snapshot())
    ensures r.Ok? <==> FindPost(old(db.posts), id).Some? && FindPost(old(db.posts), id).value.authorId == userId
    ensures r.Ok? ==> r.value == PostDeleted && userId in old(db.users)
    ensures r.Ok? ==> db.Snapshot() == old(db.Snapshot()).(
      posts := WithoutPost(old(db.posts), id),
      users := Store.BumpPosts(old(db.users), userId, -1))
  {
    var found := FindPost(db.posts, id);
    if found.None? {
      return Err(NotFound(PostNotFound));
    }
    if found.value.authorId != userId {
      return Err(Forbidden(NotYourPostToDelete));
    }
    db.DeletePost(id);
    db.AddToPostsCount(userId, -1);
    r := Ok(PostDeleted);
  }

  // ----- likes -----

  /**
   * `likePost`: NotFound for a missing post, Forbidden when the pair is
   * already there; otherwise exactly that pair is added.
   */
  method LikePost(db: Store.Db, id: PostId, userId: UserId) returns (r: Result<string>)
    requires db.Valid() && userId in db.users
    modifies db
    ensures db.Valid()
    ensures FindPost(db.posts, id).None? ==> r == Err(NotFound(PostNotFound))
    ensures FindPost(db.posts, id).Some? && (userId, id) in old(db.postLikes) ==> r == Err(Forbidden(AlreadyLiked))
    ensures r.Ok? <==> FindPost(db.posts, id).Some? && (userId, id) !in old(db.postLikes)
    ensures r.Err? ==> db.Snapshot() == old(db.Snapshot())
    ensures r.Ok? ==> r.value == PostLiked
    ensures r.Ok? ==> db.Snapshot() == old(db.Snapshot()).(postLikes := old(db.postLikes) + {(userId, id)})
  {
    if FindPost(db.posts, id).None? {
      return Err(NotFound(PostNotFound));
    }
    if (userId, id) in db.postLikes {
      return Err(Forbidden(AlreadyLiked));
    }
    db.AddPostLike((userId, id));
    r := Ok(PostLiked);
  }

  /** `unlikePost`: NotFound when the pair is absent; otherwise exactly that pair is removed. */
  method UnlikePost(db: Store.Db, id: PostId, userId: UserId) returns (r: Result<string>)
    requires db.Valid()
    modifies db
    ensures db.Valid()
    ensures r.Ok? <==> (userId, id) in old(db.postLikes)
    ensures r.Err? ==> r == Err(NotFound(LikeNotFound)) && db.Snapshot() == old(db.Snapshot())
    ensures r.Ok? ==> r.value == PostUnliked
    ensures r.Ok? ==> db.Snapshot() == old(db.Snapshot()).(postLikes := old(db.postLikes) - {(userId, id)})
  {
    if (userId, id) !in db.postLikes {
      return Err(NotFound(LikeNotFound));
    }
    db.RemovePostLike((userId, id));
    r := Ok(PostUnliked);
  }

  /** A like adds one to the post's like count and an unlike takes it away again. */
  lemma LikeCountMoves(likes: set<PostLike>, u: UserId, id: PostId)
    requires (u, id) !in likes
    ensures PostLikeCount(likes + {(u, id)}, id) == PostLikeCount(likes, id) + 1
    ensures (likes + {(u, id)}) - {(u, id)} == likes
  {
    var before := set l | l in likes && l.1 == id;
    var after := set l | l in likes + {(u, id)} && l.1 == id;
    assert after == before + {(u, id)};
  }
}

=== FILE: search.dfy ===
/**
 * `SearchService.searchPosts`: one `OR` over six columns, the page of
 * matching posts newest first, the count of the same selection, and the
 * query echoed back.
 */
module Search {
  import opened Wrappers
  import opened Text
  import opened Entities
  import opened PostFilters
  import Lists
  import Pagination
  import PaginationDto
  import Posts

  /** The `where` literal: title, description, tags, city, state, country. */
  function SearchWhere(query: string): (w: Where)
    ensures w.or == Some(SearchTerms(query) + LocationTerms(query))
    ensures w.authorId.None? && w.category.None? && w.status.None? && w.tags.None? && w.and == []
  {
    EmptyWhere().(or := Some(SearchTerms(query) + LocationTerms(query)))
  }

  /** What a search hit is, said directly. */
  predicate Hit(query: string, p: Post) {
    ContainsIgnoreCase(p.title, query) || ContainsIgnoreCase(p.description, query) ||
    query in p.tags ||
    ContainsIgnoreCase(p.city, query) || ContainsIgnoreCase(p.state, query) || ContainsIgnoreCase(p.country, query)
  }

  /** An `OR` over two lists holds when it holds over one of them. */
  lemma AnyHoldsAppend(a: seq<OrTerm>, b: seq<OrTerm>, p: Post)
    ensures AnyHolds(a + b, p) <==> AnyHolds(a, p) || AnyHolds(b, p)
  {
    if AnyHolds(a + b, p) {
      var term :| term in a + b && TermHolds(term, p);
      assert term in a || term in b;
    }
    if AnyHolds(a, p) {
      var term :| term in a && TermHolds(term, p);
      assert term in a + b;
    }
    if AnyHolds(b, p) {
      var term :| term in b && TermHolds(term, p);
      assert term in a + b;
    }
  }

  /** The `where` literal selects exactly the hits. */
  lemma SearchWhereMeaning(query: string, p: Post)
    ensures Matches(SearchWhere(query), p) <==> Hit(query, p)
  {
    AnyHoldsAppend(SearchTerms(query), LocationTerms(query), p);
    SearchTermsMeaning(query, p);
    LocationTermsMeaning(query, p);
  }

  /** The empty query is a substring of every title, so it selects every post. */
  lemma EmptyQueryMatchesAll(p: Post)
    ensures Matches(SearchWhere(""), p)
  {
    ContainsEmpty(Lower(p.title));
    SearchWhereMeaning("", p);
  }

  /** `author: { select: { id, username, firstName, lastName, avatar } }`. */
  datatype SearchAuthor = SearchAuthor(
    id: UserId,
    username: string,
    firstName: Option<string>,
    lastName: Option<string>,
    avatar: Option<string>)

  /** A matching post with its author and `_count: { comments, likes }`. */
  datatype SearchRow = SearchRow(post: Post, author: SearchAuthor, commentCount: nat, likeCount: nat)

  function SearchRowOf(t: Tables, p: Post): (row: SearchRow)
    requires p.authorId in t.users
    ensures row.post == p && row.author.id == p.authorId
    ensures row.author.username == t.users[p.authorId].username
    ensures row.commentCount == Lists.Count(t.comments, CommentsOn(p.id))
    ensures row.likeCount == PostLikeCount(t.postLikes, p.id)
  {
    var u := t.users[p.authorId];
    SearchRow(p, SearchAuthor(p.authorId, u.username, u.firstName, u.lastName, u.avatar),
      Lists.Count(t.comments, CommentsOn(p.id)), PostLikeCount(t.postLikes, p.id))
  }

  /** The rows `skip` .. `skip + take - 1` of the hits, newest first. */
  function SearchRows(t: Tables, query: string, skip: nat, take: nat): (r: seq<SearchRow>)
    requires Joined(t)
    ensures |r| <= take && |r| <= Lists.Count(t.posts, Matcher(SearchWhere(query)))
    ensures forall i :: 0 <= i < |r| ==>
      skip + i < |Posts.Ordered(t, Matcher(SearchWhere(query)))| &&
      r[i] == SearchRowOf(t, Posts.Ordered(t, Matcher(SearchWhere(query)))[skip + i])
  {
    var ordered := Posts.Ordered(t, Matcher(SearchWhere(query)));
    var rows := Lists.PageOf(ordered, skip, take);
    Lists.PageRowsComeFromTable(ordered, skip, take);
    seq(|rows|, i requires 0 <= i < |rows| => SearchRowOf(t, rows[i]))
  }

  /** Every row is a stored hit, and the rows are newest first. */
  lemma SearchRowsAreHits(t: Tables, query: string, skip: nat, take: nat)
    requires Joined(t)
    ensures var r := SearchRows(t, query, skip, take);
      (forall i :: 0 <= i < |r| ==> r[i].post in t.posts && Hit(query, r[i].post)) &&
      (forall i, j :: 0 <= i < j < |r| ==> r[i].post.createdAt >= r[j].post.createdAt)
  {
    var ordered := Posts.Ordered(t, Matcher(SearchWhere(query)));
    var r := SearchRows(t, query, skip, take);
    forall i | 0 <= i < |r| ensures r[i].post in t.posts && Hit(query, r[i].post) {
      assert ordered[skip + i] in ordered;
      SearchWhereMeaning(query, r[i].post);
    }
    forall i, j | 0 <= i < j < |r| ensures r[i].post.createdAt >= r[j].post.createdAt {
      assert PostCreatedAt(ordered[skip + i]) >= PostCreatedAt(ordered[skip + j]);
    }
  }

  datatype SearchResult = SearchResult(data: seq<SearchRow>, pagination: Pagination.PageInfo, query: string)

  /**
   * `searchPosts`: the page and the count read the same selection; the take
   * is the requested limit, without the 50-row cap; the query comes back
   * unchanged.
   */
  function SearchPosts(t: Tables, query: string, pq: PaginationDto.PaginationQuery): (r: SearchResult)
    requires Joined(t)
    requires PaginationDto.ValidQuery(pq)
    ensures r.query == query
    ensures r.pagination == Pagination.PageInfoOf(Lists.Count(t.posts, Matcher(SearchWhere(query))), pq.page, pq.limit)
    ensures r.data == SearchRows(t, query, Pagination.GetSkip(pq.page, pq.limit), pq.limit)
  {
    SearchResult(
      SearchRows(t, query, Pagination.GetSkip(pq.page, pq.limit), pq.limit),
      Pagination.PageInfoOf(Lists.Count(t.posts, Matcher(SearchWhere(query))), pq.page, pq.limit),
      query)
  }

  /** The total counts the hits and nothing else. */
  lemma TotalCountsHits(t: Tables, query: string)
    ensures Lists.Count(t.posts, Matcher(SearchWhere(query))) == Lists.Count(t.posts, (p: Post) => Hit(query, p))
  {
    forall p ensures Matcher(SearchWhere(query))(p) == Hit(query, p) {
      SearchWhereMeaning(query, p);
    }
    Lists.SelectExt(t.posts, Matcher(SearchWhere(query)), (p: Post) => Hit(query, p));
  }

  /** The empty query pages through the whole posts table. */
  lemma EmptyQueryCountsEveryPost(t: Tables, pq: PaginationDto.PaginationQuery)
    requires Joined(t)
    requires PaginationDto.ValidQuery(pq)
    ensures SearchPosts(t, "", pq).pagination.total == |t.posts|
  {
    forall p ensures Matcher(SearchWhere(""))(p) {
      EmptyQueryMatchesAll(p);
    }
    Lists.SelectAll(t.posts, Matcher(SearchWhere("")));
  }
}

=== FILE: store.dfy ===
/**
 * The relational store behind the services, held in memory: the posts and
 * comments tables in insertion order, the users keyed by id, the two kinds
 * of like rows and the category names. Each method is one write the
 * services issue (`create`, `update`, `delete`, `upsert`, a counter
 * `increment`) and changes one table, keeping the schema's constraints.
 */
module Store {
  import opened Entities

  /** The user `u` with `postsCount` moved by `delta`. */
  function BumpPosts(users: map<UserId, User>, u: UserId, delta: int): (r: map<UserId, User>)
    requires u in users
    ensures r.Keys == users.Keys
    ensures r[u] == users[u].(postsCount := users[u].postsCount + delta)
    ensures forall v :: v in users && v != u ==> r[v] == users[v]
  {
    users[u := users[u].(postsCount := users[u].postsCount + delta)]
  }

  /** The user `u` with `commentsCount` moved by `delta`. */
  function BumpComments(users: map<UserId, User>, u: UserId, delta: int): (r: map<UserId, User>)
    requires u in users
    ensures r.Keys == users.Keys
    ensures r[u] == users[u].(commentsCount := users[u].commentsCount + delta)
    ensures forall v :: v in users && v != u ==> r[v] == users[v]
  {
    users[u := users[u].(commentsCount := users[u].commentsCount + delta)]
  }

  class Db {
    var posts: seq<Post>
    var comments: seq<Comment>
    var users: map<UserId, User>
    var postLikes: set<PostLike>
    var commentLikes: set<CommentLike>
    var categories: set<string>

    /**
     * The constraints the schema enforces: primary keys are unique, a user is
     * stored under its own id, usernames are unique and every post and
     * comment points at an existing author.
     */
    predicate Valid()
      reads this
    {
      UniquePostIds(posts) &&
      UniqueCommentIds(comments) &&
      (forall u :: u in users ==> users[u].id == u) &&
      (forall a, b :: a in users && b in users && users[a].username == users[b].username ==> a == b) &&
      Joined(Snapshot())
    }

    /** The contents of the store at this moment. */
    function Snapshot(): Tables
      reads this
    {
      Tables(posts, comments, users, postLikes, commentLikes, categories)
    }

    constructor ()
      ensures Valid()
      ensures Snapshot() == Tables([], [], map[], {}, {}, {})
    {
      posts := [];
      comments := [];
      users := map[];
      postLikes := {};
      commentLikes := {};
      categories := {};
    }

    /** `category.upsert` by name: afterwards the name exists. */
    method UpsertCategory(name: string)
      requires Valid()
      modifies this
      ensures Valid()
      ensures Snapshot() == old(Snapshot()).(categories := old(categories) + {name})
    {
      categories := categories + {name};
    }

    /** `post.create` with a new id and an existing author. */
    method InsertPost(p: Post)
      requires Valid()
      requires p.authorId in users
      requires forall q :: q in posts ==> q.id != p.id
      modifies this
      ensures Valid()
      ensures Snapshot() == old(Snapshot()).(posts := old(posts) + [p])
    {
      posts := posts + [p];
    }

    /** `post.update` of the row with id `p.id`; the author does not change. */
    method UpdatePost(p: Post)
      requires Valid()
      requires exists q :: q in posts && q.id == p.id && q.authorId == p.authorId
      modifies this
      ensures Valid()
      ensures Snapshot() == old(Snapshot()).(posts := ReplacePost(old(posts), p))
    {
      var r := ReplacePost(posts, p);
      forall x | x in r ensures x.authorId in users {
        var i :| 0 <= i < |r| && r[i] == x;
        assert posts[i] in posts;
      }
      posts := r;
    }

    /** `post.delete` by id. */
    method DeletePost(id: PostId)
      requires Valid()
      modifies this
      ensures Valid()
      ensures Snapshot() == old(Snapshot()).(posts := WithoutPost(old(posts), id))
    {
      SelectPreservesUniquePosts(posts, (p: Post) => p.id != id);
      posts := WithoutPost(posts, id);
    }

    /** `comment.create` with a new id and an existing author. */
    method InsertComment(c: Comment)
      requires Valid()
      requires c.authorId in users
      requires forall q :: q in comments ==> q.id != c.id
      modifies this
      ensures Valid()
      ensures Snapshot() == old(Snapshot()).(comments := old(comments) + [c])
    {
      comments := comments + [c];
    }

    /** `comment.update` of the row with id `c.id`; the author does not change. */
    method UpdateComment(c: Comment)
      requires Valid()
      requires exists q :: q in comments && q.id == c.id && q.authorId == c.authorId
      modifies this
      ensures Valid()
      ensures Snapshot() == old(Snapshot()).(comments := ReplaceComment(old(comments), c))
    {
      var r := ReplaceComment(comments, c);
      forall x | x in r ensures x.authorId in users {
        var i :| 0 <= i < |r| && r[i] == x;
        assert comments[i] in comments;
      }
      comments := r;
    }

    /** `comment.delete` by id. */
    method DeleteComment(id: CommentId)
      requires Valid()
      modifies this
      ensures Valid()
      ensures Snapshot() == old(Snapshot()).(comments := WithoutComment(old(comments), id))
    {
      SelectPreservesUniqueComments(comments, (c: Comment) => c.id != id);
      comments := WithoutComment(comments, id);
    }

    /** `user.update` with `postsCount: { increment: delta }`. */
    method AddToPostsCount(u: UserId, delta: int)
      requires Valid()
      requires u in users
      modifies this
      ensures Valid()
      ensures Snapshot() == old(Snapshot()).(users := BumpPosts(old(users), u, delta))
    {
      users := BumpPosts(users, u, delta);
    }

    /** `user.update` with `commentsCount: { increment: delta }`. */
    method AddToCommentsCount(u: UserId, delta: int)
      requires Valid()
      requires u in users
      modifies this
      ensures Valid()
      ensures Snapshot() == old(Snapshot()).(users := BumpComments(old(users), u, delta))
    {
      users := BumpComments(users, u, delta);
    }

    /** `user.update` writing profile columns: the key, the id and the username stay. */
    method ReplaceUser(v: User)
      requires Valid()
      requires v.id in users && users[v.id].username == v.username
      modifies this
      ensures Valid()
      ensures Snapshot() == old(Snapshot()).(users := old(users)[v.id := v])
    {
      users := users[v.id := v];
    }

    /** `like.create` for a post. */
    method AddPostLike(l: PostLike)
      requires Valid()
      modifies this
      ensures Valid()
      ensures Snapshot() == old(Snapshot()).(postLikes := old(postLikes) + {l})
    {
      postLikes := postLikes + {l};
    }

    /** `like.delete` for a post. */
    method RemovePostLike(l: PostLike)
      requires Valid()
      modifies this
      ensures Valid()
      ensures Snapshot() == old(Snapshot()).(postLikes := old(postLikes) - {l})
    {
      postLikes := postLikes - {l};
    }

    /** `like.create` for a comment. */
    method AddCommentLike(l: CommentLike)
      requires Valid()
      modifies this
      ensures Valid()
      ensures Snapshot() == old(Snapshot()).(commentLikes := old(commentLikes) + {l})
    {
      commentLikes := commentLikes + {l};
    }

    /** `like.delete` for a comment. */
    method RemoveCommentLike(l: CommentLike)
      requires Valid()
      modifies this
      ensures Valid()
      ensures Snapshot() == old(Snapshot()).(commentLikes := old(commentLikes) - {l})
    {
      commentLikes := commentLikes - {l};
    }
  }
}

=== FILE: text.dfy ===
/**
 * String helpers with the meaning JavaScript and the store give them:
 * truthiness of optional strings, ASCII case mapping, substring search,
 * `split` on one separator character and `trim`.
 */
module Text {
  import opened Wrappers

  /** A JavaScript string value that is present and truthy, i.e. not undefined and not "". */
  predicate Given(s: Option<string>) {
    s.Some? && s.value != ""
  }

  function LowerChar(c: char): char {
    if 'A' <= c <= 'Z' then (c as int + 32) as char else c
  }

  function UpperChar(c: char): char {
    if 'a' <= c <= 'z' then (c as int - 32) as char else c
  }

  /** A string with no lower-case ASCII letter, such as an enum name stored by the database. */
  predicate NoLowerLetters(s: string) {
    forall i :: 0 <= i < |s| ==> !('a' <= s[i] <= 'z')
  }

  /** A string with no upper-case ASCII letter. */
  predicate NoUpperLetters(s: string) {
    forall i :: 0 <= i < |s| ==> !('A' <= s[i] <= 'Z')
  }

  /**
   * `toLowerCase` restricted to ASCII letters: the result has no upper-case
   * letter, and a string that had none comes back unchanged.
   */
  function Lower(s: string): (r: string)
    ensures |r| == |s|
    ensures forall i :: 0 <= i < |s| ==> r[i] == LowerChar(s[i])
    ensures NoUpperLetters(r)
    ensures NoUpperLetters(s) ==> r == s
  {
    seq(|s|, i requires 0 <= i < |s| => LowerChar(s[i]))
  }

  /**
   * `toUpperCase` restricted to ASCII letters: the result has no lower-case
   * letter, and a string that had none comes back unchanged.
   */
  function Upper(s: string): (r: string)
    ensures |r| == |s|
    ensures forall i :: 0 <= i < |s| ==> r[i] == UpperChar(s[i])
    ensures NoLowerLetters(r)
    ensures NoLowerLetters(s) ==> r == s
  {
    seq(|s|, i requires 0 <= i < |s| => UpperChar(s[i]))
  }

  /**
   * Case mapping forgets the case it started from: lower-casing an
   * upper-cased string gives the same as lower-casing the original, and the
   * other way round, so `s` and `Upper(s)` are equal ignoring case.
   */
  lemma CaseMapsAgree(s: string)
    ensures Lower(Upper(s)) == Lower(s)
    ensures Upper(Lower(s)) == Upper(s)
  {
    forall i | 0 <= i < |s| ensures Lower(Upper(s))[i] == Lower(s)[i] && Upper(Lower(s))[i] == Upper(s)[i] {
      assert Upper(s)[i] == UpperChar(s[i]);
      assert Lower(s)[i] == LowerChar(s[i]);
    }
  }

  /** Lower-casing for output and upper-casing on the way back in restores an upper-case name. */
  lemma UpperOfLower(s: string)
    requires NoLowerLetters(s)
    ensures Upper(Lower(s)) == s
  {
    var r := Upper(Lower(s));
    forall i | 0 <= i < |s| ensures r[i] == s[i] {
      assert Lower(s)[i] == LowerChar(s[i]);
    }
  }

  predicate IsPrefix(p: string, s: string) {
    |p| <= |s| && s[..|p|] == p
  }

  predicate StartsWith(s: string, p: string) {
    IsPrefix(p, s)
  }

  predicate EndsWith(s: string, suffix: string) {
    |suffix| <= |s| && s[|s| - |suffix|..] == suffix
  }

  /** `q` occurs in `s` as a contiguous substring (the store's `contains`). */
  predicate Contains(s: string, q: string)
    decreases |s|
  {
    IsPrefix(q, s) || (|s| > 0 && Contains(s[1..], q))
  }

  lemma {:induction false} ContainsAt(s: string, q: string, i: nat)
    requires i + |q| <= |s| && s[i..i + |q|] == q
    ensures Contains(s, q)
    decreases i
  {
    if i > 0 {
      assert s[1..][i - 1..i - 1 + |q|] == s[i..i + |q|];
      ContainsAt(s[1..], q, i - 1);
    } else {
      assert s[..|q|] == s[0..|q|];
    }
  }

  /** The empty needle occurs in every string, so an empty search term matches everything. */
  lemma ContainsEmpty(s: string)
    ensures Contains(s, "")
  {
    assert IsPrefix("", s);
  }

  /** The store's case-insensitive `contains` (mode: 'insensitive'). */
  predicate ContainsIgnoreCase(s: string, q: string) {
    Contains(Lower(s), Lower(q))
  }

  /** The store's case-insensitive `equals` (mode: 'insensitive'). */
  predicate EqualsIgnoreCase(a: string, b: string) {
    Lower(a) == Lower(b)
  }

  /** Characters removed by JavaScript's `String.prototype.trim`: white space and line terminators. */
  predicate IsSpace(c: char) {
    var n := c as int;
    n == 0x09 || n == 0x0A || n == 0x0B || n == 0x0C || n == 0x0D || n == 0x20 ||
    n == 0xA0 || n == 0x1680 || (0x2000 <= n <= 0x200A) || n == 0x2028 || n == 0x2029 ||
    n == 0x202F || n == 0x205F || n == 0x3000 || n == 0xFEFF
  }

  function TrimStart(s: string): string
    decreases |s|
  {
    if |s| > 0 && IsSpace(s[0]) then TrimStart(s[1..]) else s
  }

  function TrimEnd(s: string): string
    decreases |s|
  {
    if |s| > 0 && IsSpace(s[|s| - 1]) then TrimEnd(s[..|s| - 1]) else s
  }

  function Trim(s: string): string {
    TrimEnd(TrimStart(s))
  }

  /** Neither end of `s` is a white-space character. */
  predicate Trimmed(s: string) {
    |s| == 0 || (!IsSpace(s[0]) && !IsSpace(s[|s| - 1]))
  }

  lemma {:induction false} TrimStartShape(s: string)
    ensures |TrimStart(s)| <= |s|
    ensures TrimStart(s) == s[|s| - |TrimStart(s)|..]
    ensures |TrimStart(s)| > 0 ==> !IsSpace(TrimStart(s)[0])
    decreases |s|
  {
    if |s| > 0 && IsSpace(s[0]) {
      TrimStartShape(s[1..]);
    }
  }

  lemma {:induction false} TrimEndShape(s: string)
    ensures |TrimEnd(s)| <= |s|
    ensures TrimEnd(s) == s[..|TrimEnd(s)|]
    ensures |TrimEnd(s)| > 0 ==> !IsSpace(TrimEnd(s)[|TrimEnd(s)| - 1])
    decreases |s|
  {
    if |s| > 0 && IsSpace(s[|s| - 1]) {
      TrimEndShape(s[..|s| - 1]);
    }
  }

  /** `trim` leaves no white space at either end and cuts a contiguous piece out of its input. */
  lemma TrimIsTrimmed(s: string)
    ensures Trimmed(Trim(s))
    ensures exists i, j :: 0 <= i <= j <= |s| && Trim(s) == s[i..j]
  {
    var t := TrimStart(s);
    TrimStartShape(s);
    TrimEndShape(t);
    var r := TrimEnd(t);
    if |r| > 0 {
      assert r[0] == t[0];
    }
    var i := |s| - |t|;
    assert r == t[..|r|] == s[i..i + |r|];
  }

  /** A string without white space at its ends is left unchanged by `trim`. */
  lemma TrimOfTrimmed(s: string)
    requires Trimmed(s)
    ensures Trim(s) == s
  {
  }

  /** Index of the first occurrence of `c` in `s`, or `|s|` when there is none. */
  function IndexOfChar(s: string, c: char): (i: nat)
    ensures i <= |s|
    ensures i < |s| ==> s[i] == c
    ensures forall j :: 0 <= j < i ==> s[j] != c
  {
    if |s| == 0 then 0 else if s[0] == c then 0 else 1 + IndexOfChar(s[1..], c)
  }

  /** JavaScript `s.split(sep)` for a one-character separator: "" splits into [""], "a,,b" into ["a", "", "b"]. */
  function Split(s: string, sep: char): (parts: seq<string>)
    ensures |parts| >= 1
    decreases |s|
  {
    var i := IndexOfChar(s, sep);
    if i == |s| then [s] else [s[..i]] + Split(s[i + 1..], sep)
  }

  /** JavaScript `parts.join(sep)`. */
  function Join(parts: seq<string>, sep: char): string {
    if |parts| == 0 then ""
    else if |parts| == 1 then parts[0]
    else parts[0] + [sep] + Join(parts[1..], sep)
  }

  /** No part produced by `split` contains the separator. */
  lemma {:induction false} SplitPartsFree(s: string, sep: char)
    ensures forall k :: 0 <= k < |Split(s, sep)| ==> sep !in Split(s, sep)[k]
    decreases |s|
  {
    var i := IndexOfChar(s, sep);
    if i < |s| {
      SplitPartsFree(s[i + 1..], sep);
      var rest := Split(s[i + 1..], sep);
      assert Split(s, sep) == [s[..i]] + rest;
      forall k | 0 <= k < |Split(s, sep)| ensures sep !in Split(s, sep)[k] {
        if k > 0 {
          assert Split(s, sep)[k] == rest[k - 1];
        }
      }
    }
  }

  /** Joining the parts of a split with the same separator gives back the original string. */
  lemma {:induction false} JoinSplit(s: string, sep: char)
    ensures Join(Split(s, sep), sep) == s
    decreases |s|
  {
    var i := IndexOfChar(s, sep);
    if i < |s| {
      JoinSplit(s[i + 1..], sep);
      var rest := Split(s[i + 1..], sep);
      assert Split(s, sep) == [s[..i]] + rest;
      assert s == s[..i] + [sep] + s[i + 1..];
    }
  }

  /** Splitting a join of separator-free parts gives back exactly those parts. */
  lemma {:induction false} SplitJoin(parts: seq<string>, sep: char)
    requires |parts| >= 1
    requires forall k :: 0 <= k < |parts| ==> sep !in parts[k]
    ensures Split(Join(parts, sep), sep) == parts
    decreases |parts|
  {
    if |parts| > 1 {
      var head := parts[0];
      var tail := Join(parts[1..], sep);
      var s := head + [sep] + tail;
      assert Join(parts, sep) == s;
      IndexOfFirst(head, sep, tail);
      assert s[..|head|] == head;
      assert s[|head| + 1..] == tail;
      SplitJoin(parts[1..], sep);
      assert parts == [head] + parts[1..];
    } else {
      IndexOfAbsent(parts[0], sep);
    }
  }

  /** The last part of a split is whatever follows the last separator. */
  lemma {:induction false} SplitLastAfterSep(prefix: string, name: string, sep: char)
    requires sep !in name
    ensures var parts := Split(prefix + [sep] + name, sep); parts[|parts| - 1] == name
    decreases |prefix|
  {
    var s := prefix + [sep] + name;
    var i := IndexOfChar(s, sep);
    assert s[|prefix|] == sep;
    if i == |prefix| {
      assert s[i + 1..] == name;
      IndexOfAbsent(name, sep);
    } else {
      assert s[i + 1..] == prefix[i + 1..] + [sep] + name;
      SplitLastAfterSep(prefix[i + 1..], name, sep);
    }
  }

  lemma IndexOfAbsent(s: string, c: char)
    requires c !in s
    ensures IndexOfChar(s, c) == |s|
  {
    assert forall k :: 0 <= k < |s| ==> s[k] in s;
  }

  lemma IndexOfFirst(head: string, c: char, tail: string)
    requires c !in head
    ensures IndexOfChar(head + [c] + tail, c) == |head|
  {
    var s := head + [c] + tail;
    assert forall k :: 0 <= k < |head| ==> s[k] == head[k] && head[k] in head;
    assert s[|head|] == c;
  }
}

=== FILE: upload.dfy ===
/**
 * `UploadService.uploadFile`: three guards in a fixed order, then the
 * stored file name (Multer's own, or a fresh id with the original
 * extension) and the file information returned to the client.
 */
module Upload {
  import opened Wrappers
  import opened Text
  import Entities

  const NoFileUploaded := "No file uploaded"
  const InvalidFileType := "Invalid file type. Only JPEG, PNG, and WebP are allowed."
  const FileTooLarge := "File too large. Maximum size is 5MB."

  /** The accepted MIME types. */
  const AllowedTypes: seq<string> := ["image/jpeg", "image/png", "image/webp"]

  /** 5 MiB, the largest accepted size in bytes. */
  const MaxSize: nat := 5 * 1024 * 1024

  /** The part of the multipart upload the service reads; `path` and `filename` are set by disk storage only. */
  datatype MulterFile = MulterFile(
    originalname: string,
    mimetype: string,
    size: nat,
    path: Option<string>,
    filename: Option<string>)

  datatype UploadedFile = UploadedFile(url: string, filename: string, originalName: string, size: nat, mimeType: string)

  /** The first guard that fails, in source order: missing file, then type, then size. */
  function Rejection(file: Option<MulterFile>): (r: Option<Failure>)
    ensures file.None? ==> r == Some(BadRequest(NoFileUploaded))
    ensures file.Some? && file.value.mimetype !in AllowedTypes ==> r == Some(BadRequest(InvalidFileType))
    ensures file.Some? && file.value.mimetype in AllowedTypes && file.value.size > MaxSize ==> r == Some(BadRequest(FileTooLarge))
    ensures r.None? <==> file.Some? && file.value.mimetype in AllowedTypes && file.value.size <= MaxSize
  {
    if file.None? then Some(BadRequest(NoFileUploaded))
    else if file.value.mimetype !in AllowedTypes then Some(BadRequest(InvalidFileType))
    else if file.value.size > MaxSize then Some(BadRequest(FileTooLarge))
    else None
  }

  /** A file of exactly 5 MiB passes; one byte more is refused. */
  lemma SizeBoundIsInclusive(f: MulterFile)
    requires f.mimetype == "image/png"
    ensures Rejection(Some(f.(size := MaxSize))).None?
    ensures Rejection(Some(f.(size := MaxSize + 1))) == Some(BadRequest(FileTooLarge))
  {
    assert f.mimetype in AllowedTypes;
  }

  /** A file of the wrong type is refused as such, whatever its size. */
  lemma TypeCheckedBeforeSize(f: MulterFile)
    requires f.mimetype !in AllowedTypes
    ensures Rejection(Some(f)) == Some(BadRequest(InvalidFileType))
  {
  }

  /**
   * `uploadFile`: when a guard fails, its error; otherwise the name Multer
   * stored the file under when it gave both a path and a file name, or else
   * `freshId` followed by the original name's extension, and the url under
   * `/uploads/`. The original name, size and type are echoed.
   */
  method UploadFile(file: Option<MulterFile>, freshId: string, extension: string) returns (r: Result<UploadedFile>)
    ensures r.Err? <==> Rejection(file).Some?
    ensures r.Err? ==> r.failure == Rejection(file).value
    ensures r.Ok? ==>
      var f := file.value;
      r.value.filename == (if Given(f.path) && Given(f.filename) then f.filename.value else freshId + extension) &&
      r.value.url == "/uploads/" + r.value.filename &&
      r.value.originalName == f.originalname && r.value.size == f.size && r.value.mimeType == f.mimetype
  {
    var rejected := Rejection(file);
    if rejected.Some? {
      return Err(rejected.value);
    }
    var f := file.value;
    var filename: string;
    if Given(f.path) && Given(f.filename) {
      filename := f.filename.value;
    } else {
      filename := freshId + extension;
    }
    r := Ok(UploadedFile("/uploads/" + filename, filename, f.originalname, f.size, f.mimetype));
  }

  /**
   * A returned url, once attached to a post, is recorded as an image whose
   * file name is the uploaded file's name.
   */
  lemma UploadedUrlNamesImage(info: UploadedFile)
    requires info.url == "/uploads/" + info.filename
    requires info.filename != "" && '/' !in info.filename
    ensures Entities.ImageFor(info.url).filename == info.filename
  {
    assert info.url == "/uploads" + "/" + info.filename;
    Entities.ImageNamedAfterLastSegment("/uploads", info.filename);
  }
}

=== FILE: users.dfy ===
/**
 * `UsersService`: the profile projection with its live post and comment
 * counts, the reads by id and by username, the profile update, a user's
 * posts page and the user's statistics.
 */
module Users {
  import opened Wrappers
  import opened Text
  import opened Entities
  import Lists
  import Pagination
  import Posts
  import Store

  const UserNotFound := "User not found"
  /** The store's error when `update` names no row. */
  const RecordToUpdateNotFound := "Record to update not found."

  datatype UserLocation = UserLocation(city: Option<string>, state: Option<string>, country: Option<string>)

  datatype Preferences = Preferences(
    emailNotifications: bool,
    pushNotifications: bool,
    publicProfile: bool,
    showContactInfo: bool)

  datatype ProfileStats = ProfileStats(postsCount: nat, commentsCount: nat, successfulReturns: int, memberSince: int)

  /** `UserProfileDto`. */
  datatype UserProfile = UserProfile(
    id: UserId,
    email: string,
    username: string,
    firstName: Option<string>,
    lastName: Option<string>,
    avatar: Option<string>,
    bio: Option<string>,
    phone: Option<string>,
    location: Option<UserLocation>,
    preferences: Preferences,
    stats: ProfileStats,
    createdAt: int,
    updatedAt: int)

  /** A user row with `_count: { posts, comments }`. */
  datatype UserRow = UserRow(user: User, postCount: nat, commentCount: nat)

  /** The row every read of this service loads: the counts are those of the related rows. */
  function RowOf(t: Tables, u: User): (row: UserRow)
    ensures row.user == u
    ensures row.postCount == Lists.Count(t.posts, ByAuthor(u.id))
    ensures row.commentCount == Lists.Count(t.comments, CommentsBy(u.id))
  {
    UserRow(u, Lists.Count(t.posts, ByAuthor(u.id)), Lists.Count(t.comments, CommentsBy(u.id)))
  }

  /**
   * `mapToUserProfileDto`: the location object exists exactly when one of
   * city, state and country is truthy; the post and comment counts are the
   * row's `_count`, not the stored counters.
   */
  function MapToUserProfileDto(row: UserRow): (r: UserProfile)
    ensures r.id == row.user.id && r.email == row.user.email && r.username == row.user.username
    ensures r.firstName == row.user.firstName && r.lastName == row.user.lastName
    ensures r.avatar == row.user.avatar && r.bio == row.user.bio && r.phone == row.user.phone
    ensures r.location.Some? <==> Given(row.user.city) || Given(row.user.state) || Given(row.user.country)
    ensures r.location.Some? ==> r.location.value == UserLocation(row.user.city, row.user.state, row.user.country)
    ensures r.preferences.emailNotifications == row.user.emailNotifications
    ensures r.preferences.pushNotifications == row.user.pushNotifications
    ensures r.preferences.publicProfile == row.user.publicProfile
    ensures r.preferences.showContactInfo == row.user.showContactInfo
    ensures r.stats.postsCount == row.postCount && r.stats.commentsCount == row.commentCount
    ensures r.stats.successfulReturns == row.user.successfulReturns
    ensures r.stats.memberSince == r.createdAt == row.user.createdAt && r.updatedAt == row.user.updatedAt
  {
    var u := row.user;
    UserProfile(u.id, u.email, u.username, u.firstName, u.lastName, u.avatar, u.bio, u.phone,
      if Given(u.city) || Given(u.state) || Given(u.country) then Some(UserLocation(u.city, u.state, u.country)) else None,
      Preferences(u.emailNotifications, u.pushNotifications, u.publicProfile, u.showContactInfo),
      ProfileStats(row.postCount, row.commentCount, u.successfulReturns, u.createdAt),
      u.createdAt, u.updatedAt)
  }

  /** A profile's counts are whatever the tables hold, even where the stored counters have drifted. */
  lemma ProfileCountsAreLive(t: Tables, u: User)
    requires u.postsCount != Lists.Count(t.posts, ByAuthor(u.id))
    ensures MapToUserProfileDto(RowOf(t, u)).stats.postsCount != u.postsCount
  {
  }

  /** Users are stored under their own id and no two share a username. */
  predicate KeyedUsers(users: map<UserId, User>) {
    (forall u :: u in users ==> users[u].id == u) &&
    (forall a, b :: a in users && b in users && users[a].username == users[b].username ==> a == b)
  }

  /** `findById`: NotFound for an unknown id, otherwise the profile with live counts. */
  function FindById(t: Tables, id: UserId): (r: Result<UserProfile>)
    requires KeyedUsers(t.users)
    ensures r.Err? <==> id !in t.users
    ensures r.Err? ==> r.failure == NotFound(UserNotFound)
    ensures r.Ok? ==> r.value == MapToUserProfileDto(RowOf(t, t.users[id]))
    ensures r.Ok? ==> r.value.id == id && r.value.username == t.users[id].username
    ensures r.Ok? ==> r.value.stats.postsCount == Lists.Count(t.posts, ByAuthor(id))
    ensures r.Ok? ==> r.value.stats.commentsCount == Lists.Count(t.comments, CommentsBy(id))
  {
    if id !in t.users then Err(NotFound(UserNotFound))
    else Ok(MapToUserProfileDto(RowOf(t, t.users[id])))
  }

  /** `findByUsername`: NotFound when no user has that name, otherwise that user's profile. */
  function FindByUsername(t: Tables, username: string): (r: Result<UserProfile>)
    requires KeyedUsers(t.users)
    ensures r.Err? <==> forall u :: u in t.users ==> t.users[u].username != username
    ensures r.Err? ==> r.failure == NotFound(UserNotFound)
    ensures r.Ok? ==> r.value.username == username && r.value.id in t.users
    ensures r.Ok? ==> r == FindById(t, r.value.id)
  {
    if exists u :: u in t.users && t.users[u].username == username then
      var u :| u in t.users && t.users[u].username == username;
      FindById(t, u)
    else
      Err(NotFound(UserNotFound))
  }

  /** Looking a user up by its username gives the same profile as looking it up by id. */
  lemma ByUsernameAgreesWithById(t: Tables, id: UserId)
    requires KeyedUsers(t.users)
    requires id in t.users
    ensures FindByUsername(t, t.users[id].username) == FindById(t, id)
  {
    var r := FindByUsername(t, t.users[id].username);
    assert r.Ok?;
    assert t.users[r.value.id].username == t.users[id].username;
  }

  // ----- updateProfile -----

  /**
   * A validated `UpdateUserDto`. The text fields may be absent or `null`;
   * the preferences are absent or a boolean.
   */
  datatype UpdateUserInput = UpdateUserInput(
    firstName: Patch<string>,
    lastName: Patch<string>,
    bio: Patch<string>,
    phone: Patch<string>,
    city: Patch<string>,
    state: Patch<string>,
    country: Patch<string>,
    emailNotifications: Option<bool>,
    pushNotifications: Option<bool>,
    publicProfile: Option<bool>,
    showContactInfo: Option<bool>)

  predicate ValidUpdateUserInput(d: UpdateUserInput) {
    (d.firstName.Value? ==> |d.firstName.value| <= 50) &&
    (d.lastName.Value? ==> |d.lastName.value| <= 50) &&
    (d.bio.Value? ==> |d.bio.value| <= 500)
  }

  /** The value a preference ends with: an absent key leaves the column alone. */
  function FlagKey(stored: bool, x: Option<bool>): (v: bool)
    ensures x.None? ==> v == stored
    ensures x.Some? ==> v == x.value
  {
    if x.Some? then x.value else stored
  }

  /**
   * The row `user.update` leaves: each of the eleven profile and preference
   * columns takes the request value unless that key is undefined (a `null`
   * text clears the column); the update time becomes `now`. Identity,
   * email, username, avatar, the counters and the creation time are not in
   * the data object and stay.
   */
  function ApplyProfileUpdate(u: User, d: UpdateUserInput, now: int): (v: User)
    ensures v.id == u.id && v.email == u.email && v.username == u.username && v.avatar == u.avatar
    ensures v.postsCount == u.postsCount && v.commentsCount == u.commentsCount
    ensures v.successfulReturns == u.successfulReturns && v.createdAt == u.createdAt
    ensures v.updatedAt == now
    ensures v.firstName == DefinedKey(u.firstName, d.firstName) && v.lastName == DefinedKey(u.lastName, d.lastName)
    ensures v.bio == DefinedKey(u.bio, d.bio) && v.phone == DefinedKey(u.phone, d.phone)
    ensures v.city == DefinedKey(u.city, d.city) && v.state == DefinedKey(u.state, d.state)
    ensures v.country == DefinedKey(u.country, d.country)
    ensures v.emailNotifications == FlagKey(u.emailNotifications, d.emailNotifications)
    ensures v.pushNotifications == FlagKey(u.pushNotifications, d.pushNotifications)
    ensures v.publicProfile == FlagKey(u.publicProfile, d.publicProfile)
    ensures v.showContactInfo == FlagKey(u.showContactInfo, d.showContactInfo)
  {
    u.(firstName := DefinedKey(u.firstName, d.firstName),
       lastName := DefinedKey(u.lastName, d.lastName),
       bio := DefinedKey(u.bio, d.bio),
       phone := DefinedKey(u.phone, d.phone),
       city := DefinedKey(u.city, d.city),
       state := DefinedKey(u.state, d.state),
       country := DefinedKey(u.country, d.country),
       emailNotifications := FlagKey(u.emailNotifications, d.emailNotifications),
       pushNotifications := FlagKey(u.pushNotifications, d.pushNotifications),
       publicProfile := FlagKey(u.publicProfile, d.publicProfile),
       showContactInfo := FlagKey(u.showContactInfo, d.showContactInfo),
       updatedAt := now)
  }

  /** The request with every key undefined. */
  function EmptyUpdate(): UpdateUserInput {
    UpdateUserInput(Undefined, Undefined, Undefined, Undefined, Undefined, Undefined, Undefined, None, None, None, None)
  }

  /** Sending the same update twice leaves the row as the first one did. */
  lemma ProfileUpdateIdempotent(u: User, d: UpdateUserInput, now: int)
    ensures ApplyProfileUpdate(ApplyProfileUpdate(u, d, now), d, now) == ApplyProfileUpdate(u, d, now)
  {
  }

  /** An update with no key only stamps the row. */
  lemma EmptyProfileUpdateOnlyStamps(u: User, now: int)
    ensures ApplyProfileUpdate(u, EmptyUpdate(), now) == u.(updatedAt := now)
  {
  }

  /** Clearing city, state and country with `null` removes the location from the profile. */
  lemma ClearedLocationIsHidden(t: Tables, u: User, d: UpdateUserInput, now: int)
    requires d.city.Null? && d.state.Null? && d.country.Null?
    ensures MapToUserProfileDto(RowOf(t, ApplyProfileUpdate(u, d, now))).location.None?
  {
  }

  /** An empty city with a truthy country still yields a location, carrying the empty city. */
  lemma EmptyCityKeepsLocation(t: Tables, u: User, d: UpdateUserInput, now: int, country: string)
    requires d.city == Value("") && d.country == Value(country) && country != ""
    ensures var loc := MapToUserProfileDto(RowOf(t, ApplyProfileUpdate(u, d, now))).location;
      loc.Some? && loc.value.city == Some("") && loc.value.country == Some(country)
  {
  }

  /**
   * `updateProfile`: one `user.update` by id. An unknown id makes the store
   * reject it; otherwise the row becomes its updated form and the response
   * is its profile with live counts.
   */
  method UpdateProfile(db: Store.Db, userId: UserId, d: UpdateUserInput, now: int) returns (r: Result<UserProfile>)
    requires db.Valid()
    requires ValidUpdateUserInput(d)
    modifies db
    ensures db.Valid()
    ensures r.Err? <==> userId !in old(db.users)
    ensures r.Err? ==> r.failure == StoreRejected(RecordToUpdateNotFound) && db.Snapshot() == old(db.Snapshot())
    ensures r.Ok? ==>
      var v := ApplyProfileUpdate(old(db.users)[userId], d, now);
      db.Snapshot() == old(db.Snapshot()).(users := old(db.users)[userId := v]) &&
      r.value == MapToUserProfileDto(RowOf(db.Snapshot(), v))
  {
    if userId !in db.users {
      return Err(StoreRejected(RecordToUpdateNotFound));
    }
    var v := ApplyProfileUpdate(db.users[userId], d, now);
    db.ReplaceUser(v);
    r := Ok(MapToUserProfileDto(RowOf(db.Snapshot(), v)));
  }

  // ----- getUserPosts -----

  /** The user's posts newest first, rows `skip` .. `skip + take - 1`, each with author, images and counts. */
  function PostRows(t: Tables, userId: UserId, skip: nat, take: nat): (r: seq<Posts.PostRow>)
    requires Joined(t)
    ensures |r| <= take && |r| <= Lists.Count(t.posts, ByAuthor(userId))
    ensures forall i :: 0 <= i < |r| ==>
      skip + i < |Posts.Ordered(t, ByAuthor(userId))| &&
      r[i] == Posts.RowOf(t, Posts.Ordered(t, ByAuthor(userId))[skip + i])
  {
    var ordered := Posts.Ordered(t, ByAuthor(userId));
    var rows := Lists.PageOf(ordered, skip, take);
    Lists.PageRowsComeFromTable(ordered, skip, take);
    Posts.Rows(t, rows)
  }

  /** Every row of the page is a post by the user, and the page is newest first. */
  lemma PostRowsByUser(t: Tables, userId: UserId, skip: nat, take: nat)
    requires Joined(t)
    ensures var r := PostRows(t, userId, skip, take);
      (forall i :: 0 <= i < |r| ==> r[i].post in t.posts && r[i].post.authorId == userId) &&
      (forall i, j :: 0 <= i < j < |r| ==> r[i].post.createdAt >= r[j].post.createdAt)
  {
    var ordered := Posts.Ordered(t, ByAuthor(userId));
    var r := PostRows(t, userId, skip, take);
    forall i | 0 <= i < |r| ensures r[i].post in t.posts && r[i].post.authorId == userId {
      assert ordered[skip + i] in ordered;
    }
    forall i, j | 0 <= i < j < |r| ensures r[i].post.createdAt >= r[j].post.createdAt {
      assert PostCreatedAt(ordered[skip + i]) >= PostCreatedAt(ordered[skip + j]);
    }
  }

  /**
   * `getUserPosts`: the take is capped at 50 but the page count and
   * `hasNext` use the requested limit.
   */
  function GetUserPosts(t: Tables, userId: UserId, page: int, limit: nat): (r: Pagination.Envelope<Posts.PostRow>)
    requires Joined(t)
    requires page >= 1 && limit >= 1
    ensures r.total == Lists.Count(t.posts, ByAuthor(userId))
    ensures r.page == page && r.limit == limit
    ensures r.totalPages == Pagination.CeilDiv(r.total, limit)
    ensures r.hasNext <==> page < r.totalPages
    ensures r.hasPrev <==> page > 1
    ensures |r.data| <= Pagination.MaxTake && |r.data| <= limit
    ensures r.data == PostRows(t, userId, (page - 1) * limit, Pagination.GetTake(limit))
  {
    var total := Lists.Count(t.posts, ByAuthor(userId));
    var totalPages := Pagination.CeilDiv(total, limit);
    Pagination.Envelope(PostRows(t, userId, Pagination.GetSkip(page, limit), Pagination.GetTake(limit)),
      total, page, limit, totalPages, page < totalPages, page > 1)
  }

  /** The `getUserPosts` envelope is the one PaginationUtil builds for the same rows. */
  lemma UserPostsEnvelopeIsStandard(t: Tables, userId: UserId, page: int, limit: nat)
    requires Joined(t)
    requires page >= 1 && limit >= 1
    ensures var r := GetUserPosts(t, userId, page, limit);
      r == Pagination.CreatePaginatedResponse(r.data, r.total, page, limit)
  {
    var r := GetUserPosts(t, userId, page, limit);
    Pagination.BelowLastPage(page, r.total, limit);
  }

  // ----- getUserStats -----

  datatype UserStats = UserStats(
    totalPosts: nat,
    activePosts: nat,
    resolvedPosts: nat,
    totalComments: nat,
    successfulReturns: nat,
    reputation: nat)

  /**
   * `getUserStats`: three counts over the tables; "active" repeats the
   * total and "resolved" repeats the returned posts; the reputation is ten
   * points per returned post and two per comment. An unknown id is not an
   * error: every count is zero.
   */
  function GetUserStats(t: Tables, userId: UserId): (r: UserStats)
    ensures r.totalPosts == Lists.Count(t.posts, ByAuthor(userId)) && r.activePosts == r.totalPosts
    ensures r.successfulReturns == Lists.Count(t.posts, ByAuthorWithStatus(userId, Returned))
    ensures r.resolvedPosts == r.successfulReturns
    ensures r.totalComments == Lists.Count(t.comments, CommentsBy(userId))
    ensures r.reputation == r.successfulReturns * 10 + r.totalComments * 2
    ensures r.successfulReturns <= r.totalPosts
  {
    var posts := Lists.Count(t.posts, ByAuthor(userId));
    var comments := Lists.Count(t.comments, CommentsBy(userId));
    var returned := Lists.Count(t.posts, ByAuthorWithStatus(userId, Returned));
    Lists.CountMonotone(t.posts, ByAuthorWithStatus(userId, Returned), ByAuthor(userId));
    UserStats(posts, posts, returned, comments, returned, returned * 10 + comments * 2)
  }

  /** A user with no rows anywhere has all-zero statistics. */
  lemma {:induction false} UnknownUserStatsAreZero(t: Tables, userId: UserId)
    requires forall p :: p in t.posts ==> p.authorId != userId
    requires forall c :: c in t.comments ==> c.authorId != userId
    ensures GetUserStats(t, userId) == UserStats(0, 0, 0, 0, 0, 0)
  {
    Lists.SelectNone(t.posts, ByAuthor(userId));
    Lists.SelectNone(t.comments, CommentsBy(userId));
    Lists.CountMonotone(t.posts, ByAuthorWithStatus(userId, Returned), ByAuthor(userId));
  }
}

=== FILE: wrappers.dfy ===
/** Optional values and the service layer's error outcomes. */
module Wrappers {

  datatype Option<+T> = None | Some(value: T)

  /** The named conditions the services raise, with the message each one carries. */
  datatype Failure =
    | NotFound(message: string)       // NotFoundException
    | Forbidden(message: string)      // ForbiddenException
    | BadRequest(message: string)     // BadRequestException
    | StoreRejected(message: string)  // an error raised by the store itself (foreign key, missing row)

  datatype Result<+T> = Ok(value: T) | Err(failure: Failure) {
    predicate IsFailure() { Err? }
  }

  /**
   * An optional request field that may also arrive as JSON `null`:
   * validation lets both through, and they are told apart by `!== undefined`.
   */
  datatype Patch<T> = Undefined | Null | Value(value: T)

  /** The value `!== undefined` writes: `null` clears the column. */
  function Written<T>(x: Patch<T>): Option<T>
    requires !x.Undefined?
  {
    if x.Value? then Some(x.value) else None
  }

  /** The value a nullable key ends with: `if (x !== undefined) updateData.k = x`. */
  function DefinedKey<T>(stored: Option<T>, x: Patch<T>): (v: Option<T>)
    ensures x.Undefined? ==> v == stored
    ensures x.Null? ==> v.None?
    ensures x.Value? ==> v == Some(x.value)
  {
    if x.Undefined? then stored else Written(x)
  }
}
